=== FILE: README.md ===
# giskard_core robot compiler, in Dafny

A model of the bookkeeping core of giskard_core. It turns a robot description into the symbolic ingredients of a QP controller.

- **Chain walk** (`Chains`): `chain_joint_names` walks from a tip link up the parent-link tree to a root link. It collects parent joints in root-to-tip order, optionally without fixed joints, and raises one error per kind of missing entry.
- **Joint-variable registry** (`Registry`): `joint_map_`, an insert-if-absent map. Each new moveable joint gets the registry's size as its input number.
- **Forward kinematics** (`Kinematics`): `init_kinematic_chain` and `extract_joint_transforms`. They build `cached(mul([identity] ++ transforms))` for a chain. Each joint contributes its origin frame, then a prismatic translation or a revolute/continuous axis-angle rotation driven by its input.
- **Constraints** (`Constraints`):
  - `get_weight` and `get_velocity_limit`, with their fallback to the `default_joint_weight` and `default_joint_velocity` entries and their safety checks;
  - the controllable (velocity) constraint and hard (position-limit) constraint of a joint.
- **The robot** (`Robots`):
  - both constructors, as a fold of `init_kinematic_chain` over the chains;
  - `get_fk_spec`, `get_joint`, `get_number_of_joints`;
  - `get_controllable_constraints` (sorted by input number), `get_hard_constraints` (in joint-name order) and `get_scope`;
  - the invariant `Robots.Valid` that every constructed robot satisfies.
- **Scope** (`Scopes`): four independent name-to-expression tables with add-once / find-or-fail semantics. `find_expression` uses the priority double > vector > rotation > frame. Expressions are an opaque type parameter.
- **Specifications** (`Specs`, `SpecEval`):
  - the `Spec` class hierarchy, restricted to the kinds the robot and the generator build, as a datatype;
  - each kind's structural `equals`, `operator==` and `operator!=`;
  - a real-valued evaluator for the arithmetic fragment (constants, inputs, n-ary addition, subtraction, multiplication and division).
- **Controller generator** (`Generator`), naming and indexing only:
  - goal-input names;
  - `get_chains`;
  - allocation of goal-input variables right after the joint variables;
  - the goal-input getters;
  - the observable-name layout;
  - the soft constraints each controller contributes;
  - the `max_speed <= 0` guards.

`std::map` is a Dafny `map`. Its iteration order is modelled explicitly:
- `Order.SortedStrings` gives string keys in `std::string::compare` order;
- `Robots.ChainKeyLess` orders `std::pair` keys.

An empty `shared_ptr` is the constructor `Specs.Empty`. Exceptions are `Failure` values of one error datatype, `Errors.Error`, with one constructor per `throw`.

## Model

| member | source | states |
|---|---|---|
| Chains.ChainJointNames | include/giskard_core/robot.hpp:156-186 | the chain from a link to itself is empty; at a tip that is missing from `links_`, maps to an empty pointer, has no parent joint, or has no parent-link entry, the call fails with that specific error |
| Chains.ChainJoints | include/giskard_core/robot.hpp:156-186 | the chain from a link to itself is empty; without fixed joints, every joint returned is moveable |
| Chains.Walk | include/giskard_core/robot.hpp:160-182 | a walk that skips fixed joints returns only moveable joints |
| Chains.WalkSkipsFixed | include/giskard_core/robot.hpp:175-176 | the walk without fixed joints succeeds exactly when the full walk does, fails with the same error, and returns the full list with fixed joints dropped, order preserved |
| Chains.ChainWithoutFixed | include/giskard_core/robot.hpp:156-186 | `chain_joint_names(root, tip, false)` is `chain_joint_names(root, tip, true)` with fixed joints dropped, order preserved; both fail alike |
| Chains.WalkConnects | include/giskard_core/robot.hpp:160-185 | on a consistent description, a successful walk from any link is a connected path of joints from the root to that link |
| Chains.ChainIsConnected | include/giskard_core/robot.hpp:156-186 | on a consistent description, the full chain is a path: the first joint hangs off the root, each child link is the next joint's parent, and the last child is the tip |
| Chains.ContinuousJointNames | include/giskard_core/robot.hpp:193-202 | succeeds exactly when the moveable-chain walk does; holds exactly the moveable chain joints whose type is continuous |
| Chains.IsContinuousJoint | include/giskard_core/robot.hpp:188-191 | a joint reported continuous is moveable, so it always has a joint variable |
| Registry.RegisterJoint | include/giskard_core/robot.hpp:221-222 | a known joint leaves the registry unchanged; a new one gets the registry's current size |
| Registry.Register | include/giskard_core/robot.hpp:220-222 | the registry afterwards holds the old joints plus the chain's joints, and old joints keep their numbers |
| Registry.RegisterJointKeepsDense | include/giskard_core/robot.hpp:221-222 | registering one joint keeps the numbers exactly 0..n-1, one per joint |
| Registry.RegisterKeepsDense | include/giskard_core/robot.hpp:220-222 | registering a chain keeps the numbers exactly 0..n-1, one per joint |
| Registry.FirstNewJointGetsSize | include/giskard_core/robot.hpp:222 | the chain's first joint, if new, gets the registry's size before the call |
| Registry.NewJointsNumberedAfter | include/giskard_core/robot.hpp:220-222 | every newly registered joint is numbered at or above the old size, so no old number is reused |
| Registry.RegisterKnownIsIdentity | include/giskard_core/robot.hpp:221 | registering joints that are all known changes nothing |
| Registry.RegisterTwice | include/giskard_core/robot.hpp:220-222 | registering the same chain twice is registering it once |
| Registry.RegisterCount | include/giskard_core/robot.hpp:220-222 | the registry size is the number of distinct joint names seen |
| Kinematics.JointInput | include/giskard_core/robot.hpp:131-137 | `get_joint` succeeds exactly for registered joints, giving the input of the joint's number; otherwise it fails with the joint's name |
| Kinematics.JointTransforms | include/giskard_core/robot.hpp:269-301 | planar and floating joints are rejected, and so is a moveable joint missing from the registry; otherwise the result is the origin frame, followed for a moveable joint by its motion on the joint's registered input, so fixed joints give one transform and moveable ones two |
| Kinematics.ChainTransforms | include/giskard_core/robot.hpp:224-234 | succeeds exactly when every chain joint is a non-empty entry of the description with supported transforms (an unknown joint and an empty pointer fail, as do planar and floating joints); the result has one transform per joint plus one per moveable joint |
| Kinematics.FkSpec | include/giskard_core/robot.hpp:224-235 | the chain's specification is a cached frame product whose first factor is the identity frame, followed by exactly the chain's joint transforms, so it has 1 + joints + moveable joints factors; it fails exactly when the transforms do |
| Kinematics.ChainTransformsCons | include/giskard_core/robot.hpp:225-233 | the transforms of a chain are the first joint's transforms followed by those of the rest, so they come in root-to-tip order and a chain succeeds only if its first joint and its remainder do |
| Kinematics.IdentityWellformed | include/giskard_core/robot.hpp:224 | the identity frame that starts every chain product, and the zero vector of a rotation's transform, hold no empty pointer and no input |
| Kinematics.ToVectorSpec | include/giskard_core/robot.hpp:32-36 | `to_vector_spec` is a vector constructor of constants whose components evaluate to the vector's coordinates under every input; it holds no empty pointer and no input |
| Kinematics.ToQuaternionSpec | include/giskard_core/robot.hpp:38-41 | `to_quaternion_spec` is a constant quaternion, holding no empty pointer and no input |
| Kinematics.ToFrameSpec | include/giskard_core/robot.hpp:43-46 | `to_frame_spec` is a frame constructor whose rotation is the pose's quaternion and whose translation evaluates to the pose's position under every input; it holds no empty pointer and no input |
| Kinematics.Motion | include/giskard_core/robot.hpp:285-293 | a prismatic joint gives the identity rotation and the translation `axis * q`, with `axis` the joint's own axis; a revolute or continuous joint gives a zero translation and the axis-angle rotation about the joint's own axis by `q`; the transform reads no input beyond its variable's, and is well formed when the variable is |
| Kinematics.JointTransformsWellformed | include/giskard_core/robot.hpp:269-301 | every transform of a joint is well formed and refers only to registered inputs |
| Kinematics.ChainTransformsWellformed | include/giskard_core/robot.hpp:224-234 | every transform of a chain is well formed and refers only to registered inputs |
| Kinematics.FkSpecWellformed | include/giskard_core/robot.hpp:224-235 | a chain's forward kinematics holds no empty pointer, refers only to registered inputs, and equals itself |
| Constraints.Configured | include/giskard_core/robot.hpp:308-311 | the joint's own entry wins, else the default entry, else nothing |
| Constraints.Weight | include/giskard_core/robot.hpp:319-332 | fails exactly when there is no configured weight or it is negative (with the matching error); otherwise gives that non-negative weight |
| Constraints.VelocityLimit | include/giskard_core/robot.hpp:303-317 | without a threshold the description's limit is used; a configured threshold above that limit is rejected; any result is at most the limit |
| Constraints.Controllable | include/giskard_core/robot.hpp:240-248 | succeeds exactly when weight and velocity limit resolve, reporting the weight error first; the constraint carries the joint's name and input, the weight, and bounds -v and +v |
| Constraints.Hard | include/giskard_core/robot.hpp:257-264 | only revolute and prismatic joints get a hard constraint, whose expression is the joint's input |
| Constraints.OwnEntryWins | include/giskard_core/robot.hpp:322-325 | an explicit entry for the joint takes precedence over the default entry, which applies otherwise |
| Constraints.ControllableBounds | include/giskard_core/robot.hpp:244-246 | the velocity bounds evaluate to -v and +v and the weight to a non-negative number, so the lower bound is at most the upper one exactly when v >= 0 |
| Constraints.NegativeThresholdInvertsBounds | include/giskard_core/robot.hpp:308-316 | a negative threshold passes the check and gives a lower bound above the upper one |
| Constraints.DistanceToLimit | include/giskard_core/robot.hpp:261-262 | `limit - q` evaluates to the limit minus the joint position |
| Constraints.HardLowerBound | include/giskard_core/robot.hpp:261 | the lower bound evaluates to lower limit minus joint position |
| Constraints.HardUpperBound | include/giskard_core/robot.hpp:262 | the upper bound evaluates to upper limit minus joint position |
| Constraints.InsideLimitsAdmitsZero | include/giskard_core/robot.hpp:257-264 | within its limits a joint's hard bounds are <= 0 and >= 0, so standing still is admissible |
| Robots.ControllableStep | include/giskard_core/robot.hpp:240-246 | a successful step concerns a described, registered joint and is that joint's controllable constraint |
| Robots.AddControllables | include/giskard_core/robot.hpp:237-249 | the loop adds exactly the chain's joints, keeps existing constraints, and gives each new joint its own constraint |
| Robots.ControllableAdd | include/giskard_core/robot.hpp:238-248 | a joint that already has a constraint is skipped; a new one gets its controllable constraint and nothing else changes |
| Robots.HardStep | include/giskard_core/robot.hpp:252-264 | an existing entry is skipped; otherwise the joint must be described, and it gets an entry exactly when position-limited, namely its hard constraint; other entries are unchanged |
| Robots.AddHards | include/giskard_core/robot.hpp:251-265 | existing entries are kept, only chain joints are added, and each new chain joint has an entry exactly when position-limited |
| Robots.InitChain | include/giskard_core/robot.hpp:215-267 | initialising a chain leaves the description, parent tree, weights, thresholds and root link untouched |
| Robots.Extend | include/giskard_core/robot.hpp:220-265 | the additions of one chain leave the description, parent tree, weights, thresholds and root link untouched |
| Robots.InitChains | include/giskard_core/robot.hpp:73-74 | folding over the chains records exactly the given chains in addition to the old ones, registers exactly the old joints plus every chain's moveable joints, leaves the description and parent tree alone, and keeps the robot valid |
| Robots.Create | include/giskard_core/robot.hpp:52-63 | a robot built from tip links is valid, has exactly one chain from the root link to each tip, and has a joint variable for exactly the moveable joints of those chains |
| Robots.TipChains | include/giskard_core/robot.hpp:61-62 | chain i runs from the root link to tip i |
| Robots.CreateFromChains | include/giskard_core/robot.hpp:65-75 | a robot built from explicit chains is valid, has exactly those chains, and has a joint variable for exactly the moveable joints of all of them |
| Robots.JointCountOfChains | include/giskard_core/robot.hpp:139-142 | `get_number_of_joints` of a robot built from chains is the number of distinct moveable joints over all of them |
| Robots.GetFkSpec | include/giskard_core/robot.hpp:82-88 | succeeds exactly for an initialised chain, returning its specification, and otherwise fails naming the chain |
| Robots.NumberOfJoints | include/giskard_core/robot.hpp:139-142 | the number of joints equals the number of controllable constraints and bounds every joint's input number |
| Robots.ValidIsNumbered | include/giskard_core/robot.hpp:220-248 | in a valid robot the controllable constraints' input numbers are exactly 0..n-1 |
| Robots.GetControllableConstraints | include/giskard_core/robot.hpp:95-109 | the result lists every controllable constraint exactly once, and entry i constrains input i |
| Robots.SortByInput | include/giskard_core/robot.hpp:97-106 | sorting by input number gives a permutation of the constraints in which entry i has input number i |
| Robots.GetHardConstraints | include/giskard_core/robot.hpp:111-119 | lists exactly the hard constraints, one per entry of the map, entry i being that of the i-th joint name in ascending order |
| Robots.GetScope | include/giskard_core/robot.hpp:121-129 | one scope entry per chain, named after the chain's tip link and holding its forward kinematics, in the order of the chain keys (root link, then tip link) |
| Robots.SortedChainKeys | include/giskard_core/robot.hpp:207 | iterating `fk_map_` visits every chain key once, in strictly ascending (root link, tip link) order |
| Robots.InitChainRecordsChain | include/giskard_core/robot.hpp:235 | the chain is recorded once, earlier chains keep their specifications, and registered joints keep their numbers |
| Robots.FreshIsValid | include/giskard_core/robot.hpp:52-59 | a robot with no chain satisfies the invariant |
| Robots.InitChainKeepsValidIf | include/giskard_core/robot.hpp:215-267 | a successful initialisation of a valid robot gives a valid robot |
| Robots.InitChainKeepsValid | include/giskard_core/robot.hpp:215-267 | initialising a chain keeps numbering dense, constraints consistent with the registry, and forward kinematics within registered inputs |
| Robots.JointsStayValid | include/giskard_core/robot.hpp:220-222 | after registration, every registered joint is described and dense |
| Robots.ControllablesStayValid | include/giskard_core/robot.hpp:237-249 | after the controllable loop, every registered joint has exactly its own controllable constraint |
| Robots.HardsStayValid | include/giskard_core/robot.hpp:251-265 | after the hard loop, exactly the position-limited registered joints have their hard constraint |
| Robots.FkStaysValid | include/giskard_core/robot.hpp:235 | specifications of earlier chains stay within the grown registry |
| Robots.AddControllablesKnown | include/giskard_core/robot.hpp:237-238 | joints that all have a constraint already add nothing |
| Robots.AddHardsStable | include/giskard_core/robot.hpp:251-257 | joints that have an entry or are not position-limited add nothing |
| Robots.InitChainIdempotent | include/giskard_core/robot.hpp:215-267 | initialising the same chain a second time changes nothing |
| Robots.ExtendIdempotent | include/giskard_core/robot.hpp:220-265 | repeating a chain's additions changes nothing |
| Robots.AddControllablesTwice | include/giskard_core/robot.hpp:237-249 | the controllable loop repeated over the same joints changes nothing |
| Robots.AddHardsTwice | include/giskard_core/robot.hpp:251-265 | the hard loop repeated over the same joints changes nothing |
| Robots.ExtendUnchanged | include/giskard_core/robot.hpp:220-265 | a chain whose joints, specification and constraints are already present leaves the robot as it is |
| Robots.NoWeightsNoJoints | include/giskard_core/robot.hpp:319-327 | with an empty weight map, only chains without moveable joints can be initialised |
| Robots.InitChainCountsJoints | include/giskard_core/robot.hpp:217-222 | the registry grows by exactly the chain's moveable joints, so the joint count is the number of distinct ones |
| Robots.HardConstraintsOfLimitedJoints | include/giskard_core/robot.hpp:251-265 | every hard constraint belongs to a registered, position-limited joint, and every such joint has one |
| Scopes.Scope.Find | include/giskard_core/scope.hpp:33-76 | fails exactly when the name is absent from that table; otherwise gives the stored expression |
| Scopes.HasAfterAdd | include/giskard_core/scope.hpp:95-113 | `has_*_expression` answers yes exactly for names added to its own table: an add changes the answer only for that table and name |
| Scopes.Scope.Add | include/giskard_core/scope.hpp:123-157 | fails exactly when the name is taken in that table; otherwise the name is found with the new expression, old entries are kept, and the other three tables are unchanged |
| Scopes.Scope.FindExpression | include/giskard_core/scope.hpp:78-93 | fails exactly when no table has the name; otherwise gives the entry of the first table in the order double, vector, rotation, frame |
| Scopes.Scope.HasExpression | include/giskard_core/scope.hpp:115-121 | `has_expression` holds exactly when some table has the name |
| Scopes.Scope.Names | include/giskard_core/scope.hpp:159-189 | the names are exactly the table's keys, ascending and without repetition |
| Scopes.EmptyScope | include/giskard_core/scope.hpp:191-195 | a new scope has no name in any table |
| Scopes.AddTwiceFails | include/giskard_core/scope.hpp:123-130 | a second add of a name to one table fails and the first expression stays |
| Scopes.TablesAreIndependent | include/giskard_core/scope.hpp:123-157 | a name taken in one table can still be added to another, and the first entry stays |
| Scopes.AddsCommute | include/giskard_core/scope.hpp:123-157 | adds to two different tables commute |
| Specs.Equals | include/giskard_core/specifications.hpp:1438-1455 | equal specifications are of the same concrete kind and hold no empty pointer |
| Specs.EqualOp | include/giskard_core/specifications.hpp:44-47 | `a == b` holds only for specifications of one kind with no empty pointer on either side |
| Specs.NotEqualOp | include/giskard_core/specifications.hpp:49-52 | specifications of different kinds, or with an empty pointer on either side, are always unequal |
| Specs.PointwiseEquals | include/giskard_core/specifications.hpp:301-319 | n-ary inputs match only with equal length and no empty input on either side |
| Specs.DifferentKindsUnequal | include/giskard_core/specifications.hpp:178-181 | specifications of different concrete kinds are never equal, in either direction |
| Specs.ConstEquality | include/giskard_core/specifications.hpp:178-185 | constants are equal exactly when closer than epsilon; this is symmetric and reflexive |
| Specs.ConstEqualityNotTransitive | include/giskard_core/specifications.hpp:178-185 | 0 equals 6e-7 and 6e-7 equals 1.2e-6, but 0 does not equal 1.2e-6 |
| Specs.LeafEquality | include/giskard_core/specifications.hpp:224-230 | inputs are equal exactly when their numbers are, references exactly when their names are |
| Specs.EqualsReflexive | include/giskard_core/specifications.hpp:2549-2567 | a specification equals itself exactly when it holds no empty pointer |
| Specs.PointwiseReflexive | include/giskard_core/specifications.hpp:2549-2567 | a list of inputs matches itself exactly when every input is well formed |
| Specs.EqualsSymmetric | include/giskard_core/specifications.hpp:44-47 | `a == b` and `b == a` always agree |
| Specs.NotEqualIsComplement | include/giskard_core/specifications.hpp:49-52 | `a != b` is the negation of `b == a` |
| Specs.NaryEquality | include/giskard_core/specifications.hpp:372-390 | two n-ary specifications of one kind are equal exactly when they have the same length, no empty input on either side, and pointwise equal inputs |
| Specs.CopyVectorAsWrittenDiffers | include/giskard_core/specifications.hpp:1396-1397 | the copy of the vector (1, 2, 3) is (1, 1, 1), which compares unequal to the original |
| Specs.CopyVectorIsFaithful | include/giskard_core/specifications.hpp:1396-1397 | the intended copy equals its original exactly when the original is well formed, and compares like it with every specification |
| Specs.CopyVectorAsWritten | include/giskard_core/specifications.hpp:1396-1397 | the copy as written is the original exactly when all three components are the x component |
| Specs.CopyVector | include/giskard_core/specifications.hpp:1394-1397 | the corrected copy is the original |
| SpecEval.Eval | include/giskard_core/specifications.hpp:330-338 | evaluation succeeds only on arithmetic specifications whose inputs all lie in the input vector |
| SpecEval.EvalAll | include/giskard_core/specifications.hpp:333-335 | the inputs evaluate in order, one value per input |
| SpecEval.AddFromIsSum | include/giskard_core/specifications.hpp:330-338 | the accumulating addition loop computes the start value plus the sum |
| SpecEval.MulFromIsProduct | include/giskard_core/specifications.hpp:530-539 | the accumulating multiplication loop computes the start value times the product |
| SpecEval.EvalAddition | include/giskard_core/specifications.hpp:330-338 | addition is the sum of the inputs, and 0 without inputs |
| SpecEval.EvalMultiplication | include/giskard_core/specifications.hpp:530-539 | multiplication is the product of the inputs, and 1 without inputs |
| SpecEval.EvalSubtraction | include/giskard_core/specifications.hpp:401-422 | fails without inputs, negates a single input, and otherwise subtracts the sum of the rest from the first |
| SpecEval.EvalDivision | include/giskard_core/specifications.hpp:602-623 | fails without inputs, inverts a single input, and otherwise divides the first by the product of the rest (a zero divisor is an error) |
| SpecEval.EvalFailurePropagates | include/giskard_core/specifications.hpp:401-422 | an input that fails to evaluate makes every n-ary arithmetic kind fail |
| Order.SortedStrings | include/giskard_core/scope.hpp:159-165 | map iteration gives every key once, in strictly ascending string order |
| Order.ValuesInKeyOrder | include/giskard_core/robot.hpp:113-118 | copying a map's values gives each value once per key, value i being that of the i-th key in ascending order |
| Generator.CreateInputName | include/giskard_core/qp_controller_spec_generator.hpp:37-40 | the name is the controller name, then `_goal_`, then the dimension |
| Generator.CartesianDimensions | include/giskard_core/qp_controller_spec_generator.hpp:27-35 | translation has the three dimensions x, y, z and rotation the four axis_x, axis_y, axis_z, angle, each list without repetition |
| Generator.InputNameInjective | include/giskard_core/qp_controller_spec_generator.hpp:37-40 | within one controller, different dimensions give different names |
| Generator.InputNamesOfDifferentControllersCanCoincide | include/giskard_core/qp_controller_spec_generator.hpp:37-40 | controllers `a_goal_b` and `a` both produce `a_goal_b_goal_x` |
| Generator.InputNames | include/giskard_core/qp_controller_spec_generator.hpp:76-77 | one name per dimension, in order |
| Generator.InputNamesDistinct | include/giskard_core/qp_controller_spec_generator.hpp:82-93 | distinct dimensions give distinct input names |
| Generator.CreateInputNames | include/giskard_core/qp_controller_spec_generator.hpp:65-98 | an unknown controller and an Unknown type fail; translation gives x, y, z; rotation gives axis_x, axis_y, axis_z, angle; joint control gives one name per moveable chain joint and fails exactly when the walk does |
| Generator.GetChains | include/giskard_core/qp_controller_spec_generator.hpp:101-107 | one (root, tip) pair per controller and nothing else, pair i being that of the i-th controller name in ascending order |
| Generator.ControllerInputs | include/giskard_core/qp_controller_spec_generator.hpp:242-244 | every input name of a controller gets a variable within its start .. start + count range |
| Generator.ControllerInputsKeys | include/giskard_core/qp_controller_spec_generator.hpp:243-244 | only the controller's own names get variables |
| Generator.ControllerInputsInjective | include/giskard_core/qp_controller_spec_generator.hpp:243-244 | different names of one controller get different variables |
| Generator.ControllerInputsCount | include/giskard_core/qp_controller_spec_generator.hpp:243-244 | without repeated names, name i gets variable start + i |
| Generator.ControllerInputsConsecutive | include/giskard_core/qp_controller_spec_generator.hpp:242-244 | without repeated names, a controller's names are numbered consecutively in their order |
| Generator.AllocateBlocksOrdered | include/giskard_core/qp_controller_spec_generator.hpp:238-246 | every variable of a controller listed earlier is below every variable of one listed later, with or without repeated names |
| Generator.AllocateAscending | include/giskard_core/qp_controller_spec_generator.hpp:238-246 | allocating along controllers in ascending name order numbers their blocks in name order |
| Generator.AllocateInNameOrder | include/giskard_core/qp_controller_spec_generator.hpp:238-246 | allocating over the controller map's iteration order numbers the blocks in controller-name order |
| Generator.AllocatedController | include/giskard_core/qp_controller_spec_generator.hpp:238-246 | the goal map of the k-th listed controller holds exactly its names, numbered consecutively in order when none repeats |
| Generator.AllocatedGoal | include/giskard_core/qp_controller_spec_generator.hpp:236-246 | for one controller, in controller-name order: its goal map holds exactly the names `create_input_names` gives it, consecutively numbered when no controller repeats a name |
| Generator.AllocatedGoals | include/giskard_core/qp_controller_spec_generator.hpp:236-246 | the same for every controller |
| Generator.Allocate | include/giskard_core/qp_controller_spec_generator.hpp:238-246 | every listed controller gets a goal map |
| Generator.AllocateKeys | include/giskard_core/qp_controller_spec_generator.hpp:239-245 | only the listed controllers get goal maps |
| Generator.AllocateRange | include/giskard_core/qp_controller_spec_generator.hpp:238-246 | every goal variable lies in start .. start + total names |
| Generator.AllocateInjective | include/giskard_core/qp_controller_spec_generator.hpp:238-246 | no variable serves two (controller, name) pairs |
| Generator.AllocateEntries | include/giskard_core/qp_controller_spec_generator.hpp:238-246 | controller k's names are numbered consecutively from start plus the names of controllers before it |
| Generator.AllocateCount | include/giskard_core/qp_controller_spec_generator.hpp:196-203 | without repetitions, the goal maps hold one variable per input name |
| Generator.AllInputNames | include/giskard_core/qp_controller_spec_generator.hpp:239-243 | succeeds exactly when every controller's names can be created, giving them in controller order |
| Generator.InitGoalInputs | include/giskard_core/qp_controller_spec_generator.hpp:236-247 | succeeds exactly when all names can be created; every controller gets a map holding exactly its input names; no variable is shared; without repeated names each controller's names are numbered consecutively in order, and the variables are exactly the num_goal_inputs ones after the joint variables; the controllers' blocks follow the controller names, every variable of a controller below every variable of any controller named after it |
| Generator.AllocateGoals | include/giskard_core/qp_controller_spec_generator.hpp:238-246 | allocating in controller-name order covers every controller, shares no variable, stays in range, and `num_goal_inputs` counts the maps' entries |
| Generator.DistinctNamesCount | include/giskard_core/qp_controller_spec_generator.hpp:196-203 | without repeated input names, `num_goal_inputs` is the total number of names |
| Generator.SumSizesCountsPairs | include/giskard_core/qp_controller_spec_generator.hpp:196-203 | summing the sizes of distinct controllers' goal maps counts each (controller, input name) pair once |
| Generator.NumObservablesCounts | include/giskard_core/qp_controller_spec_generator.hpp:191-208 | `num_controllables` is the number of controllable constraints, `num_goal_inputs` the number of (controller, input name) pairs, and `num_observables` their sum |
| Generator.CartesianNamesDistinct | include/giskard_core/qp_controller_spec_generator.hpp:27-35 | translation and rotation controllers never repeat an input name |
| Generator.JointNamesDistinct | include/giskard_core/qp_controller_spec_generator.hpp:74-78 | a joint controller repeats no input name when its chain repeats no joint |
| Generator.GetGoalInputs | include/giskard_core/qp_controller_spec_generator.hpp:127-133 | succeeds exactly for a known controller, giving its goal map |
| Generator.GetGoalInput | include/giskard_core/qp_controller_spec_generator.hpp:140-150 | succeeds exactly for a known controller and dimension, giving that goal input; the two failures are told apart |
| Generator.GetGoalInputByName | include/giskard_core/qp_controller_spec_generator.hpp:135-138 | always fails |
| Generator.CheckMaxSpeed | include/giskard_core/qp_controller_spec_generator.hpp:424-425 | passes exactly when `max_speed > 0` |
| Generator.JointSoft | include/giskard_core/qp_controller_spec_generator.hpp:271-281 | succeeds exactly when the goal input and the joint exist and `max_speed > 0`; named after the goal input, constrains the joint's input, equal bounds, the controller's weight |
| Generator.JointSofts | include/giskard_core/qp_controller_spec_generator.hpp:269-284 | one soft constraint per moveable chain joint, in chain order, or the first failure |
| Generator.TranslationSofts | include/giskard_core/qp_controller_spec_generator.hpp:285-322 | succeeds exactly when the goals x, y, z, the chain and a positive `max_speed` exist; exactly three constraints on the tip position's coordinates |
| Generator.RotationSofts | include/giskard_core/qp_controller_spec_generator.hpp:323-363 | succeeds exactly when the four goals, the chain and a positive `max_speed` exist; exactly three constraints on the rotation vector, none for the angle |
| Generator.CreateSoftConstraints | include/giskard_core/qp_controller_spec_generator.hpp:259-369 | unknown controllers and types fail; every constraint has equal bounds and a goal-input name; Cartesian controllers with `max_speed <= 0` fail; a joint controller gives one constraint per moveable chain joint and a translation or rotation controller exactly three |
| Generator.EmptyJointChainSkipsSpeedCheck | include/giskard_core/qp_controller_spec_generator.hpp:269-284 | a joint controller without moveable joints gives no constraint and never checks `max_speed` |
| Generator.InitSoftConstraints | include/giskard_core/qp_controller_spec_generator.hpp:249-257 | succeeds exactly when every controller's soft constraints do; all are named after goal inputs and have equal bounds |
| Generator.InitSoftsCover | include/giskard_core/qp_controller_spec_generator.hpp:249-257 | the result holds every soft constraint of every listed controller, and each of its elements is a constraint of some listed controller |
| Generator.InitSoftsCoverParams | include/giskard_core/qp_controller_spec_generator.hpp:249-257 | the same over all controllers, in the order `init` lists them |
| Generator.Create | include/giskard_core/qp_controller_spec_generator.hpp:55-60 | the generator's robot is valid, has every controller's chain, and the rest is `init` of that robot |
| Generator.CreateRobot | include/giskard_core/qp_controller_spec_generator.hpp:55-58 | the robot built from the controllers' chains is valid and has every controller's chain |
| Generator.Init | include/giskard_core/qp_controller_spec_generator.hpp:227-234 | the controllable constraints are exactly the robot's `get_controllable_constraints` (so controllable i constrains input i, one per robot joint) and the hard constraints exactly its `get_hard_constraints`; every controller's goal map holds exactly its input names, no variable shared; the blocks follow the controller names; without repeated names they are numbered consecutively per controller and lie between `num_controllables` and `num_observables`; the soft constraints are exactly all controllers' soft constraints |
| Generator.ControllableNames | include/giskard_core/qp_controller_spec_generator.hpp:162-172 | name i is that of controllable i, one per controllable |
| Generator.ControllerWrites | include/giskard_core/qp_controller_spec_generator.hpp:185-186 | one assignment per goal input, at its variable |
| Generator.GoalWrites | include/giskard_core/qp_controller_spec_generator.hpp:184-186 | the assignments come from goal inputs and cover all of them |
| Generator.Apply | include/giskard_core/qp_controller_spec_generator.hpp:184-186 | assignments keep the vector's length |
| Generator.ApplyUntouched | include/giskard_core/qp_controller_spec_generator.hpp:180-186 | a slot no assignment targets keeps its value |
| Generator.ApplyWritten | include/giskard_core/qp_controller_spec_generator.hpp:184-186 | with consistent assignments, every assignment's name ends up at its index |
| Generator.ObservableNames | include/giskard_core/qp_controller_spec_generator.hpp:174-189 | the layout has `num_observables` slots |
| Generator.Reserved | include/giskard_core/qp_controller_spec_generator.hpp:177-181 | the reserved vector has `num_observables` slots with the controllable names first |
| Generator.GoalWritesConsistent | include/giskard_core/qp_controller_spec_generator.hpp:184-186 | distinct goal inputs never write different names to one slot |
| Generator.GoalWritesWithin | include/giskard_core/qp_controller_spec_generator.hpp:184-186 | every write lands in the goal variables' range |
| Generator.ObservableControllables | include/giskard_core/qp_controller_spec_generator.hpp:180-181 | observable i is controllable i's name for every joint variable |
| Generator.ObservableGoals | include/giskard_core/qp_controller_spec_generator.hpp:184-186 | each goal input's name sits at its variable |
| Generator.CreateLayout | include/giskard_core/qp_controller_spec_generator.hpp:174-189 | for a generator without repeated input names, the observables are the controllable names followed by each goal input at its variable |

## Left out

- URDF parsing and `initTree`: the robot description and the parent-link tree are parameters (`Urdf.Model`, a map of parent links).
- Chains.ContinuousJointNames: requires every moveable chain joint to be a non-empty entry of the joint map, because `is_continuous_joint` dereferences its lookup without a check; the model does not give the undefined behaviour of a missing joint a meaning.
- Chains.Walk: the walk has a step bound of `|links| + 1`. A terminating walk visits distinct described links, so the bound is only exhausted where the source would loop forever round a cycle; that case is the error `WalkDiverges`.
- The `default:` branch of the joint-type switch: the joint-type datatype has no value outside the named types.
- A joint's `limits` pointer is taken to be non-empty.
- Numbers are exact reals: `double` rounding, IEEE infinities and `size_t` wrap-around are not modelled. Division by zero in the evaluator is the error `DivisionByZero`.
- `KDL::epsilon` is fixed at KDL's default, 1e-6.
- Specification kinds the robot and the generator do not build (norm, trigonometry, `fmod`, conditionals, slerp, cross products, inverses, ...), with their `equals`.
- Numeric `get_expression` of non-arithmetic kinds: frames and rotations are evaluated by KDL and stay symbolic. `SpecEval.Eval` reports them as `NotArithmetic`.
- Specification copy constructors and setters, except the vector copy constructor under Findings.
- The numeric content of the control laws: gain scaling, speed clipping, and angle wrapping with `pi()`. Soft-constraint bounds are the symbolic `Generator.ControlLaw`, and only the `max_speed` guards are modelled.
- `get_goal_input(control, dim)` returns a reference into a local copy of the goal map; the model returns the value.
- The order in which C++ evaluates the three or four `get_goal_input` arguments is unspecified; the model looks them up in index order.
- Generator.InitGoalInputs: the range [num_controllables, num_observables) is stated only when no controller repeats an input name. With repetitions, the counter advances past names that `insert` ignores, so variables are left unused.
- Generator.CreateLayout: requires that no controller repeats an input name, for the same reason.
- Generator.ObservableNames: requires every goal variable to lie below `num_observables`. When a controller repeats an input name (a joint chain listing joint `a` twice, say), `insert` keeps the first variable and the counter still advances, so a later variable can be numbered `num_observables` or above. The source then writes past the end of the reserved vector, which the model does not give a meaning.
- Specs.Equals: for two vector-times-double specifications, an empty member on the other side makes the model answer false. The source checks only its own members and dereferences the other's `get_double()` and `get_vector()` unchecked, so that case is undefined behaviour in the source.
- Trivial accessors (`get_root_link`, `get_spec`, `get_control_params`, `get_robot`, `pi`) and the unused `get_tip_links`.
- `slerp.hpp`, `qp_problem_builder.hpp`, `expression_arrays.hpp` and `giskard_core.hpp`: numeric evaluation and matrix filling through KDL and Eigen.
- Exception messages: each `throw` is an `Errors.Error` constructor carrying the offending name, not its text.

## Findings

| source | as written | input that shows it | evidently intended | confidence | as-written member | corrected member |
|---|---|---|---|---|---|---|
| include/giskard_core/specifications.hpp:1396-1397 | the `VectorConstructorSpec` copy constructor initialises `y_` and `z_` from `other.get_x()` | copying the vector (1, 2, 3) gives (1, 1, 1), which compares unequal to the original | each component copied from the same component of the original | high; not executed | Specs.CopyVectorAsWrittenDiffers | Specs.CopyVectorIsFaithful |

=== FILE: chains.dfy ===
/** Chain resolution: the joints on the path between a root link and a tip
    link, found by walking from the tip up the parent-link index. */
module Chains {
  import opened Results
  import opened Errors
  import opened Urdf

  /** The walk of `chain_joint_names` from `current` up to `root`, returning
      the parent joints met, root first. `fuel` bounds the number of steps:
      a walk that ends visits each link at most once, and every link it
      leaves is in `model.links`, so `|model.links| + 1` steps are only ever
      exhausted by a walk that would go round a cycle forever. */
  function Walk(model: Model, parents: map<string, string>, root: string, current: string,
                addFixed: bool, fuel: nat): (r: Result<seq<Joint>, Error>)
    ensures r.Success? && !addFixed ==> forall i :: 0 <= i < |r.value| ==> Moveable(r.value[i])
    decreases fuel
  {
    if current == root then Success([])
    else if fuel == 0 then Failure(WalkDiverges(current))
    else if current !in model.links then Failure(UnknownLink(current))
    else if model.links[current].None? then Failure(EmptyLink(current))
    else if model.links[current].value.parentJoint.None? then Failure(NoParentJoint(current))
    else if current !in parents then Failure(NoParentLink(current))
    else
      var j := model.links[current].value.parentJoint.value;
      var above :- Walk(model, parents, root, parents[current], addFixed, fuel - 1);
      Success(if addFixed || Moveable(j) then above + [j] else above)
  }

  function WalkFuel(model: Model): nat
  {
    |model.links| + 1
  }

  /** The parent joints on the way from `tip` up to `root`, in root-to-tip
      order; fixed joints only when `addFixed` holds. */
  function ChainJoints(model: Model, parents: map<string, string>, root: string, tip: string,
                       addFixed: bool): (r: Result<seq<Joint>, Error>)
    ensures root == tip ==> r == Success([])
    ensures r.Success? && !addFixed ==> forall i :: 0 <= i < |r.value| ==> Moveable(r.value[i])
  {
    Walk(model, parents, root, tip, addFixed, WalkFuel(model))
  }

  function Names(js: seq<Joint>): (r: seq<string>)
    ensures |r| == |js| && forall i :: 0 <= i < |js| ==> r[i] == js[i].name
  {
    seq(|js|, i requires 0 <= i < |js| => js[i].name)
  }

  predicate LinkPresent(model: Model, l: string)
  {
    l in model.links && model.links[l].Some?
  }

  predicate HasParentJoint(model: Model, l: string)
  {
    LinkPresent(model, l) && model.links[l].value.parentJoint.Some?
  }

  /** `chain_joint_names(root, tip, add_fixed_joints)`. */
  function ChainJointNames(model: Model, parents: map<string, string>, root: string, tip: string,
                           addFixed: bool): (r: Result<seq<string>, Error>)
    ensures root == tip ==> r == Success([])
    ensures root != tip && tip !in model.links ==> r == Failure(UnknownLink(tip))
    ensures root != tip && tip in model.links && model.links[tip].None? ==> r == Failure(EmptyLink(tip))
    ensures root != tip && LinkPresent(model, tip) && !HasParentJoint(model, tip) ==>
      r == Failure(NoParentJoint(tip))
    ensures root != tip && HasParentJoint(model, tip) && tip !in parents ==>
      r == Failure(NoParentLink(tip))
  {
    var js :- ChainJoints(model, parents, root, tip, addFixed);
    Success(Names(js))
  }

  /** Keeps the moveable joints of `js`, in order. */
  function MoveableOnly(js: seq<Joint>): (r: seq<Joint>)
    ensures |r| <= |js|
    ensures forall i :: 0 <= i < |r| ==> Moveable(r[i]) && r[i] in js
  {
    if |js| == 0 then []
    else
      var rest := MoveableOnly(js[..|js| - 1]);
      if Moveable(js[|js| - 1]) then rest + [js[|js| - 1]] else rest
  }

  lemma {:induction false} WalkSkipsFixed(model: Model, parents: map<string, string>, root: string,
                                          current: string, fuel: nat)
    ensures Walk(model, parents, root, current, false, fuel).Success? <==>
            Walk(model, parents, root, current, true, fuel).Success?
    ensures Walk(model, parents, root, current, false, fuel).Failure? ==>
            Walk(model, parents, root, current, false, fuel) == Walk(model, parents, root, current, true, fuel)
    ensures Walk(model, parents, root, current, false, fuel).Success? ==>
            Walk(model, parents, root, current, false, fuel).value ==
            MoveableOnly(Walk(model, parents, root, current, true, fuel).value)
    decreases fuel
  {
    if current != root && fuel > 0 && current in model.links && model.links[current].Some?
       && model.links[current].value.parentJoint.Some? && current in parents {
      var j := model.links[current].value.parentJoint.value;
      WalkSkipsFixed(model, parents, root, parents[current], fuel - 1);
      var all := Walk(model, parents, root, parents[current], true, fuel - 1);
      if all.Success? {
        assert (all.value + [j])[..|all.value + [j]| - 1] == all.value;
      }
    }
  }

  /** Without fixed joints the chain is the full chain with its fixed joints
      dropped, in the same order; both walks fail alike. */
  lemma ChainWithoutFixed(model: Model, parents: map<string, string>, root: string, tip: string)
    ensures ChainJoints(model, parents, root, tip, false).Success? <==>
            ChainJoints(model, parents, root, tip, true).Success?
    ensures ChainJoints(model, parents, root, tip, false).Failure? ==>
            ChainJoints(model, parents, root, tip, false) == ChainJoints(model, parents, root, tip, true)
    ensures ChainJoints(model, parents, root, tip, false).Success? ==>
            ChainJoints(model, parents, root, tip, false).value ==
            MoveableOnly(ChainJoints(model, parents, root, tip, true).value)
  {
    WalkSkipsFixed(model, parents, root, tip, WalkFuel(model));
  }

  /** `js` leads from `root` to `tip`: the first joint hangs off `root`, each
      joint's child link is the next one's parent link, and the last joint's
      child is `tip`. */
  predicate Connects(js: seq<Joint>, root: string, tip: string)
  {
    if |js| == 0 then root == tip
    else
      && js[0].parentLink == root
      && js[|js| - 1].childLink == tip
      && forall i :: 0 <= i < |js| - 1 ==> js[i].childLink == js[i + 1].parentLink
  }

  lemma {:induction false} WalkConnects(model: Model, parents: map<string, string>, root: string,
                                        current: string, fuel: nat)
    requires Consistent(model, parents)
    requires Walk(model, parents, root, current, true, fuel).Success?
    ensures Connects(Walk(model, parents, root, current, true, fuel).value, root, current)
    decreases fuel
  {
    if current != root {
      var j := model.links[current].value.parentJoint.value;
      WalkConnects(model, parents, root, parents[current], fuel - 1);
      var above := Walk(model, parents, root, parents[current], true, fuel - 1).value;
      var js := above + [j];
      assert js == Walk(model, parents, root, current, true, fuel).value;
      forall i | 0 <= i < |js| - 1
        ensures js[i].childLink == js[i + 1].parentLink
      {
        if i + 1 < |above| {
          assert js[i] == above[i] && js[i + 1] == above[i + 1];
        }
      }
    }
  }

  /** On a consistent model the full chain is a connected path of joints from
      `root` to `tip`. */
  lemma ChainIsConnected(model: Model, parents: map<string, string>, root: string, tip: string)
    requires Consistent(model, parents)
    requires ChainJoints(model, parents, root, tip, true).Success?
    ensures Connects(ChainJoints(model, parents, root, tip, true).value, root, tip)
  {
    WalkConnects(model, parents, root, tip, WalkFuel(model));
  }

  /** `is_continuous_joint`; the source looks the joint up unchecked. */
  predicate IsContinuousJoint(model: Model, name: string)
    requires name in model.joints && model.joints[name].Some?
    ensures IsContinuousJoint(model, name) ==> Moveable(model.joints[name].value)
  {
    model.joints[name].value.jtype == Continuous
  }

  /** Every moveable joint of the chain is a non-empty entry of `joints_`. */
  predicate ChainJointsKnown(model: Model, parents: map<string, string>, root: string, tip: string)
  {
    var r := ChainJointNames(model, parents, root, tip, false);
    r.Success? ==> forall n :: n in r.value ==> n in model.joints && model.joints[n].Some?
  }

  /** `continuous_joints_names`: the continuous joints of the chain, as a set. */
  function ContinuousJointNames(model: Model, parents: map<string, string>, root: string, tip: string)
    : (r: Result<set<string>, Error>)
    requires ChainJointsKnown(model, parents, root, tip)
    ensures r.Success? <==> ChainJointNames(model, parents, root, tip, false).Success?
    ensures r.Success? ==> forall n :: n in r.value <==>
      n in ChainJointNames(model, parents, root, tip, false).value && IsContinuousJoint(model, n)
  {
    var names :- ChainJointNames(model, parents, root, tip, false);
    Success(set n | n in names && IsContinuousJoint(model, n))
  }
}

=== FILE: constraints.dfy ===
/** The per-joint constraints a robot contributes to a controller: a
    controllable constraint bounding every moveable joint's velocity, and a
    hard constraint keeping revolute and prismatic joints within their
    position limits. */
module Constraints {
  import opened Results
  import opened Errors
  import opened Urdf
  import opened Specs
  import SpecEval

  /** `ControllableConstraintSpec` */
  datatype ControllableConstraint = ControllableConstraint(
    name: string, inputNumber: nat, weight: Spec, lower: Spec, upper: Spec)

  /** `HardConstraintSpec` */
  datatype HardConstraint = HardConstraint(expression: Spec, lower: Spec, upper: Spec)

  /** `default_joint_weight_key()` and `default_joint_velocity_key()` */
  const DefaultWeightKey: string := "default_joint_weight"
  const DefaultVelocityKey: string := "default_joint_velocity"

  /** The configured value for a joint: its own entry, else the default
      entry, if either exists. */
  function Configured(table: map<string, real>, name: string, defaultKey: string): (r: Option<real>)
    ensures name in table ==> r == Some(table[name])
    ensures name !in table && defaultKey in table ==> r == Some(table[defaultKey])
    ensures r.None? <==> name !in table && defaultKey !in table
  {
    if name in table then Some(table[name])
    else if defaultKey in table then Some(table[defaultKey])
    else None
  }

  /** `get_weight`: the configured weight, which must exist and not be
      negative. */
  function Weight(weights: map<string, real>, name: string): (r: Result<real, Error>)
    ensures r.Success? <==> (Configured(weights, name, DefaultWeightKey).Some?
      && Configured(weights, name, DefaultWeightKey).value >= 0.0)
    ensures r.Success? ==> r.value >= 0.0 && r.value == Configured(weights, name, DefaultWeightKey).value
    ensures Configured(weights, name, DefaultWeightKey).None? ==> r == Failure(MissingWeight(name))
    ensures Configured(weights, name, DefaultWeightKey).Some? && r.Failure? ==> r == Failure(NegativeWeight(name))
  {
    match Configured(weights, name, DefaultWeightKey)
    case None => Failure(MissingWeight(name))
    case Some(w) => if w < 0.0 then Failure(NegativeWeight(name)) else Success(w)
  }

  /** `get_velocity_limit`: the configured threshold, or the limit of the
      robot description when none is configured; a threshold above that
      limit is rejected. */
  function VelocityLimit(thresholds: map<string, real>, name: string, urdfLimit: real): (r: Result<real, Error>)
    ensures r.Success? ==> r.value <= urdfLimit
    ensures Configured(thresholds, name, DefaultVelocityKey).None? ==> r == Success(urdfLimit)
    ensures Configured(thresholds, name, DefaultVelocityKey).Some? ==>
      var t := Configured(thresholds, name, DefaultVelocityKey).value;
      r == if t > urdfLimit then Failure(VelocityAboveLimit(name)) else Success(t)
  {
    var result := match Configured(thresholds, name, DefaultVelocityKey)
      case None => urdfLimit
      case Some(t) => t;
    if result > urdfLimit then Failure(VelocityAboveLimit(name)) else Success(result)
  }

  /** The controllable constraint of the moveable joint `name` with input
      number `input` and velocity limit `urdfVelocity` in the robot
      description: the weight is looked up before the velocity limit, and
      the velocity is bounded symmetrically by that limit. */
  function Controllable(name: string, urdfVelocity: real, input: nat,
                        weights: map<string, real>, thresholds: map<string, real>)
    : (r: Result<ControllableConstraint, Error>)
    ensures r.Success? <==> Weight(weights, name).Success? && VelocityLimit(thresholds, name, urdfVelocity).Success?
    ensures Weight(weights, name).Failure? ==> r == Failure(Weight(weights, name).error)
    ensures r.Success? ==> r.value.name == name && r.value.inputNumber == input
    ensures r.Success? ==>
      var v := VelocityLimit(thresholds, name, urdfVelocity).value;
      && r.value.weight == DoubleConst(Weight(weights, name).value)
      && r.value.lower == DoubleConst(-v)
      && r.value.upper == DoubleConst(v)
  {
    var w :- Weight(weights, name);
    var v :- VelocityLimit(thresholds, name, urdfVelocity);
    Success(ControllableConstraint(name, input, DoubleConst(w), DoubleConst(-v), DoubleConst(v)))
  }

  /** Joints whose position is bounded: revolute and prismatic ones. */
  predicate PositionLimited(j: Joint)
  {
    j.jtype == Revolute || j.jtype == Prismatic
  }

  /** The hard constraint of one joint with input number `input`, if it has
      position limits: the joint variable with lower and upper bounds
      `limit - q`, the distance to each limit. */
  function Hard(j: Joint, input: nat): (r: Option<HardConstraint>)
    ensures r.Some? <==> PositionLimited(j)
    ensures r.Some? ==> r.value.expression == DoubleInput(input)
  {
    if PositionLimited(j) then
      var q := DoubleInput(input);
      Some(HardConstraint(q, DoubleSub([DoubleConst(j.limits.lower), q]), DoubleSub([DoubleConst(j.limits.upper), q])))
    else None
  }

  /** An explicit entry for the joint wins over the default entry. */
  lemma OwnEntryWins(table: map<string, real>, name: string, defaultKey: string, own: real, fallback: real)
    requires name != defaultKey
    ensures Configured(table[defaultKey := fallback][name := own], name, defaultKey) == Some(own)
    ensures name !in table ==> Configured(table[defaultKey := fallback], name, defaultKey) == Some(fallback)
  {
  }

  /** The evaluated velocity bounds of a controllable constraint are the
      negated and the plain limit, so the lower bound is at most the upper
      one exactly when the limit is not negative. */
  lemma ControllableBounds(name: string, urdfVelocity: real, input: nat,
                           weights: map<string, real>, thresholds: map<string, real>, env: seq<real>)
    requires Controllable(name, urdfVelocity, input, weights, thresholds).Success?
    ensures var c := Controllable(name, urdfVelocity, input, weights, thresholds).value;
      var v := VelocityLimit(thresholds, name, urdfVelocity).value;
      && SpecEval.Eval(c.lower, env) == Success(-v)
      && SpecEval.Eval(c.upper, env) == Success(v)
      && SpecEval.Eval(c.weight, env).value >= 0.0
      && (SpecEval.Eval(c.lower, env).value <= SpecEval.Eval(c.upper, env).value <==> v >= 0.0)
  {
  }

  /** A negative threshold is accepted and yields a lower velocity bound
      above the upper one. */
  lemma NegativeThresholdInvertsBounds(name: string, urdfVelocity: real, weights: map<string, real>)
    requires Weight(weights, name).Success?
    requires urdfVelocity >= 0.0
    ensures var c := Controllable(name, urdfVelocity, 0, weights, map[name := -1.0]);
      c.Success? && c.value.lower == DoubleConst(1.0) && c.value.upper == DoubleConst(-1.0)
  {
  }

  /** `limit - q` evaluates to the distance from the joint position to the
      limit. */
  lemma DistanceToLimit(limit: real, input: nat, env: seq<real>)
    requires input < |env|
    ensures SpecEval.Eval(DoubleSub([DoubleConst(limit), DoubleInput(input)]), env) == Success(limit - env[input])
  {
    var xs := [DoubleConst(limit), DoubleInput(input)];
    var vs := [limit, env[input]];
    assert SpecEval.Eval(xs[0], env) == Success(limit);
    assert SpecEval.Eval(xs[1], env) == Success(env[input]);
    assert xs[1..][1..] == [];
    assert SpecEval.EvalAll(xs[1..][1..], env) == Success([]);
    assert xs[1..][0] == xs[1];
    assert [env[input]] + [] == [env[input]];
    assert SpecEval.EvalAll(xs[1..], env) == Success([env[input]]);
    assert [limit] + [env[input]] == vs;
    assert SpecEval.EvalAll(xs, env) == Success(vs);
    SpecEval.EvalSubtraction(xs, env, vs);
    assert SpecEval.Sum(vs[1..]) == env[input];
  }

  /** The lower bound of a hard constraint evaluates to the distance from
      the joint position down to the lower position limit. */
  lemma HardLowerBound(j: Joint, input: nat, env: seq<real>)
    requires PositionLimited(j)
    requires input < |env|
    ensures SpecEval.Eval(Hard(j, input).value.lower, env) == Success(j.limits.lower - env[input])
  {
    DistanceToLimit(j.limits.lower, input, env);
  }

  /** The upper bound of a hard constraint evaluates to the distance from
      the joint position up to the upper position limit. */
  lemma HardUpperBound(j: Joint, input: nat, env: seq<real>)
    requires PositionLimited(j)
    requires input < |env|
    ensures SpecEval.Eval(Hard(j, input).value.upper, env) == Success(j.limits.upper - env[input])
  {
    DistanceToLimit(j.limits.upper, input, env);
  }

  /** A joint variable inside its limits gives a non-positive lower and a
      non-negative upper bound, so the zero step is admissible. */
  lemma InsideLimitsAdmitsZero(j: Joint, input: nat, env: seq<real>)
    requires PositionLimited(j)
    requires input < |env|
    requires j.limits.lower <= env[input] <= j.limits.upper
    ensures SpecEval.Eval(Hard(j, input).value.lower, env).Success?
      && SpecEval.Eval(Hard(j, input).value.lower, env).value <= 0.0
    ensures SpecEval.Eval(Hard(j, input).value.upper, env).Success?
      && SpecEval.Eval(Hard(j, input).value.upper, env).value >= 0.0
  {
    HardLowerBound(j, input, env);
    HardUpperBound(j, input, env);
  }
}

=== FILE: errors.dfy ===
/** The runtime errors raised by the robot compiler and the controller
    generator. Every one of them is a `std::runtime_error` (or, for scope
    lookups, a `std::invalid_argument`) in the source; the constructor says
    which check failed and carries the offending name. */
module Errors {

  datatype Error =
    // chain walk
    | UnknownLink(link: string)
    | EmptyLink(link: string)
    | NoParentJoint(link: string)
    | NoParentLink(link: string)
    | WalkDiverges(link: string)
    // joint lookups and forward kinematics
    | UnknownJoint(joint: string)
    | EmptyJoint(joint: string)
    | UnsupportedJointType(joint: string)
    | JointNotFound(joint: string)
    | ChainNotFound(root: string, tip: string)
    // configuration
    | MissingWeight(joint: string)
    | NegativeWeight(joint: string)
    | VelocityAboveLimit(joint: string)
    // controller generator
    | UnknownController(controller: string)
    | UnsupportedControlType(controller: string)
    | GoalInputsNotFound(controller: string)
    | GoalInputNotFound(controller: string, dimension: string)
    | GoalInputByNameUnsupported(inputName: string)
    | NonPositiveMaxSpeed(controller: string)
}

=== FILE: generator.dfy ===
/** The naming and indexing logic of the QP controller specification
    generator: goal-input names per controller, the allocation of goal-input
    variables right after the joint variables, the observable-name layout,
    and the soft constraints each controller contributes. */
module Generator {
  import opened Results
  import opened Errors
  import opened Urdf
  import opened Specs
  import Order
  import Chains
  import Robots
  import Constraints

  /** `ControlParams::ControlType` */
  datatype ControlType = Unknown | JointControl | Translation3D | Rotation3D

  /** `ControlParams` */
  datatype ControlParams = ControlParams(
    pGain: real, weight: real, maxSpeed: real, rootLink: string, tipLink: string, ctype: ControlType)

  /** `rotation3d_names()` */
  const Rotation3DNames: seq<string> := ["axis_x", "axis_y", "axis_z", "angle"]

  /** `translation3d_names()` */
  const Translation3DNames: seq<string> := ["x", "y", "z"]

  const GoalInfix: string := "_goal_"

  /** `create_input_name` */
  function CreateInputName(controller: string, dimension: string): (r: string)
    ensures |r| == |controller| + |GoalInfix| + |dimension|
    ensures r[..|controller|] == controller
    ensures r[|controller|..|controller| + |GoalInfix|] == GoalInfix
    ensures r[|controller| + |GoalInfix|..] == dimension
  {
    controller + GoalInfix + dimension
  }

  /** The dimension can be read back from the name of a known controller's
      input: within one controller, input names are unique. */
  lemma InputNameInjective(controller: string, d1: string, d2: string)
    requires CreateInputName(controller, d1) == CreateInputName(controller, d2)
    ensures d1 == d2
  {
    var n := |controller| + |GoalInfix|;
    assert d1 == CreateInputName(controller, d1)[n..];
  }

  /** Across controllers, input names can coincide: the name does not
      record where the controller name ends. */
  lemma InputNamesOfDifferentControllersCanCoincide()
    ensures CreateInputName("a_goal_b", "x") == CreateInputName("a", "b_goal_x")
  {
  }

  predicate Distinct(names: seq<string>)
  {
    forall i, j :: 0 <= i < j < |names| ==> names[i] != names[j]
  }

  function InputNames(controller: string, dimensions: seq<string>): (r: seq<string>)
    ensures |r| == |dimensions|
    ensures forall i :: 0 <= i < |r| ==> r[i] == CreateInputName(controller, dimensions[i])
  {
    seq(|dimensions|, i requires 0 <= i < |dimensions| => CreateInputName(controller, dimensions[i]))
  }

  lemma InputNamesDistinct(controller: string, dimensions: seq<string>)
    requires Distinct(dimensions)
    ensures Distinct(InputNames(controller, dimensions))
  {
    var r := InputNames(controller, dimensions);
    forall i, j | 0 <= i < j < |r|
      ensures r[i] != r[j]
    {
      if r[i] == r[j] {
        InputNameInjective(controller, dimensions[i], dimensions[j]);
      }
    }
  }

  /** `QPControllerParams::create_input_names` */
  function CreateInputNames(robot: Robots.Robot, params: map<string, ControlParams>, controller: string)
    : (r: Result<seq<string>, Error>)
    ensures controller !in params ==> r == Failure(UnknownController(controller))
    ensures controller in params && params[controller].ctype == Unknown ==>
      r == Failure(UnsupportedControlType(controller))
    ensures controller in params && params[controller].ctype == Translation3D ==>
      r == Success([CreateInputName(controller, "x"), CreateInputName(controller, "y"), CreateInputName(controller, "z")])
    ensures controller in params && params[controller].ctype == Rotation3D ==>
      r == Success([CreateInputName(controller, "axis_x"), CreateInputName(controller, "axis_y"),
                    CreateInputName(controller, "axis_z"), CreateInputName(controller, "angle")])
    ensures controller in params && params[controller].ctype == JointControl ==>
      var joints := Chains.ChainJointNames(robot.model, robot.parents,
                                           params[controller].rootLink, params[controller].tipLink, false);
      (r.Success? <==> joints.Success?)
      && (r.Success? ==> r.value == InputNames(controller, joints.value))
  {
    if controller !in params then Failure(UnknownController(controller))
    else
      var p := params[controller];
      match p.ctype
      case JointControl =>
        var joints :- Chains.ChainJointNames(robot.model, robot.parents, p.rootLink, p.tipLink, false);
        Success(InputNames(controller, joints))
      case Unknown => Failure(UnsupportedControlType(controller))
      case Translation3D =>
        var r := InputNames(controller, Translation3DNames);
        assert r == [r[0], r[1], r[2]];
        Success(r)
      case Rotation3D =>
        var r := InputNames(controller, Rotation3DNames);
        assert r == [r[0], r[1], r[2], r[3]];
        Success(r)
  }

  /** `k` is the chain of some controller. */
  predicate IsControllerChain(params: map<string, ControlParams>, k: Robots.ChainKey)
  {
    exists c :: c in params && k == Robots.ChainKey(params[c].rootLink, params[c].tipLink)
  }

  /** `QPControllerParams::get_chains`: one chain per controller, in the
      order of the controller names. */
  function GetChains(params: map<string, ControlParams>): (r: seq<Robots.ChainKey>)
    ensures |r| == |params|
    ensures forall c :: c in params ==> Robots.ChainKey(params[c].rootLink, params[c].tipLink) in r
    ensures forall i :: 0 <= i < |r| ==>
      IsControllerChain(params, r[i])
    ensures forall i :: 0 <= i < |r| ==>
      var c := Order.SortedStrings(params.Keys)[i];
      r[i] == Robots.ChainKey(params[c].rootLink, params[c].tipLink)
  {
    SortedChainsCover(params);
    ChainsOf(params, Order.SortedStrings(params.Keys))
  }

  /** `ChainsOfCover` for the controllers in name order. */
  lemma SortedChainsCover(params: map<string, ControlParams>)
    ensures forall i :: 0 <= i < |Order.SortedStrings(params.Keys)| ==> Order.SortedStrings(params.Keys)[i] in params
    ensures |ChainsOf(params, Order.SortedStrings(params.Keys))| == |params|
    ensures forall c :: c in params ==>
      Robots.ChainKey(params[c].rootLink, params[c].tipLink) in ChainsOf(params, Order.SortedStrings(params.Keys))
    ensures forall i :: 0 <= i < |ChainsOf(params, Order.SortedStrings(params.Keys))| ==>
      IsControllerChain(params, ChainsOf(params, Order.SortedStrings(params.Keys))[i])
    ensures forall i :: 0 <= i < |ChainsOf(params, Order.SortedStrings(params.Keys))| ==>
      var c := Order.SortedStrings(params.Keys)[i];
      ChainsOf(params, Order.SortedStrings(params.Keys))[i] == Robots.ChainKey(params[c].rootLink, params[c].tipLink)
  {
    var ks := Order.SortedStrings(params.Keys);
    assert |ks| == |params.Keys|;
    ChainsOfCover(params, ks);
  }

  /** The chains of the controllers `ks`, in that order. */
  function ChainsOf(params: map<string, ControlParams>, ks: seq<string>): (r: seq<Robots.ChainKey>)
    requires forall i :: 0 <= i < |ks| ==> ks[i] in params
  {
    seq(|ks|, i requires 0 <= i < |ks| => Robots.ChainKey(params[ks[i]].rootLink, params[ks[i]].tipLink))
  }

  lemma ChainsOfCover(params: map<string, ControlParams>, ks: seq<string>)
    requires |ks| == |params.Keys|
    requires forall i :: 0 <= i < |ks| ==> ks[i] in params.Keys
    requires forall c :: c in params.Keys ==> c in ks
    ensures |ChainsOf(params, ks)| == |params|
    ensures forall c :: c in params ==> Robots.ChainKey(params[c].rootLink, params[c].tipLink) in ChainsOf(params, ks)
    ensures forall i :: 0 <= i < |ChainsOf(params, ks)| ==>
      IsControllerChain(params, ChainsOf(params, ks)[i])
    ensures forall i :: 0 <= i < |ks| ==>
      ChainsOf(params, ks)[i] == Robots.ChainKey(params[ks[i]].rootLink, params[ks[i]].tipLink)
  {
    var r := ChainsOf(params, ks);
    assert |params.Keys| == |params|;
    forall c | c in params
      ensures Robots.ChainKey(params[c].rootLink, params[c].tipLink) in r
    {
      var i :| 0 <= i < |ks| && ks[i] == c;
      assert r[i] == Robots.ChainKey(params[c].rootLink, params[c].tipLink);
    }
    forall i | 0 <= i < |r|
      ensures IsControllerChain(params, r[i])
    {
      assert ks[i] in params;
    }
  }

  /** The goal inputs of one controller: each name, in order, is inserted if
      absent with the next counter value, the counter advancing for every
      name. */
  function ControllerInputs(names: seq<string>, start: nat): (r: map<string, nat>)
    ensures forall i :: 0 <= i < |names| ==> names[i] in r
    ensures forall n :: n in r ==> start <= r[n] < start + |names|
    decreases |names|
  {
    if |names| == 0 then map[]
    else
      var rest := ControllerInputs(names[1..], start + 1);
      rest[names[0] := start]
  }

  /** Only the controller's own names get goal inputs. */
  lemma {:induction false} ControllerInputsKeys(names: seq<string>, start: nat)
    ensures ControllerInputs(names, start).Keys == set n | n in names
    decreases |names|
  {
    if |names| > 0 {
      ControllerInputsKeys(names[1..], start + 1);
      assert forall x :: x in names <==> x == names[0] || x in names[1..];
    }
  }

  /** No two keys share a value. */
  predicate InjectiveMap(m: map<string, nat>)
  {
    forall a, b :: a in m && b in m && a != b ==> m[a] != m[b]
  }

  /** Every variable of every controller lies in `lo .. hi - 1`. */
  predicate GoalsWithin(goals: map<string, map<string, nat>>, lo: nat, hi: nat)
  {
    forall c, n :: c in goals && n in goals[c] ==> lo <= goals[c][n] < hi
  }

  /** No variable serves two (controller, name) pairs. */
  predicate GoalsInjective(goals: map<string, map<string, nat>>)
  {
    forall c, n, c', n' :: c in goals && n in goals[c] && c' in goals && n' in goals[c'] && (c, n) != (c', n') ==>
      goals[c][n] != goals[c'][n']
  }

  /** The goal blocks follow the controller names: every variable of a
      controller lies below every variable of a controller after it. */
  predicate BlocksInNameOrder(goals: map<string, map<string, nat>>)
  {
    forall c, c', n, n' :: c in goals && c' in goals && Order.StrLess(c, c') && n in goals[c] && n' in goals[c'] ==>
      goals[c][n] < goals[c'][n']
  }

  /** Different names of one controller get different variables. */
  lemma {:induction false} ControllerInputsInjective(names: seq<string>, start: nat)
    ensures InjectiveMap(ControllerInputs(names, start))
    decreases |names|
  {
    if |names| > 0 {
      var rest := ControllerInputs(names[1..], start + 1);
      var r := ControllerInputs(names, start);
      assert r == rest[names[0] := start];
      ControllerInputsInjective(names[1..], start + 1);
      forall a, b | a in r && b in r && a != b
        ensures r[a] != r[b]
      {
        if a == names[0] {
          assert r[b] == rest[b] >= start + 1;
        } else if b == names[0] {
          assert r[a] == rest[a] >= start + 1;
        } else {
          assert r[a] == rest[a] && r[b] == rest[b];
        }
      }
    }
  }

  /** Without repeated names every name gets its own variable, numbered by
      its position. */
  lemma {:induction false} ControllerInputsCount(names: seq<string>, start: nat)
    requires Distinct(names)
    ensures |ControllerInputs(names, start)| == |names|
    ensures forall i :: 0 <= i < |names| ==> ControllerInputs(names, start)[names[i]] == start + i
    decreases |names|
  {
    if |names| > 0 {
      ControllerInputsCount(names[1..], start + 1);
      assert names[0] !in ControllerInputs(names[1..], start + 1) by {
        ControllerInputsKeys(names[1..], start + 1);
        assert forall i :: 0 <= i < |names[1..]| ==> names[1..][i] != names[0];
      }
    }
  }

  function SumLengths(xs: seq<seq<string>>): nat
  {
    if |xs| == 0 then 0 else |xs[0]| + SumLengths(xs[1..])
  }

  /** Goal inputs of all controllers, numbered consecutively from `start`
      in controller order; the first entry for a controller name wins. */
  function Allocate(controllers: seq<string>, names: seq<seq<string>>, start: nat)
    : (r: map<string, map<string, nat>>)
    requires |controllers| == |names|
    ensures forall i :: 0 <= i < |controllers| ==> controllers[i] in r
    decreases |controllers|
  {
    if |controllers| == 0 then map[]
    else
      var rest := Allocate(controllers[1..], names[1..], start + |names[0]|);
      rest[controllers[0] := ControllerInputs(names[0], start)]
  }

  /** Only the listed controllers get goal inputs. */
  lemma {:induction false} AllocateKeys(controllers: seq<string>, names: seq<seq<string>>, start: nat)
    requires |controllers| == |names|
    ensures Allocate(controllers, names, start).Keys == set c | c in controllers
    decreases |controllers|
  {
    if |controllers| > 0 {
      AllocateKeys(controllers[1..], names[1..], start + |names[0]|);
      assert forall x :: x in controllers <==> x == controllers[0] || x in controllers[1..];
    }
  }

  /** Every allocated variable lies in `start .. start + SumLengths(names) - 1`. */
  lemma {:induction false} AllocateRange(controllers: seq<string>, names: seq<seq<string>>, start: nat)
    requires |controllers| == |names|
    ensures GoalsWithin(Allocate(controllers, names, start), start, start + SumLengths(names))
    decreases |controllers|
  {
    if |controllers| > 0 {
      var c0 := controllers[0];
      var m := ControllerInputs(names[0], start);
      var rest := Allocate(controllers[1..], names[1..], start + |names[0]|);
      var r := Allocate(controllers, names, start);
      assert r == rest[c0 := m];
      AllocateRange(controllers[1..], names[1..], start + |names[0]|);
      assert SumLengths(names) == |names[0]| + SumLengths(names[1..]);
      forall c, n | c in r && n in r[c]
        ensures start <= r[c][n] < start + SumLengths(names)
      {
        if c != c0 {
          assert r[c] == rest[c] && n in rest[c];
          assert start + |names[0]| <= rest[c][n] < start + |names[0]| + SumLengths(names[1..]);
        } else {
          assert r[c] == m && n in m;
          assert start <= m[n] < start + |names[0]|;
        }
      }
    }
  }

  /** No variable is allocated twice. */
  lemma {:induction false} AllocateInjective(controllers: seq<string>, names: seq<seq<string>>, start: nat)
    requires |controllers| == |names|
    ensures GoalsInjective(Allocate(controllers, names, start))
    decreases |controllers|
  {
    if |controllers| > 0 {
      var c0 := controllers[0];
      var m := ControllerInputs(names[0], start);
      var rest := Allocate(controllers[1..], names[1..], start + |names[0]|);
      var r := Allocate(controllers, names, start);
      assert r == rest[c0 := m];
      AllocateInjective(controllers[1..], names[1..], start + |names[0]|);
      AllocateRange(controllers[1..], names[1..], start + |names[0]|);
      ControllerInputsInjective(names[0], start);
      forall c, n, c', n' | c in r && n in r[c] && c' in r && n' in r[c'] && (c, n) != (c', n')
        ensures r[c][n] != r[c'][n']
      {
        if c == c0 && c' != c0 {
          assert r[c'] == rest[c'];
        } else if c != c0 && c' == c0 {
          assert r[c] == rest[c];
        } else if c != c0 {
          assert r[c] == rest[c] && r[c'] == rest[c'];
        }
      }
    }
  }

  /** With distinct controller names, each controller's map holds its own
      names at consecutive numbers. */
  lemma {:induction false} AllocateEntries(controllers: seq<string>, names: seq<seq<string>>, start: nat, k: nat)
    requires |controllers| == |names|
    requires Distinct(controllers)
    requires k < |controllers|
    ensures Allocate(controllers, names, start)[controllers[k]]
      == ControllerInputs(names[k], start + SumLengths(names[..k]))
    decreases |controllers|
  {
    if k > 0 {
      var tail := controllers[1..];
      assert tail[k - 1] == controllers[k] != controllers[0];
      AllocateEntries(tail, names[1..], start + |names[0]|, k - 1);
      assert names[..k] == [names[0]] + names[1..][..k - 1];
      assert names[..k][1..] == names[1..][..k - 1];
    }
  }

  lemma {:induction false} SumLengthsSnoc(xs: seq<seq<string>>, k: nat)
    requires k < |xs|
    ensures SumLengths(xs[..k + 1]) == SumLengths(xs[..k]) + |xs[k]|
    decreases k
  {
    if k == 0 {
      assert xs[..1] == [xs[0]];
      assert xs[..1][1..] == [];
    } else {
      SumLengthsSnoc(xs[1..], k - 1);
      assert xs[..k + 1][1..] == xs[1..][..k];
      assert xs[..k][1..] == xs[1..][..k - 1];
    }
  }

  lemma {:induction false} SumLengthsMono(xs: seq<seq<string>>, k: nat, k': nat)
    requires k <= k' <= |xs|
    ensures SumLengths(xs[..k]) <= SumLengths(xs[..k'])
    decreases k' - k
  {
    if k < k' {
      SumLengthsSnoc(xs, k);
      SumLengthsMono(xs, k + 1, k');
    }
  }

  /** A controller listed earlier gets lower variables than one listed
      later, whether or not names repeat. */
  lemma AllocateBlocksOrdered(controllers: seq<string>, names: seq<seq<string>>, start: nat,
                              k: nat, k': nat, n: string, n': string)
    requires |controllers| == |names|
    requires Distinct(controllers)
    requires k < k' < |controllers|
    requires n in Allocate(controllers, names, start)[controllers[k]]
    requires n' in Allocate(controllers, names, start)[controllers[k']]
    ensures Allocate(controllers, names, start)[controllers[k]][n]
          < Allocate(controllers, names, start)[controllers[k']][n']
  {
    AllocateEntries(controllers, names, start, k);
    AllocateEntries(controllers, names, start, k');
    SumLengthsSnoc(names, k);
    SumLengthsMono(names, k + 1, k');
  }

  /** Allocating along an ascending list of controllers numbers the blocks
      in name order. */
  lemma AllocateAscending(controllers: seq<string>, names: seq<seq<string>>, start: nat)
    requires |controllers| == |names|
    requires forall i, j :: 0 <= i < j < |controllers| ==> Order.StrLess(controllers[i], controllers[j])
    ensures BlocksInNameOrder(Allocate(controllers, names, start))
  {
    var g := Allocate(controllers, names, start);
    forall i, j | 0 <= i < j < |controllers|
      ensures controllers[i] != controllers[j]
    {
      Order.StrLessIrreflexive(controllers[i]);
    }
    AllocateKeys(controllers, names, start);
    forall c, c', n, n' | c in g && c' in g && Order.StrLess(c, c') && n in g[c] && n' in g[c']
      ensures g[c][n] < g[c'][n']
    {
      assert c in (set x | x in controllers);
      assert c' in (set x | x in controllers);
      var k :| 0 <= k < |controllers| && controllers[k] == c;
      var k' :| 0 <= k' < |controllers| && controllers[k'] == c';
      AscendingIndexOrder(controllers, k, k');
      AllocateBlocksOrdered(controllers, names, start, k, k', n, n');
    }
  }

  /** In an ascending list, the smaller name sits at the smaller index. */
  lemma AscendingIndexOrder(controllers: seq<string>, k: nat, k': nat)
    requires forall i, j :: 0 <= i < j < |controllers| ==> Order.StrLess(controllers[i], controllers[j])
    requires k < |controllers| && k' < |controllers|
    requires Order.StrLess(controllers[k], controllers[k'])
    ensures k < k'
  {
    Order.StrLessIrreflexive(controllers[k]);
    if k' < k {
      Order.StrLessTransitive(controllers[k], controllers[k'], controllers[k]);
    }
  }

  /** Allocating in controller-name order numbers the blocks in that order. */
  lemma AllocateInNameOrder(params: map<string, ControlParams>, names: seq<seq<string>>, start: nat)
    requires |Order.SortedStrings(params.Keys)| == |names|
    ensures BlocksInNameOrder(Allocate(Order.SortedStrings(params.Keys), names, start))
  {
    AllocateAscending(Order.SortedStrings(params.Keys), names, start);
  }

  lemma {:induction false} SumSizesOfLengths(goals: map<string, map<string, nat>>, ks: seq<string>,
                                             names: seq<seq<string>>)
    requires |ks| == |names|
    requires forall i :: 0 <= i < |ks| ==> ks[i] in goals && |goals[ks[i]]| == |names[i]|
    ensures SumSizes(goals, ks) == SumLengths(names)
    decreases |ks|
  {
    if |ks| > 0 {
      SumSizesOfLengths(goals, ks[1..], names[1..]);
    }
  }

  /** With distinct controller and input names, the allocation holds
      exactly `SumLengths(names)` variables. */
  lemma AllocateCount(controllers: seq<string>, names: seq<seq<string>>, start: nat)
    requires |controllers| == |names|
    requires Distinct(controllers)
    requires forall i :: 0 <= i < |names| ==> Distinct(names[i])
    ensures SumSizes(Allocate(controllers, names, start), controllers) == SumLengths(names)
  {
    var r := Allocate(controllers, names, start);
    forall i | 0 <= i < |controllers|
      ensures |r[controllers[i]]| == |names[i]|
    {
      AllocateEntries(controllers, names, start, i);
      ControllerInputsCount(names[i], start + SumLengths(names[..i]));
    }
    SumSizesOfLengths(r, controllers, names);
  }

  /** The total number of entries of the maps listed in `ks`. */
  function SumSizes(goals: map<string, map<string, nat>>, ks: seq<string>): nat
    requires forall i :: 0 <= i < |ks| ==> ks[i] in goals
  {
    if |ks| == 0 then 0 else |goals[ks[0]]| + SumSizes(goals, ks[1..])
  }

  /** The input names of the given controllers, in order; the first
      failure is the result. */
  function AllInputNames(robot: Robots.Robot, params: map<string, ControlParams>, controllers: seq<string>)
    : (r: Result<seq<seq<string>>, Error>)
    ensures r.Success? <==> forall i :: 0 <= i < |controllers| ==> CreateInputNames(robot, params, controllers[i]).Success?
    ensures r.Success? ==> |r.value| == |controllers|
    ensures r.Success? ==>
      forall i :: 0 <= i < |controllers| ==> r.value[i] == CreateInputNames(robot, params, controllers[i]).value
    decreases |controllers|
  {
    if |controllers| == 0 then Success([])
    else
      var first :- CreateInputNames(robot, params, controllers[0]);
      var rest :- AllInputNames(robot, params, controllers[1..]);
      Success([first] + rest)
  }

  /** The generator after `init`: the robot built from the controllers'
      chains, the robot's constraints, the goal-input variables of every
      controller by input name, and the soft constraints. */
  datatype GeneratorState = GeneratorState(
    params: map<string, ControlParams>,
    robot: Robots.Robot,
    controllables: seq<Constraints.ControllableConstraint>,
    hards: seq<Constraints.HardConstraint>,
    goals: map<string, map<string, nat>>,
    softs: seq<SoftConstraint>)

  /** `num_goal_inputs` */
  function NumGoalInputs(goals: map<string, map<string, nat>>): nat
  {
    SumSizes(goals, Order.SortedStrings(goals.Keys))
  }

  /** Every (controller, input name) pair of a goal-input table. */
  function GoalPairs(goals: map<string, map<string, nat>>, cs: set<string>): set<(string, string)>
  {
    set c, n | c in cs && c in goals && n in goals[c] :: (c, n)
  }

  /** The input names of one controller, paired with it. */
  function RowPairs(c: string, row: map<string, nat>): set<(string, string)>
  {
    set n | n in row :: (c, n)
  }

  lemma {:induction false} RowPairsCount(c: string, row: map<string, nat>)
    ensures |RowPairs(c, row)| == |row|
    decreases |row|
  {
    if |row| > 0 {
      var n :| n in row;
      var rest := map k | k in row && k != n :: row[k];
      assert row.Keys == rest.Keys + {n};
      RowPairsCount(c, rest);
      assert RowPairs(c, row) == RowPairs(c, rest) + {(c, n)};
    }
  }

  /** `num_goal_inputs` sums the sizes of the controllers' tables, so it
      counts every (controller, input name) pair exactly once. */
  lemma {:induction false} SumSizesCountsPairs(goals: map<string, map<string, nat>>, ks: seq<string>)
    requires Distinct(ks)
    requires forall i :: 0 <= i < |ks| ==> ks[i] in goals
    ensures SumSizes(goals, ks) == |GoalPairs(goals, set k | k in ks)|
    decreases |ks|
  {
    if |ks| == 0 {
      assert GoalPairs(goals, set k | k in ks) == {};
    } else {
      var c := ks[0];
      var rest := set k | k in ks[1..];
      SumSizesCountsPairs(goals, ks[1..]);
      RowPairsCount(c, goals[c]);
      assert (set k | k in ks) == rest + {c};
      assert c !in rest;
      assert GoalPairs(goals, set k | k in ks) == RowPairs(c, goals[c]) + GoalPairs(goals, rest);
      assert RowPairs(c, goals[c]) * GoalPairs(goals, rest) == {};
    }
  }

  /** `num_goal_inputs`, `num_controllables`, `num_observables`: the
      number of joint variables, of goal inputs (one per controller and
      input name) and their sum. */
  lemma NumObservablesCounts(g: GeneratorState)
    ensures NumGoalInputs(g.goals) == |GoalPairs(g.goals, g.goals.Keys)|
    ensures NumControllables(g) == |g.controllables|
    ensures NumObservables(g) == |g.controllables| + |GoalPairs(g.goals, g.goals.Keys)|
  {
    var ks := Order.SortedStrings(g.goals.Keys);
    SortedKeys(g.goals.Keys);
    SumSizesCountsPairs(g.goals, ks);
  }

  /** Map iteration visits distinct keys, and all of them. */
  lemma SortedKeys(s: set<string>)
    ensures Distinct(Order.SortedStrings(s))
    ensures (set k | k in Order.SortedStrings(s)) == s
  {
    var ks := Order.SortedStrings(s);
    forall i, j | 0 <= i < j < |ks|
      ensures ks[i] != ks[j]
    {
      Order.StrLessIrreflexive(ks[i]);
    }
  }

  /** `num_controllables` */
  function NumControllables(g: GeneratorState): nat
  {
    |g.controllables|
  }

  /** `num_observables` */
  function NumObservables(g: GeneratorState): nat
  {
    NumControllables(g) + NumGoalInputs(g.goals)
  }

  /** `init_goal_inputs`: numbering starts at the number of observables
      while no goal input exists yet, i.e. right after the joint
      variables. Every variable is used once; when no controller repeats an
      input name, the variables are exactly the next `num_goal_inputs`
      ones. */
  function InitGoalInputs(robot: Robots.Robot, params: map<string, ControlParams>, numControllables: nat)
    : (r: Result<map<string, map<string, nat>>, Error>)
    ensures r.Success? <==> AllInputNames(robot, params, Order.SortedStrings(params.Keys)).Success?
    ensures r.Success? ==> r.value.Keys == params.Keys
    ensures r.Success? ==> GoalsInjective(r.value)
    ensures r.Success? && DistinctGoalNames(robot, params) ==>
      GoalsWithin(r.value, numControllables, numControllables + NumGoalInputs(r.value))
    ensures r.Success? ==> GoalsNamed(robot, params, r.value)
    ensures r.Success? && DistinctGoalNames(robot, params) ==> GoalsNumbered(robot, params, r.value)
    ensures r.Success? ==> BlocksInNameOrder(r.value)
  {
    var start := numControllables + NumGoalInputs(map[]);
    assert start == numControllables;
    var controllers := Order.SortedStrings(params.Keys);
    var names :- AllInputNames(robot, params, controllers);
    AllocateGoals(params, names, start);
    DistinctNamesCount(robot, params, names, start);
    AllocatedGoals(robot, params, names, start);
    AllocateInNameOrder(params, names, start);
    Success(Allocate(controllers, names, start))
  }

  /** Every controller's goal map holds exactly its input names. */
  predicate GoalsNamed(robot: Robots.Robot, params: map<string, ControlParams>, goals: map<string, map<string, nat>>)
  {
    forall c :: c in params ==>
      CreateInputNames(robot, params, c).Success? && GoalNamesAre(goals, c, CreateInputNames(robot, params, c).value)
  }

  /** Every controller's input names are numbered consecutively, in order. */
  predicate GoalsNumbered(robot: Robots.Robot, params: map<string, ControlParams>, goals: map<string, map<string, nat>>)
  {
    forall c :: c in params ==>
      CreateInputNames(robot, params, c).Success? && NumberedInOrder(goals, c, CreateInputNames(robot, params, c).value)
  }

  /** Controller `c`'s goal map holds exactly the names `ns`. */
  predicate GoalNamesAre(goals: map<string, map<string, nat>>, c: string, ns: seq<string>)
  {
    c in goals && goals[c].Keys == set n | n in ns
  }

  /** Controller `c`'s goal map numbers the names `ns` consecutively, in
      that order. */
  predicate NumberedInOrder(goals: map<string, map<string, nat>>, c: string, ns: seq<string>)
  {
    c in goals && Consecutive(goals[c], ns)
  }

  /** `m` numbers the names `ns` consecutively, in that order. */
  predicate Consecutive(m: map<string, nat>, ns: seq<string>)
  {
    forall i :: 0 <= i < |ns| ==> ns[0] in m && ns[i] in m && m[ns[i]] == m[ns[0]] + i
  }

  /** Without repeated names, a controller's inputs are numbered in the
      order of its names. */
  lemma ControllerInputsConsecutive(ns: seq<string>, start: nat)
    requires Distinct(ns)
    ensures Consecutive(ControllerInputs(ns, start), ns)
  {
    ControllerInputsCount(ns, start);
  }

  /** Allocating in controller-name order gives every controller a map of
      exactly its input names, numbered consecutively when it repeats none. */
  lemma AllocatedGoals(robot: Robots.Robot, params: map<string, ControlParams>, names: seq<seq<string>>, start: nat)
    requires AllInputNames(robot, params, Order.SortedStrings(params.Keys)) == Success(names)
    ensures GoalsNamed(robot, params, Allocate(Order.SortedStrings(params.Keys), names, start))
    ensures DistinctGoalNames(robot, params) ==>
      GoalsNumbered(robot, params, Allocate(Order.SortedStrings(params.Keys), names, start))
  {
    forall c | c in params
      ensures var g := Allocate(Order.SortedStrings(params.Keys), names, start);
        CreateInputNames(robot, params, c).Success? && GoalNamesAre(g, c, CreateInputNames(robot, params, c).value)
      ensures DistinctGoalNames(robot, params) ==>
        var g := Allocate(Order.SortedStrings(params.Keys), names, start);
        CreateInputNames(robot, params, c).Success? && NumberedInOrder(g, c, CreateInputNames(robot, params, c).value)
    {
      AllocatedGoal(robot, params, names, start, c);
    }
  }

  /** One controller's share of `AllocatedGoals`. */
  lemma AllocatedGoal(robot: Robots.Robot, params: map<string, ControlParams>, names: seq<seq<string>>,
                      start: nat, c: string)
    requires AllInputNames(robot, params, Order.SortedStrings(params.Keys)) == Success(names)
    requires c in params
    ensures var g := Allocate(Order.SortedStrings(params.Keys), names, start);
      CreateInputNames(robot, params, c).Success? && GoalNamesAre(g, c, CreateInputNames(robot, params, c).value)
    ensures DistinctGoalNames(robot, params) ==>
      var g := Allocate(Order.SortedStrings(params.Keys), names, start);
      CreateInputNames(robot, params, c).Success? && NumberedInOrder(g, c, CreateInputNames(robot, params, c).value)
  {
    var controllers := Order.SortedStrings(params.Keys);
    SortedKeys(params.Keys);
    var k :| 0 <= k < |controllers| && controllers[k] == c;
    var ns := names[k];
    assert ns == CreateInputNames(robot, params, c).value;
    AllocatedController(controllers, names, start, k);
    if DistinctGoalNames(robot, params) {
      assert Distinct(ns);
    }
  }

  /** Controller k's goal map holds exactly its names, numbered
      consecutively in their order when it repeats none. */
  lemma AllocatedController(controllers: seq<string>, names: seq<seq<string>>, start: nat, k: nat)
    requires |controllers| == |names|
    requires Distinct(controllers)
    requires k < |controllers|
    ensures GoalNamesAre(Allocate(controllers, names, start), controllers[k], names[k])
    ensures Distinct(names[k]) ==> NumberedInOrder(Allocate(controllers, names, start), controllers[k], names[k])
  {
    var base := start + SumLengths(names[..k]);
    AllocateEntries(controllers, names, start, k);
    ControllerInputsKeys(names[k], base);
    if Distinct(names[k]) {
      ControllerInputsConsecutive(names[k], base);
    }
  }

  /** The allocation of all controllers' input names, in controller order. */
  lemma AllocateGoals(params: map<string, ControlParams>, names: seq<seq<string>>, start: nat)
    requires |Order.SortedStrings(params.Keys)| == |names|
    ensures var g := Allocate(Order.SortedStrings(params.Keys), names, start);
      && g.Keys == params.Keys
      && GoalsInjective(g)
      && GoalsWithin(g, start, start + SumLengths(names))
      && NumGoalInputs(g) == SumSizes(g, Order.SortedStrings(params.Keys))
  {
    var controllers := Order.SortedStrings(params.Keys);
    var g := Allocate(controllers, names, start);
    AllocateKeys(controllers, names, start);
    assert g.Keys == params.Keys;
    AllocateInjective(controllers, names, start);
    AllocateRange(controllers, names, start);
  }

  /** Every controller's input names are pairwise distinct. */
  ghost predicate DistinctGoalNames(robot: Robots.Robot, params: map<string, ControlParams>)
  {
    forall c :: c in params && CreateInputNames(robot, params, c).Success? ==>
      Distinct(CreateInputNames(robot, params, c).value)
  }

  /** Without repeated input names, the allocation holds one variable per
      input name. */
  lemma DistinctNamesCount(robot: Robots.Robot, params: map<string, ControlParams>,
                           names: seq<seq<string>>, start: nat)
    requires AllInputNames(robot, params, Order.SortedStrings(params.Keys)) == Success(names)
    ensures DistinctGoalNames(robot, params) ==>
      var controllers := Order.SortedStrings(params.Keys);
      SumSizes(Allocate(controllers, names, start), controllers) == SumLengths(names)
  {
    if DistinctGoalNames(robot, params) {
      NamesDistinct(robot, params, names);
      SortedKeys(params.Keys);
      AllocateCount(Order.SortedStrings(params.Keys), names, start);
    }
  }

  /** Without repeated names per controller, no list of `AllInputNames`
      repeats a name. */
  lemma NamesDistinct(robot: Robots.Robot, params: map<string, ControlParams>, names: seq<seq<string>>)
    requires AllInputNames(robot, params, Order.SortedStrings(params.Keys)) == Success(names)
    requires DistinctGoalNames(robot, params)
    ensures forall i :: 0 <= i < |names| ==> Distinct(names[i])
  {
    var controllers := Order.SortedStrings(params.Keys);
    SortedKeys(params.Keys);
    forall i | 0 <= i < |names|
      ensures Distinct(names[i])
    {
      var c := controllers[i];
      assert c in (set k | k in controllers);
      assert names[i] == CreateInputNames(robot, params, c).value;
    }
  }

  /** A translation controller has one input per coordinate and a rotation
      controller one per axis component plus the angle, each under its own
      dimension name. */
  lemma CartesianDimensions()
    ensures |Translation3DNames| == 3 && Distinct(Translation3DNames)
    ensures |Rotation3DNames| == 4 && Distinct(Rotation3DNames)
  {
  }

  /** Cartesian controllers always have distinct input names; a joint
      controller has them when its chain has no repeated joint name. */
  lemma CartesianNamesDistinct(robot: Robots.Robot, params: map<string, ControlParams>, c: string)
    requires c in params && params[c].ctype != JointControl
    requires CreateInputNames(robot, params, c).Success?
    ensures Distinct(CreateInputNames(robot, params, c).value)
  {
    if params[c].ctype == Translation3D {
      InputNamesDistinct(c, Translation3DNames);
    } else {
      InputNamesDistinct(c, Rotation3DNames);
    }
  }

  lemma JointNamesDistinct(robot: Robots.Robot, params: map<string, ControlParams>, c: string)
    requires c in params && params[c].ctype == JointControl
    requires Chains.ChainJointNames(robot.model, robot.parents, params[c].rootLink, params[c].tipLink, false).Success?
    requires Distinct(Chains.ChainJointNames(robot.model, robot.parents, params[c].rootLink, params[c].tipLink, false).value)
    ensures Distinct(CreateInputNames(robot, params, c).value)
  {
    InputNamesDistinct(c, Chains.ChainJointNames(robot.model, robot.parents, params[c].rootLink, params[c].tipLink, false).value);
  }

  /** The part of a controller's state a control law observes. */
  datatype Observed =
    | JointPosition(joint: Spec)                 // the joint's input variable
    | FkOriginCoordinate(axis: nat, fk: Spec)    // `x_coord`/`y_coord`/`z_coord` of `origin(fk)`
    | FkRotationCoordinate(axis: nat, fk: Spec)  // the same of `rot_vector(orientation_of(fk))`

  /** The control laws, kept symbolic: their numeric content (gain
      scaling, speed clipping, angle wrapping) is not modelled. */
  datatype ControlLaw =
    | JointLaw(goal: Spec, state: Spec, continuous: bool, pGain: real, maxSpeed: real)
    | TranslationLaw(axis: nat, goal: Spec, fk: Spec, pGain: real, maxSpeed: real)
    | RotationLaw(axis: nat, goal: Spec, fk: Spec, pGain: real, maxSpeed: real)

  /** `SoftConstraintSpec` */
  datatype SoftConstraint = SoftConstraint(
    name: string, expression: Observed, lower: ControlLaw, upper: ControlLaw, weight: Spec)

  /** `get_goal_inputs` */
  function GetGoalInputs(goals: map<string, map<string, nat>>, controller: string)
    : (r: Result<map<string, nat>, Error>)
    ensures r.Success? <==> controller in goals
    ensures r.Success? ==> r.value == goals[controller]
    ensures r.Failure? ==> r.error == GoalInputsNotFound(controller)
  {
    if controller in goals then Success(goals[controller]) else Failure(GoalInputsNotFound(controller))
  }

  /** `get_goal_input(control_name, dim_name)` */
  function GetGoalInput(goals: map<string, map<string, nat>>, controller: string, dimension: string)
    : (r: Result<Spec, Error>)
    ensures r.Success? <==> controller in goals && CreateInputName(controller, dimension) in goals[controller]
    ensures r.Success? ==> r == Success(DoubleInput(goals[controller][CreateInputName(controller, dimension)]))
    ensures controller !in goals ==> r == Failure(GoalInputsNotFound(controller))
    ensures controller in goals && r.Failure? ==> r == Failure(GoalInputNotFound(controller, dimension))
  {
    var inputs :- GetGoalInputs(goals, controller);
    var name := CreateInputName(controller, dimension);
    if name in inputs then Success(DoubleInput(inputs[name])) else Failure(GoalInputNotFound(controller, dimension))
  }

  /** `get_goal_input(input_name)`: not implemented; it always fails. */
  function GetGoalInputByName(goals: map<string, map<string, nat>>, inputName: string): (r: Result<Spec, Error>)
    ensures r == Failure(GoalInputByNameUnsupported(inputName))
  {
    Failure(GoalInputByNameUnsupported(inputName))
  }

  /** The `max_speed <= 0` guard of every control builder. */
  function CheckMaxSpeed(controller: string, p: ControlParams): (r: Result<(), Error>)
    ensures r.Success? <==> p.maxSpeed > 0.0
    ensures r.Failure? ==> r.error == NonPositiveMaxSpeed(controller)
  {
    if p.maxSpeed <= 0.0 then Failure(NonPositiveMaxSpeed(controller)) else Success(())
  }

  /** The soft constraint of one joint of a joint controller: its goal
      input is looked up first, then its joint variable, and the speed
      guard comes last. */
  function JointSoft(robot: Robots.Robot, goals: map<string, map<string, nat>>, controller: string,
                     p: ControlParams, joint: string)
    : (r: Result<SoftConstraint, Error>)
    requires Robots.JointsKnown(robot.model, robot.joints)
    ensures r.Success? <==>
      && controller in goals && CreateInputName(controller, joint) in goals[controller]
      && joint in robot.joints && p.maxSpeed > 0.0
    ensures r.Success? ==>
      && r.value.name == CreateInputName(controller, joint)
      && r.value.expression == JointPosition(DoubleInput(robot.joints[joint]))
      && r.value.lower == r.value.upper
      && r.value.weight == DoubleConst(p.weight)
  {
    var goal :- GetGoalInput(goals, controller, joint);
    var q :- Robots.Kinematics.JointInput(robot.joints, joint);
    var continuous := Chains.IsContinuousJoint(robot.model, joint);
    var _ :- CheckMaxSpeed(controller, p);
    var law := JointLaw(goal, q, continuous, p.pGain, p.maxSpeed);
    Success(SoftConstraint(CreateInputName(controller, joint), JointPosition(q), law, law, DoubleConst(p.weight)))
  }

  /** The soft constraints of a joint controller, one per moveable joint of
      its chain, in chain order; the first failure is the result. */
  function JointSofts(robot: Robots.Robot, goals: map<string, map<string, nat>>, controller: string,
                      p: ControlParams, joints: seq<string>)
    : (r: Result<seq<SoftConstraint>, Error>)
    requires Robots.JointsKnown(robot.model, robot.joints)
    ensures r.Success? <==> forall i :: 0 <= i < |joints| ==> JointSoft(robot, goals, controller, p, joints[i]).Success?
    ensures r.Success? ==> |r.value| == |joints|
    ensures r.Success? ==> forall i :: 0 <= i < |joints| ==>
      JointSoft(robot, goals, controller, p, joints[i]) == Success(r.value[i])
    decreases |joints|
  {
    if |joints| == 0 then Success([])
    else
      var first :- JointSoft(robot, goals, controller, p, joints[0]);
      var rest :- JointSofts(robot, goals, controller, p, joints[1..]);
      Success([first] + rest)
  }

  /** Every input name of `controller` over `dimensions` has a goal input. */
  predicate HasGoals(goals: map<string, map<string, nat>>, controller: string, dimensions: seq<string>)
  {
    controller in goals && forall i :: 0 <= i < |dimensions| ==> CreateInputName(controller, dimensions[i]) in goals[controller]
  }

  /** The soft constraints of a translation controller: one per coordinate
      of the tip's position, named after the goal inputs `x`, `y`, `z`. */
  function TranslationSofts(robot: Robots.Robot, goals: map<string, map<string, nat>>, controller: string,
                            p: ControlParams)
    : (r: Result<seq<SoftConstraint>, Error>)
    ensures r.Success? <==>
      HasGoals(goals, controller, Translation3DNames)
      && Robots.ChainKey(p.rootLink, p.tipLink) in robot.fk && p.maxSpeed > 0.0
    ensures r.Success? ==> |r.value| == 3 && forall i :: 0 <= i < 3 ==>
      && r.value[i].name == CreateInputName(controller, Translation3DNames[i])
      && r.value[i].expression == FkOriginCoordinate(i, robot.fk[Robots.ChainKey(p.rootLink, p.tipLink)])
      && r.value[i].lower == r.value[i].upper
      && r.value[i].weight == DoubleConst(p.weight)
  {
    var x :- GetGoalInput(goals, controller, Translation3DNames[0]);
    var y :- GetGoalInput(goals, controller, Translation3DNames[1]);
    var z :- GetGoalInput(goals, controller, Translation3DNames[2]);
    var fk :- Robots.GetFkSpec(robot, p.rootLink, p.tipLink);
    var _ :- CheckMaxSpeed(controller, p);
    var goal := VectorConstructor(x, y, z);
    Success(seq(3, i requires 0 <= i < 3 =>
      var law := TranslationLaw(i, goal, fk, p.pGain, p.maxSpeed);
      SoftConstraint(CreateInputName(controller, Translation3DNames[i]), FkOriginCoordinate(i, fk),
                     law, law, DoubleConst(p.weight))))
  }

  /** The soft constraints of a rotation controller: one per coordinate of
      the tip's rotation vector, named after the goal inputs `axis_x`,
      `axis_y`, `axis_z`; the goal input `angle` gets none. */
  function RotationSofts(robot: Robots.Robot, goals: map<string, map<string, nat>>, controller: string,
                         p: ControlParams)
    : (r: Result<seq<SoftConstraint>, Error>)
    ensures r.Success? <==>
      HasGoals(goals, controller, Rotation3DNames)
      && Robots.ChainKey(p.rootLink, p.tipLink) in robot.fk && p.maxSpeed > 0.0
    ensures r.Success? ==> |r.value| == 3 && forall i :: 0 <= i < 3 ==>
      && r.value[i].name == CreateInputName(controller, Rotation3DNames[i])
      && r.value[i].expression == FkRotationCoordinate(i, robot.fk[Robots.ChainKey(p.rootLink, p.tipLink)])
      && r.value[i].lower == r.value[i].upper
      && r.value[i].weight == DoubleConst(p.weight)
  {
    var ax :- GetGoalInput(goals, controller, Rotation3DNames[0]);
    var ay :- GetGoalInput(goals, controller, Rotation3DNames[1]);
    var az :- GetGoalInput(goals, controller, Rotation3DNames[2]);
    var angle :- GetGoalInput(goals, controller, Rotation3DNames[3]);
    var fk :- Robots.GetFkSpec(robot, p.rootLink, p.tipLink);
    var _ :- CheckMaxSpeed(controller, p);
    var goal := AxisAngle(VectorConstructor(ax, ay, az), angle);
    Success(seq(|Rotation3DNames| - 1, i requires 0 <= i < |Rotation3DNames| - 1 =>
      var law := RotationLaw(i, goal, fk, p.pGain, p.maxSpeed);
      SoftConstraint(CreateInputName(controller, Rotation3DNames[i]), FkRotationCoordinate(i, fk),
                     law, law, DoubleConst(p.weight))))
  }

  /** `create_soft_constraints`: every soft constraint is named after a goal
      input of its controller and has equal lower and upper bounds; a
      non-positive `max_speed` is refused as soon as one soft constraint
      would be built. */
  function CreateSoftConstraints(robot: Robots.Robot, params: map<string, ControlParams>,
                                 goals: map<string, map<string, nat>>, controller: string)
    : (r: Result<seq<SoftConstraint>, Error>)
    requires Robots.JointsKnown(robot.model, robot.joints)
    ensures controller !in params ==> r == Failure(UnknownController(controller))
    ensures controller in params && params[controller].ctype == Unknown ==>
      r == Failure(UnsupportedControlType(controller))
    ensures r.Success? ==> forall i :: 0 <= i < |r.value| ==> r.value[i].lower == r.value[i].upper
    ensures r.Success? ==> forall i :: 0 <= i < |r.value| ==>
      controller in goals && r.value[i].name in goals[controller]
    ensures r.Success? && |r.value| > 0 ==> params[controller].maxSpeed > 0.0
    ensures (controller in params && params[controller].ctype in {Translation3D, Rotation3D}
             && params[controller].maxSpeed <= 0.0) ==> r.Failure?
    ensures r.Success? && params[controller].ctype == JointControl ==>
      var joints := Chains.ChainJointNames(robot.model, robot.parents,
                                           params[controller].rootLink, params[controller].tipLink, false);
      joints.Success? && |r.value| == |joints.value|
    ensures r.Success? && params[controller].ctype in {Translation3D, Rotation3D} ==> |r.value| == 3
  {
    if controller !in params then Failure(UnknownController(controller))
    else
      var p := params[controller];
      match p.ctype
      case JointControl =>
        var joints :- Chains.ChainJointNames(robot.model, robot.parents, p.rootLink, p.tipLink, false);
        JointSofts(robot, goals, controller, p, joints)
      case Translation3D => TranslationSofts(robot, goals, controller, p)
      case Rotation3D => RotationSofts(robot, goals, controller, p)
      case Unknown => Failure(UnsupportedControlType(controller))
  }

  /** A joint controller whose chain has no moveable joint yields no soft
      constraint, and its `max_speed` is never checked. */
  lemma EmptyJointChainSkipsSpeedCheck(robot: Robots.Robot, params: map<string, ControlParams>,
                                       goals: map<string, map<string, nat>>, controller: string)
    requires Robots.JointsKnown(robot.model, robot.joints)
    requires controller in params && params[controller].ctype == JointControl
    requires Chains.ChainJointNames(robot.model, robot.parents,
                                    params[controller].rootLink, params[controller].tipLink, false) == Success([])
    ensures CreateSoftConstraints(robot, params, goals, controller) == Success([])
  {
  }

  /** `init_soft_constraints`: the soft constraints of all controllers,
      concatenated in controller order. */
  function InitSoftConstraints(robot: Robots.Robot, params: map<string, ControlParams>,
                               goals: map<string, map<string, nat>>, controllers: seq<string>)
    : (r: Result<seq<SoftConstraint>, Error>)
    requires Robots.JointsKnown(robot.model, robot.joints)
    ensures r.Success? <==> forall i :: 0 <= i < |controllers| ==>
      CreateSoftConstraints(robot, params, goals, controllers[i]).Success?
    ensures r.Success? ==> forall i :: 0 <= i < |r.value| ==> GoalName(goals, r.value[i].name)
    ensures r.Success? ==> forall i :: 0 <= i < |r.value| ==> r.value[i].lower == r.value[i].upper
    decreases |controllers|
  {
    if |controllers| == 0 then Success([])
    else
      var first := CreateSoftConstraints(robot, params, goals, controllers[0]);
      if first.Failure? then Failure(first.error)
      else
        var tail := controllers[1..];
        assert forall j :: 0 <= j < |tail| ==> tail[j] == controllers[j + 1];
        var rest := InitSoftConstraints(robot, params, goals, tail);
        if rest.Failure? then Failure(rest.error)
        else
          SoftsConcat(goals, first.value, rest.value);
          Success(first.value + rest.value)
  }

  /** Goal-input names and equal bounds survive concatenation. */
  lemma SoftsConcat(goals: map<string, map<string, nat>>, a: seq<SoftConstraint>, b: seq<SoftConstraint>)
    requires forall i :: 0 <= i < |a| ==> GoalName(goals, a[i].name) && a[i].lower == a[i].upper
    requires forall i :: 0 <= i < |b| ==> GoalName(goals, b[i].name) && b[i].lower == b[i].upper
    ensures forall i :: 0 <= i < |a + b| ==> GoalName(goals, (a + b)[i].name)
    ensures forall i :: 0 <= i < |a + b| ==> (a + b)[i].lower == (a + b)[i].upper
  {
    var r := a + b;
    assert forall i :: 0 <= i < |a| ==> r[i] == a[i];
    assert forall i :: |a| <= i < |r| ==> r[i] == b[i - |a|];
  }
  /** `softs` holds every soft constraint of every controller of `params`,
      and nothing else. */
  ghost predicate SoftsCover(robot: Robots.Robot, params: map<string, ControlParams>,
                             goals: map<string, map<string, nat>>, softs: seq<SoftConstraint>)
    requires Robots.JointsKnown(robot.model, robot.joints)
  {
    && (forall c :: c in params ==>
          var s := CreateSoftConstraints(robot, params, goals, c);
          s.Success? && forall j :: 0 <= j < |s.value| ==> s.value[j] in softs)
    && (forall x :: x in softs ==> exists c :: c in params && SoftOf(robot, params, goals, c, x))
  }

  /** The soft constraint `x` is one of controller `c`'s. */
  predicate SoftOf(robot: Robots.Robot, params: map<string, ControlParams>,
                   goals: map<string, map<string, nat>>, c: string, x: SoftConstraint)
    requires Robots.JointsKnown(robot.model, robot.joints)
  {
    var s := CreateSoftConstraints(robot, params, goals, c);
    s.Success? && x in s.value
  }

  /** `init_soft_constraints` appends every controller's soft constraints
      and nothing else: each constraint of each listed controller is in the
      result, and each element of the result is one of some listed
      controller's constraints. */
  lemma {:induction false} InitSoftsCover(robot: Robots.Robot, params: map<string, ControlParams>,
                                          goals: map<string, map<string, nat>>, controllers: seq<string>)
    requires Robots.JointsKnown(robot.model, robot.joints)
    requires InitSoftConstraints(robot, params, goals, controllers).Success?
    ensures forall c :: c in controllers ==>
      var s := CreateSoftConstraints(robot, params, goals, c);
      s.Success? && forall j :: 0 <= j < |s.value| ==> s.value[j] in InitSoftConstraints(robot, params, goals, controllers).value
    ensures forall x :: x in InitSoftConstraints(robot, params, goals, controllers).value ==>
      exists c :: c in controllers && SoftOf(robot, params, goals, c, x)
    decreases |controllers|
  {
    if |controllers| > 0 {
      var r := InitSoftConstraints(robot, params, goals, controllers).value;
      var first := CreateSoftConstraints(robot, params, goals, controllers[0]).value;
      var tail := controllers[1..];
      InitSoftsCover(robot, params, goals, tail);
      var rest := InitSoftConstraints(robot, params, goals, tail).value;
      assert r == first + rest;
      assert forall c :: c in controllers ==> c == controllers[0] || c in tail;
      forall x | x in r
        ensures exists c :: c in controllers && SoftOf(robot, params, goals, c, x)
      {
        if x in first {
          assert SoftOf(robot, params, goals, controllers[0], x);
        } else {
          assert x in rest;
          var c :| c in tail && SoftOf(robot, params, goals, c, x);
          assert c in controllers;
        }
      }
    }
  }

  /** The cover of InitSoftsCover, over every controller of `params` in
      name order, as the generator builds it. */
  lemma InitSoftsCoverParams(robot: Robots.Robot, params: map<string, ControlParams>,
                             goals: map<string, map<string, nat>>)
    requires Robots.JointsKnown(robot.model, robot.joints)
    requires InitSoftConstraints(robot, params, goals, Order.SortedStrings(params.Keys)).Success?
    ensures SoftsCover(robot, params, goals, InitSoftConstraints(robot, params, goals, Order.SortedStrings(params.Keys)).value)
  {
    var controllers := Order.SortedStrings(params.Keys);
    SortedKeys(params.Keys);
    assert forall c :: c in params <==> c in controllers;
    InitSoftsCover(robot, params, goals, controllers);
  }


  /** `name` is the name of some controller's goal input. */
  ghost predicate GoalName(goals: map<string, map<string, nat>>, name: string)
  {
    exists c :: c in goals && name in goals[c]
  }

  /** `QPControllerSpecGenerator(QPControllerParams(...))`: builds the
      robot from the controllers' chains, takes over its constraints, then
      allocates the goal inputs and creates the soft constraints. */
  function Create(model: Model, parents: map<string, string>, rootLink: string,
                  weights: map<string, real>, thresholds: map<string, real>,
                  params: map<string, ControlParams>)
    : (r: Result<GeneratorState, Error>)
    ensures r.Success? ==> Robots.Valid(r.value.robot)
    ensures r.Success? ==> forall c :: c in params ==>
      Robots.ChainKey(params[c].rootLink, params[c].tipLink) in r.value.robot.fk
    ensures r.Success? ==> Init(r.value.robot, params) == r
  {
    var robot :- CreateRobot(model, parents, rootLink, weights, thresholds, params);
    Init(robot, params)
  }

  /** The robot of `create`: one kinematic chain per controller. */
  function CreateRobot(model: Model, parents: map<string, string>, rootLink: string,
                       weights: map<string, real>, thresholds: map<string, real>,
                       params: map<string, ControlParams>)
    : (r: Result<Robots.Robot, Error>)
    ensures r.Success? ==> Robots.Valid(r.value)
    ensures r.Success? ==> forall c :: c in params ==>
      Robots.ChainKey(params[c].rootLink, params[c].tipLink) in r.value.fk
  {
    var robot :- Robots.CreateFromChains(model, parents, rootLink, GetChains(params), weights, thresholds);
    CreatedChains(params, robot.fk.Keys, GetChains(params));
    Success(robot)
  }

  lemma CreatedChains(params: map<string, ControlParams>, keys: set<Robots.ChainKey>, chains: seq<Robots.ChainKey>)
    requires keys == set c | c in chains
    requires forall c :: c in params ==> Robots.ChainKey(params[c].rootLink, params[c].tipLink) in chains
    ensures forall c :: c in params ==> Robots.ChainKey(params[c].rootLink, params[c].tipLink) in keys
  {
  }

  /** `init`: the robot's constraints, then the goal inputs, then the soft
      constraints. */
  function Init(robot: Robots.Robot, params: map<string, ControlParams>): (r: Result<GeneratorState, Error>)
    requires Robots.Valid(robot)
    ensures r.Success? ==> r.value.params == params && r.value.robot == robot
    ensures r.Success? ==> forall i :: 0 <= i < |r.value.controllables| ==> r.value.controllables[i].inputNumber == i
    ensures r.Success? ==> r.value.goals.Keys == params.Keys && GoalsInjective(r.value.goals)
    ensures r.Success? ==> NumControllables(r.value) == Robots.NumberOfJoints(robot)
    ensures r.Success? && DistinctGoalNames(robot, params) ==>
      GoalsWithin(r.value.goals, NumControllables(r.value), NumObservables(r.value))
    ensures r.Success? ==> r.value.controllables == Robots.GetControllableConstraints(robot)
    ensures r.Success? ==> r.value.hards == Robots.GetHardConstraints(robot)
    ensures r.Success? ==> GoalsNamed(robot, params, r.value.goals)
    ensures r.Success? ==> BlocksInNameOrder(r.value.goals)
    ensures r.Success? && DistinctGoalNames(robot, params) ==> GoalsNumbered(robot, params, r.value.goals)
    ensures r.Success? ==> SoftsCover(robot, params, r.value.goals, r.value.softs)
  {
    var controllables := Robots.GetControllableConstraints(robot);
    var hards := Robots.GetHardConstraints(robot);
    var goals :- InitGoalInputs(robot, params, |controllables|);
    var softs :- InitSoftConstraints(robot, params, goals, Order.SortedStrings(params.Keys));
    InitSoftsCoverParams(robot, params, goals);
    Success(GeneratorState(params, robot, controllables, hards, goals, softs))
  }

  /** `get_controllable_names` */
  function ControllableNames(g: GeneratorState): (r: seq<string>)
    ensures |r| == NumControllables(g)
    ensures forall i :: 0 <= i < |r| ==> r[i] == g.controllables[i].name
  {
    seq(|g.controllables|, i requires 0 <= i < |g.controllables| => g.controllables[i].name)
  }

  /** One assignment `observable_names[index] = name`. */
  datatype Write = Write(index: nat, name: string)

  /** The assignments of one controller, in the order of its input names. */
  function ControllerWrites(inputs: map<string, nat>): (r: seq<Write>)
    ensures forall k :: 0 <= k < |r| ==> r[k].name in inputs && r[k].index == inputs[r[k].name]
    ensures forall n :: n in inputs ==> Write(inputs[n], n) in r
  {
    var ns := Order.SortedStrings(inputs.Keys);
    var r := seq(|ns|, k requires 0 <= k < |ns| => Write(inputs[ns[k]], ns[k]));
    forall n | n in inputs
      ensures Write(inputs[n], n) in r
    {
      var k :| 0 <= k < |ns| && ns[k] == n;
      assert r[k] == Write(inputs[n], n);
    }
    r
  }

  /** `w` assigns some controller's goal input the name of that input. */
  ghost predicate FromGoals(goals: map<string, map<string, nat>>, w: Write)
  {
    exists c :: c in goals && w.name in goals[c] && w.index == goals[c][w.name]
  }

  /** The assignments of the listed controllers, in order. */
  function GoalWrites(goals: map<string, map<string, nat>>, controllers: seq<string>): (r: seq<Write>)
    requires forall j :: 0 <= j < |controllers| ==> controllers[j] in goals
    ensures forall k :: 0 <= k < |r| ==> FromGoals(goals, r[k])
    ensures forall j, n :: 0 <= j < |controllers| && n in goals[controllers[j]] ==>
      Write(goals[controllers[j]][n], n) in r
    decreases |controllers|
  {
    if |controllers| == 0 then []
    else
      var first := ControllerWrites(goals[controllers[0]]);
      var rest := GoalWrites(goals, controllers[1..]);
      var r := first + rest;
      forall k | 0 <= k < |r|
        ensures FromGoals(goals, r[k])
      {
        if k < |first| {
          assert r[k] == first[k];
          assert controllers[0] in goals && r[k].name in goals[controllers[0]];
        } else {
          assert r[k] == rest[k - |first|];
        }
      }
      forall j, n | 0 <= j < |controllers| && n in goals[controllers[j]]
        ensures Write(goals[controllers[j]][n], n) in r
      {
        if j > 0 {
          assert controllers[1..][j - 1] == controllers[j];
        }
      }
      r
  }

  /** Performs the assignments from first to last. */
  function Apply(names: seq<string>, ws: seq<Write>): (r: seq<string>)
    requires forall k :: 0 <= k < |ws| ==> ws[k].index < |names|
    ensures |r| == |names|
    decreases |ws|
  {
    if |ws| == 0 then names else Apply(names[ws[0].index := ws[0].name], ws[1..])
  }

  /** No two assignments put different names at the same index. */
  predicate Consistent(ws: seq<Write>)
  {
    forall k, l :: 0 <= k < |ws| && 0 <= l < |ws| && ws[k].index == ws[l].index ==> ws[k].name == ws[l].name
  }

  lemma {:induction false} ApplyUntouched(names: seq<string>, ws: seq<Write>, i: nat)
    requires forall k :: 0 <= k < |ws| ==> ws[k].index < |names|
    requires i < |names|
    requires forall k :: 0 <= k < |ws| ==> ws[k].index != i
    ensures Apply(names, ws)[i] == names[i]
    decreases |ws|
  {
    if |ws| > 0 {
      ApplyUntouched(names[ws[0].index := ws[0].name], ws[1..], i);
    }
  }

  lemma {:induction false} ApplyWritten(names: seq<string>, ws: seq<Write>, k: nat)
    requires forall l :: 0 <= l < |ws| ==> ws[l].index < |names|
    requires Consistent(ws)
    requires k < |ws|
    ensures Apply(names, ws)[ws[k].index] == ws[k].name
    decreases |ws|
  {
    var next := names[ws[0].index := ws[0].name];
    assert Consistent(ws[1..]) by {
      forall a, b | 0 <= a < |ws[1..]| && 0 <= b < |ws[1..]| && ws[1..][a].index == ws[1..][b].index
        ensures ws[1..][a].name == ws[1..][b].name
      {
        assert ws[1..][a] == ws[a + 1] && ws[1..][b] == ws[b + 1];
      }
    }
    if k > 0 {
      ApplyWritten(next, ws[1..], k - 1);
    } else if exists l :: 0 <= l < |ws[1..]| && ws[1..][l].index == ws[0].index {
      var l :| 0 <= l < |ws[1..]| && ws[1..][l].index == ws[0].index;
      ApplyWritten(next, ws[1..], l);
      assert ws[1..][l] == ws[l + 1];
    } else {
      ApplyUntouched(next, ws[1..], ws[0].index);
    }
  }

  /** `get_observable_names`: the controllable names at their joint
      variables, then every goal input's name at its variable. */
  function ObservableNames(g: GeneratorState): (r: seq<string>)
    requires GoalsWithin(g.goals, 0, NumObservables(g))
    ensures |r| == NumObservables(g)
  {
    Apply(Reserved(g), GoalWrites(g.goals, Order.SortedStrings(g.goals.Keys)))
  }

  /** The reserved vector with the controllable names copied over. */
  function Reserved(g: GeneratorState): (r: seq<string>)
    ensures |r| == NumObservables(g)
    ensures forall i :: 0 <= i < |g.controllables| ==> r[i] == g.controllables[i].name
  {
    seq(NumObservables(g), i requires 0 <= i < NumObservables(g) =>
      if i < |g.controllables| then g.controllables[i].name else "")
  }

  /** Distinct goal inputs have distinct variables, so the assignments
      never disagree. */
  lemma GoalWritesConsistent(goals: map<string, map<string, nat>>, controllers: seq<string>)
    requires forall j :: 0 <= j < |controllers| ==> controllers[j] in goals
    requires GoalsInjective(goals)
    ensures Consistent(GoalWrites(goals, controllers))
  {
    var ws := GoalWrites(goals, controllers);
    forall k, l | 0 <= k < |ws| && 0 <= l < |ws| && ws[k].index == ws[l].index
      ensures ws[k].name == ws[l].name
    {
      assert FromGoals(goals, ws[k]) && FromGoals(goals, ws[l]);
      var c :| c in goals && ws[k].name in goals[c] && ws[k].index == goals[c][ws[k].name];
      var c' :| c' in goals && ws[l].name in goals[c'] && ws[l].index == goals[c'][ws[l].name];
      assert (c, ws[k].name) == (c', ws[l].name);
    }
  }

  /** The assignments stay within the range of the goal variables. */
  lemma GoalWritesWithin(goals: map<string, map<string, nat>>, controllers: seq<string>, lo: nat, hi: nat)
    requires forall j :: 0 <= j < |controllers| ==> controllers[j] in goals
    requires GoalsWithin(goals, lo, hi)
    ensures forall k :: 0 <= k < |GoalWrites(goals, controllers)| ==>
      lo <= GoalWrites(goals, controllers)[k].index < hi
  {
    var ws := GoalWrites(goals, controllers);
    forall k | 0 <= k < |ws|
      ensures lo <= ws[k].index < hi
    {
      assert FromGoals(goals, ws[k]);
    }
  }

  /** Observable `i` is controllable `i` for every joint variable. */
  lemma ObservableControllables(g: GeneratorState)
    requires GoalsWithin(g.goals, NumControllables(g), NumObservables(g))
    ensures GoalsWithin(g.goals, 0, NumObservables(g))
    ensures forall i :: 0 <= i < NumControllables(g) ==> ObservableNames(g)[i] == g.controllables[i].name
  {
    forall i | 0 <= i < NumControllables(g)
      ensures ObservableNames(g)[i] == g.controllables[i].name
    {
      ObservableControllable(g, i);
    }
  }

  lemma ObservableControllable(g: GeneratorState, i: nat)
    requires GoalsWithin(g.goals, NumControllables(g), NumObservables(g))
    requires i < NumControllables(g)
    ensures ObservableNames(g)[i] == g.controllables[i].name
  {
    var ks := Order.SortedStrings(g.goals.Keys);
    var ws := GoalWrites(g.goals, ks);
    GoalWritesWithin(g.goals, ks, NumControllables(g), NumObservables(g));
    ApplyUntouched(Reserved(g), ws, i);
  }

  /** The goal input with variable `k` is named at position `k`. */
  lemma ObservableGoals(g: GeneratorState)
    requires GoalsWithin(g.goals, 0, NumObservables(g))
    requires GoalsInjective(g.goals)
    ensures forall c, n :: c in g.goals && n in g.goals[c] ==> ObservableNames(g)[g.goals[c][n]] == n
  {
    forall c, n | c in g.goals && n in g.goals[c]
      ensures ObservableNames(g)[g.goals[c][n]] == n
    {
      ObservableGoal(g, c, n);
    }
  }

  lemma ObservableGoal(g: GeneratorState, c: string, n: string)
    requires GoalsWithin(g.goals, 0, NumObservables(g))
    requires GoalsInjective(g.goals)
    requires c in g.goals && n in g.goals[c]
    ensures ObservableNames(g)[g.goals[c][n]] == n
  {
    var ks := Order.SortedStrings(g.goals.Keys);
    var ws := GoalWrites(g.goals, ks);
    GoalWritesConsistent(g.goals, ks);
    GoalWritesWithin(g.goals, ks, 0, NumObservables(g));
    var j :| 0 <= j < |ks| && ks[j] == c;
    assert Write(g.goals[c][n], n) in ws;
    AppliedWrite(Reserved(g), ws, Write(g.goals[c][n], n));
  }

  /** Under consistent assignments, every assignment's name ends up at its
      index. */
  lemma AppliedWrite(names: seq<string>, ws: seq<Write>, w: Write)
    requires forall l :: 0 <= l < |ws| ==> ws[l].index < |names|
    requires Consistent(ws)
    requires w in ws
    ensures w.index < |Apply(names, ws)| && Apply(names, ws)[w.index] == w.name
  {
    var k :| 0 <= k < |ws| && ws[k] == w;
    ApplyWritten(names, ws, k);
  }

  /** In a generator whose controllers repeat no input name, the
      observables are the joint variables' names followed by the goal
      inputs' names, each at its own variable. */
  lemma CreateLayout(model: Model, parents: map<string, string>, rootLink: string,
                     weights: map<string, real>, thresholds: map<string, real>,
                     params: map<string, ControlParams>)
    requires Create(model, parents, rootLink, weights, thresholds, params).Success?
    requires DistinctGoalNames(Create(model, parents, rootLink, weights, thresholds, params).value.robot, params)
    ensures var g := Create(model, parents, rootLink, weights, thresholds, params).value;
      GoalsWithin(g.goals, 0, NumObservables(g))
      && (forall i :: 0 <= i < NumControllables(g) ==> ObservableNames(g)[i] == g.controllables[i].name)
      && (forall c, n :: c in g.goals && n in g.goals[c] ==> ObservableNames(g)[g.goals[c][n]] == n)
  {
    var g := Create(model, parents, rootLink, weights, thresholds, params).value;
    ObservableControllables(g);
    ObservableGoals(g);
  }
}

=== FILE: kinematics.dfy ===
/** Forward-kinematics construction: every joint of a chain contributes its
    fixed origin transform and then a transform driven by its joint variable;
    the chain's specification is the cached product of an identity frame and
    all these transforms, root first. */
module Kinematics {
  import opened Results
  import opened Errors
  import opened Urdf
  import opened Specs
  import Chains
  import Registry
  import SpecEval

  /** `to_vector_spec`: a constant vector whose components evaluate to
      those of `v`. */
  function ToVectorSpec(v: Vector3): (r: Spec)
    ensures r.VectorConstructor?
    ensures forall env ::
              && SpecEval.Eval(r.x, env) == Success(v.x)
              && SpecEval.Eval(r.y, env) == Success(v.y)
              && SpecEval.Eval(r.z, env) == Success(v.z)
    ensures Wellformed(r) && forall n: nat :: InputsBelow(r, n)
  {
    VectorConstructor(DoubleConst(v.x), DoubleConst(v.y), DoubleConst(v.z))
  }

  /** `to_quaternion_spec`: a constant rotation. */
  function ToQuaternionSpec(r: Rotation): (s: Spec)
    ensures s.Quaternion? && Wellformed(s) && forall n: nat :: InputsBelow(s, n)
  {
    Quaternion(r.x, r.y, r.z, r.w)
  }

  /** `to_frame_spec`: a constant frame whose translation evaluates to the
      pose's position. */
  function ToFrameSpec(p: Pose): (r: Spec)
    ensures r.FrameConstructor? && r.translation.VectorConstructor?
    ensures r.rotation == ToQuaternionSpec(p.rotation)
    ensures forall env ::
              && SpecEval.Eval(r.translation.x, env) == Success(p.position.x)
              && SpecEval.Eval(r.translation.y, env) == Success(p.position.y)
              && SpecEval.Eval(r.translation.z, env) == Success(p.position.z)
    ensures Wellformed(r) && forall n: nat :: InputsBelow(r, n)
  {
    FrameConstructor(ToVectorSpec(p.position), ToQuaternionSpec(p.rotation))
  }

  /** The defaults of `vector_constructor_spec()`, `quaternion_spec()` and
      `frame_constructor_spec()`. */
  const ZeroVector: Spec := VectorConstructor(DoubleConst(0.0), DoubleConst(0.0), DoubleConst(0.0))
  const IdentityRotation: Spec := Quaternion(0.0, 0.0, 0.0, 1.0)
  const IdentityFrame: Spec := FrameConstructor(ZeroVector, IdentityRotation)

  /** `Robot::get_joint`: the input variable of a registered joint. */
  function JointInput(registry: map<string, nat>, name: string): (r: Result<Spec, Error>)
    ensures r.Success? <==> name in registry
    ensures r.Success? ==> r.value == DoubleInput(registry[name])
    ensures r.Failure? ==> r.error == JointNotFound(name)
  {
    if name in registry then Success(DoubleInput(registry[name])) else Failure(JointNotFound(name))
  }

  predicate Supported(t: JointType)
  {
    t == Fixed || t == Prismatic || t == Revolute || t == Continuous
  }

  /** The transform a moveable joint adds after its origin: a translation
      along the axis scaled by the joint variable `q` for a prismatic joint,
      a rotation about the axis by `q` for a revolute or continuous one. */
  function Motion(t: JointType, axis: Vector3, q: Spec): (r: Spec)
    requires t == Prismatic || t == Revolute || t == Continuous
    ensures r.FrameConstructor?
    ensures t == Prismatic ==>
              && r.rotation == IdentityRotation && r.translation.VectorDoubleMul?
              && r.translation.vector == ToVectorSpec(axis) && r.translation.scalar == q
    ensures t != Prismatic ==>
              && r.translation == ZeroVector && r.rotation.AxisAngle?
              && r.rotation.axis == ToVectorSpec(axis) && r.rotation.angle == q
    ensures Wellformed(q) ==> Wellformed(r)
    ensures forall n: nat :: InputsBelow(q, n) ==> InputsBelow(r, n)
  {
    if t == Prismatic then
      TranslationBelow(axis, q);
      FrameConstructor(VectorDoubleMul(ToVectorSpec(axis), q), IdentityRotation)
    else
      RotationBelow(axis, q);
      FrameConstructor(ZeroVector, AxisAngle(ToVectorSpec(axis), q))
  }

  /** Sliding along a constant axis reads no input beyond those of `q`. */
  lemma TranslationBelow(axis: Vector3, q: Spec)
    ensures forall n: nat :: InputsBelow(q, n) ==>
              InputsBelow(FrameConstructor(VectorDoubleMul(ToVectorSpec(axis), q), IdentityRotation), n)
  {
    forall n: nat | InputsBelow(q, n)
      ensures InputsBelow(FrameConstructor(VectorDoubleMul(ToVectorSpec(axis), q), IdentityRotation), n)
    {
      assert InputsBelow(VectorDoubleMul(ToVectorSpec(axis), q), n);
    }
  }

  /** Turning about a constant axis reads no input beyond those of `q`. */
  lemma RotationBelow(axis: Vector3, q: Spec)
    ensures forall n: nat :: InputsBelow(q, n) ==>
              InputsBelow(FrameConstructor(ZeroVector, AxisAngle(ToVectorSpec(axis), q)), n)
  {
    forall n: nat | InputsBelow(q, n)
      ensures InputsBelow(FrameConstructor(ZeroVector, AxisAngle(ToVectorSpec(axis), q)), n)
    {
      assert ZeroVector == ToVectorSpec(Vector3(0.0, 0.0, 0.0));
      assert InputsBelow(AxisAngle(ToVectorSpec(axis), q), n);
    }
  }

  /** `extract_joint_transforms`: the origin frame, then nothing for a fixed
      joint and the joint's motion for a prismatic, revolute or continuous
      one; planar and floating joints are rejected. */
  function JointTransforms(j: Joint, registry: map<string, nat>): (r: Result<seq<Spec>, Error>)
    ensures r.Failure? <==> !Supported(j.jtype) || (Moveable(j) && j.name !in registry)
    ensures !Supported(j.jtype) ==> r == Failure(UnsupportedJointType(j.name))
    ensures Supported(j.jtype) && Moveable(j) && j.name !in registry ==> r == Failure(JointNotFound(j.name))
    ensures r.Success? ==> |r.value| == (if Moveable(j) then 2 else 1)
    ensures r.Success? ==> r.value[0] == ToFrameSpec(j.origin)
    ensures r.Success? && Moveable(j) ==> r.value[1] == Motion(j.jtype, j.axis, DoubleInput(registry[j.name]))
  {
    if !Supported(j.jtype) then Failure(UnsupportedJointType(j.name))
    else if !Moveable(j) then Success([ToFrameSpec(j.origin)])
    else
      var q :- JointInput(registry, j.name);
      Success([ToFrameSpec(j.origin), Motion(j.jtype, j.axis, q)])
  }

  predicate JointsKnown(model: Model, names: seq<string>)
  {
    forall i :: 0 <= i < |names| ==> names[i] in model.joints && model.joints[names[i]].Some?
  }

  function JointsOf(model: Model, names: seq<string>): (r: seq<Joint>)
    requires JointsKnown(model, names)
    ensures |r| == |names|
    ensures forall i :: 0 <= i < |names| ==> model.joints[names[i]] == Some(r[i])
  {
    seq(|names|, i requires 0 <= i < |names| => model.joints[names[i]].value)
  }

  /** Every joint of the chain is described and has transforms. */
  predicate TransformsDefined(model: Model, registry: map<string, nat>, names: seq<string>)
  {
    && JointsKnown(model, names)
    && forall i :: 0 <= i < |names| ==> JointTransforms(model.joints[names[i]].value, registry).Success?
  }

  /** The transforms of all joints of a chain, looked up by name in
      `joints_`, in chain order. */
  function ChainTransforms(model: Model, registry: map<string, nat>, names: seq<string>)
    : (r: Result<seq<Spec>, Error>)
    ensures r.Success? <==> TransformsDefined(model, registry, names)
    ensures r.Success? ==> |r.value| == |names| + |Chains.MoveableOnly(JointsOf(model, names))|
    decreases |names|
  {
    if |names| == 0 then Success([])
    else
      var last := names[|names| - 1];
      TransformsDefinedSnoc(model, registry, names);
      var front :- ChainTransforms(model, registry, names[..|names| - 1]);
      if last !in model.joints then Failure(UnknownJoint(last))
      else if model.joints[last].None? then Failure(EmptyJoint(last))
      else
        var ts :- JointTransforms(model.joints[last].value, registry);
        assert JointsOf(model, names)[..|names| - 1] == JointsOf(model, names[..|names| - 1]);
        Success(front + ts)
  }

  /** A chain's transforms are defined exactly when those of all but its
      last joint are, and the last joint is described and has transforms. */
  lemma TransformsDefinedSnoc(model: Model, registry: map<string, nat>, names: seq<string>)
    requires |names| > 0
    ensures var last := names[|names| - 1];
      TransformsDefined(model, registry, names) <==>
        && TransformsDefined(model, registry, names[..|names| - 1])
        && last in model.joints && model.joints[last].Some?
        && JointTransforms(model.joints[last].value, registry).Success?
  {
    var front := names[..|names| - 1];
    assert forall i :: 0 <= i < |front| ==> front[i] == names[i];
  }

  /** The forward-kinematics specification of a chain (the body of
      `init_kinematic_chain` that fills `fk_map_`). */
  function FkSpec(model: Model, registry: map<string, nat>, names: seq<string>): (r: Result<Spec, Error>)
    ensures r.Success? <==> ChainTransforms(model, registry, names).Success?
    ensures r.Success? ==> JointsKnown(model, names)
    ensures r.Success? ==> r.value.FrameCached? && r.value.frame.FrameMul?
    ensures r.Success? ==> |r.value.frame.inputs| == 1 + |names| + |Chains.MoveableOnly(JointsOf(model, names))|
    ensures r.Success? ==> r.value.frame.inputs[0] == IdentityFrame
    ensures r.Success? ==> r.value.frame.inputs[1..] == ChainTransforms(model, registry, names).value
  {
    var ts :- ChainTransforms(model, registry, names);
    Success(FrameCached(FrameMul([IdentityFrame] + ts)))
  }

  /** The transforms of a chain are those of its first joint followed by
      those of the rest of the chain: joint transforms come root first. */
  lemma {:induction false} ChainTransformsCons(model: Model, registry: map<string, nat>, n: string, names: seq<string>)
    requires ChainTransforms(model, registry, [n] + names).Success?
    ensures n in model.joints && model.joints[n].Some?
    ensures JointTransforms(model.joints[n].value, registry).Success?
    ensures ChainTransforms(model, registry, names).Success?
    ensures ChainTransforms(model, registry, [n] + names).value
      == JointTransforms(model.joints[n].value, registry).value + ChainTransforms(model, registry, names).value
    decreases |names|
  {
    var xs := [n] + names;
    if |names| == 0 {
      assert xs[..|xs| - 1] == [];
    } else {
      var front := names[..|names| - 1];
      var last := names[|names| - 1];
      assert xs[..|xs| - 1] == [n] + front;
      assert xs[|xs| - 1] == last;
      ChainTransformsCons(model, registry, n, front);
      var head := JointTransforms(model.joints[n].value, registry).value;
      var middle := ChainTransforms(model, registry, front).value;
      var tail := JointTransforms(model.joints[last].value, registry).value;
      assert ChainTransforms(model, registry, xs).value == (head + middle) + tail;
      assert ChainTransforms(model, registry, names).value == middle + tail;
      ConcatAssociative(head, middle, tail);
    }
  }

  lemma ConcatAssociative(a: seq<Spec>, b: seq<Spec>, c: seq<Spec>)
    ensures (a + b) + c == a + (b + c)
  {
  }

  /** The fixed parts of a chain's product: the zero vector and the
      identity frame read no input. */
  lemma IdentityWellformed(n: nat)
    ensures Wellformed(ZeroVector) && InputsBelow(ZeroVector, n)
    ensures Wellformed(IdentityFrame) && InputsBelow(IdentityFrame, n)
  {
    assert ZeroVector == ToVectorSpec(Vector3(0.0, 0.0, 0.0));
  }

  /** Every transform of a joint is a well-formed specification whose only
      input is the joint's own registered variable. */
  lemma JointTransformsWellformed(j: Joint, registry: map<string, nat>)
    requires Registry.Dense(registry)
    requires JointTransforms(j, registry).Success?
    ensures forall i :: 0 <= i < |JointTransforms(j, registry).value| ==>
      Wellformed(JointTransforms(j, registry).value[i])
      && InputsBelow(JointTransforms(j, registry).value[i], |registry|)
  {
    if Moveable(j) {
      assert InputsBelow(DoubleInput(registry[j.name]), |registry|);
    }
  }

  lemma {:induction false} ChainTransformsWellformed(model: Model, registry: map<string, nat>, names: seq<string>)
    requires Registry.Dense(registry)
    requires ChainTransforms(model, registry, names).Success?
    ensures forall i :: 0 <= i < |ChainTransforms(model, registry, names).value| ==>
      Wellformed(ChainTransforms(model, registry, names).value[i])
      && InputsBelow(ChainTransforms(model, registry, names).value[i], |registry|)
    decreases |names|
  {
    if |names| > 0 {
      var last := names[|names| - 1];
      ChainTransformsWellformed(model, registry, names[..|names| - 1]);
      JointTransformsWellformed(model.joints[last].value, registry);
    }
  }

  /** A chain's forward kinematics contains no empty specification and
      refers only to registered joint variables; in particular it equals
      itself. */
  lemma FkSpecWellformed(model: Model, registry: map<string, nat>, names: seq<string>)
    requires Registry.Dense(registry)
    requires FkSpec(model, registry, names).Success?
    ensures Wellformed(FkSpec(model, registry, names).value)
    ensures InputsBelow(FkSpec(model, registry, names).value, |registry|)
    ensures EqualOp(FkSpec(model, registry, names).value, FkSpec(model, registry, names).value)
  {
    var ts := ChainTransforms(model, registry, names).value;
    ChainTransformsWellformed(model, registry, names);
    var xs := [IdentityFrame] + ts;
    forall i | 0 <= i < |xs|
      ensures Wellformed(xs[i]) && InputsBelow(xs[i], |registry|)
    {
      if i > 0 { assert xs[i] == ts[i - 1]; }
      else { IdentityWellformed(|registry|); }
    }
    var fk := FkSpec(model, registry, names).value;
    assert fk == FrameCached(FrameMul(xs));
    WellformedOfChildren(FrameMul(xs), xs);
    InputsBelowOfChildren(FrameMul(xs), xs, |registry|);
    WellformedOfChildren(fk, [FrameMul(xs)]);
    AllWellformedOne(FrameMul(xs));
    InputsBelowOfChildren(fk, [FrameMul(xs)], |registry|);
    assert [FrameMul(xs)][0] == FrameMul(xs);
    EqualsReflexive(fk);
  }
}

=== FILE: order.dfy ===
/** Key order of `std::map<std::string, _>` and the order in which such a map
    is iterated. `std::string::compare` compares characters as unsigned
    values, lexicographically, with a proper prefix sorting first. */
module Order {

  /** Strict lexicographic order on strings. */
  predicate StrLess(a: string, b: string)
  {
    if |a| == 0 then |b| > 0
    else |b| > 0 && (a[0] < b[0] || (a[0] == b[0] && StrLess(a[1..], b[1..])))
  }

  lemma {:induction false} StrLessIrreflexive(a: string)
    ensures !StrLess(a, a)
  {
    if |a| > 0 {
      StrLessIrreflexive(a[1..]);
    }
  }

  lemma {:induction false} StrLessTransitive(a: string, b: string, c: string)
    requires StrLess(a, b) && StrLess(b, c)
    ensures StrLess(a, c)
  {
    if |a| > 0 && a[0] == b[0] && b[0] == c[0] {
      StrLessTransitive(a[1..], b[1..], c[1..]);
    }
  }

  lemma {:induction false} StrLessTotal(a: string, b: string)
    requires a != b
    ensures StrLess(a, b) || StrLess(b, a)
  {
    if |a| > 0 && |b| > 0 && a[0] == b[0] {
      assert a == [a[0]] + a[1..] && b == [b[0]] + b[1..];
      StrLessTotal(a[1..], b[1..]);
    }
  }

  /** `less` is irreflexive, transitive and total on the elements of `s`. */
  ghost predicate StrictTotalOn<T>(s: set<T>, less: (T, T) -> bool)
  {
    && (forall a :: a in s ==> !less(a, a))
    && (forall a, b, c :: a in s && b in s && c in s && less(a, b) && less(b, c) ==> less(a, c))
    && (forall a, b :: a in s && b in s && a != b ==> less(a, b) || less(b, a))
  }

  predicate IsLeast<T>(m: T, s: set<T>, less: (T, T) -> bool)
  {
    m in s && forall y :: y in s && y != m ==> less(m, y)
  }

  lemma {:induction false} LeastExists<T>(s: set<T>, less: (T, T) -> bool)
    requires s != {} && StrictTotalOn(s, less)
    ensures exists m :: IsLeast(m, s, less)
  {
    var x :| x in s;
    if s != {x} {
      var rest := s - {x};
      LeastExists(rest, less);
      var m :| IsLeast(m, rest, less);
      if less(x, m) {
        assert IsLeast(x, s, less);
      } else {
        assert IsLeast(m, s, less);
      }
    } else {
      assert IsLeast(x, s, less);
    }
  }

  /** The elements of `s` in ascending order: what iterating an ordered
      container keyed by `s` visits. */
  function SortedBy<T(==,!new)>(s: set<T>, less: (T, T) -> bool): (r: seq<T>)
    requires StrictTotalOn(s, less)
    ensures |r| == |s|
    ensures forall i :: 0 <= i < |r| ==> r[i] in s
    ensures forall x :: x in s ==> x in r
    ensures forall i, j :: 0 <= i < j < |r| ==> less(r[i], r[j])
    decreases s
  {
    if s == {} then []
    else
      LeastExists(s, less);
      var m :| IsLeast(m, s, less);
      [m] + SortedBy(s - {m}, less)
  }

  /** A strictly ascending sequence has no repeated element. */
  lemma AscendingIsDistinct<T>(r: seq<T>, less: (T, T) -> bool, i: int, j: int)
    requires forall a :: a in r ==> !less(a, a)
    requires forall p, q :: 0 <= p < q < |r| ==> less(r[p], r[q])
    requires 0 <= i < j < |r|
    ensures r[i] != r[j]
  {
    assert r[i] in r;
  }

  lemma StrLessStrictTotal(s: set<string>)
    ensures StrictTotalOn(s, StrLess)
  {
    forall a | a in s {
      StrLessIrreflexive(a);
    }
    forall a, b, c | a in s && b in s && c in s && StrLess(a, b) && StrLess(b, c) {
      StrLessTransitive(a, b, c);
    }
    forall a, b | a in s && b in s && a != b {
      StrLessTotal(a, b);
    }
  }

  /** The keys of a `std::map<std::string, _>` in iteration order. */
  function SortedStrings(s: set<string>): (r: seq<string>)
    ensures |r| == |s|
    ensures forall i :: 0 <= i < |r| ==> r[i] in s
    ensures forall x :: x in s ==> x in r
    ensures forall i, j :: 0 <= i < j < |r| ==> StrLess(r[i], r[j])
  {
    StrLessStrictTotal(s);
    SortedBy(s, StrLess)
  }

  /** An ascending sequence of `n` natural numbers all below `n` is exactly
      0, 1, ..., n-1. */
  lemma {:induction false} AscendingBelowIsIdentity(r: seq<nat>, n: nat)
    requires |r| == n
    requires forall i, j :: 0 <= i < j < |r| ==> r[i] < r[j]
    requires forall i :: 0 <= i < |r| ==> r[i] < n
    ensures forall i :: 0 <= i < |r| ==> r[i] == i
  {
    forall i | 0 <= i < |r|
      ensures r[i] == i
    {
      AtLeastIndex(r, i);
      AtMostIndex(r, n, i);
    }
  }

  lemma {:induction false} AtLeastIndex(r: seq<nat>, i: nat)
    requires forall p, q :: 0 <= p < q < |r| ==> r[p] < r[q]
    requires i < |r|
    ensures r[i] >= i
  {
    if i > 0 {
      AtLeastIndex(r, i - 1);
    }
  }

  lemma {:induction false} AtMostIndex(r: seq<nat>, n: nat, i: nat)
    requires |r| == n
    requires forall p, q :: 0 <= p < q < |r| ==> r[p] < r[q]
    requires forall p :: 0 <= p < |r| ==> r[p] < n
    requires i < |r|
    ensures r[i] <= i
    decreases |r| - i
  {
    if i + 1 < |r| {
      AtMostIndex(r, n, i + 1);
    }
  }

  /** The values of a `std::map<std::string, V>` in iteration order. */
  function ValuesInKeyOrder<V(==)>(m: map<string, V>): (r: seq<V>)
    ensures |r| == |m|
    ensures forall k :: k in m ==> m[k] in r
    ensures forall i :: 0 <= i < |r| ==> r[i] in m.Values
    ensures forall i :: 0 <= i < |r| ==> r[i] == m[SortedStrings(m.Keys)[i]]
  {
    var ks := SortedStrings(m.Keys);
    assert |ks| == |m.Keys|;
    assert forall i :: 0 <= i < |ks| ==> ks[i] in m.Keys;
    assert forall k :: k in m.Keys ==> k in ks;
    ValuesAtCover(m, ks);
    ValuesAt(m, ks)
  }

  /** The values of the keys `ks`, in that order. */
  function ValuesAt<K, V>(m: map<K, V>, ks: seq<K>): (r: seq<V>)
    requires forall i :: 0 <= i < |ks| ==> ks[i] in m
  {
    seq(|ks|, i requires 0 <= i < |ks| => m[ks[i]])
  }

  lemma ValuesAtCover<K, V>(m: map<K, V>, ks: seq<K>)
    requires |ks| == |m.Keys|
    requires forall i :: 0 <= i < |ks| ==> ks[i] in m.Keys
    requires forall k :: k in m.Keys ==> k in ks
    ensures |ValuesAt(m, ks)| == |m|
    ensures forall k :: k in m ==> m[k] in ValuesAt(m, ks)
    ensures forall i :: 0 <= i < |ValuesAt(m, ks)| ==> ValuesAt(m, ks)[i] in m.Values
    ensures forall i :: 0 <= i < |ks| ==> ValuesAt(m, ks)[i] == m[ks[i]]
  {
    var r := ValuesAt(m, ks);
    assert |m.Keys| == |m|;
    forall k | k in m
      ensures m[k] in r
    {
      var i :| 0 <= i < |ks| && ks[i] == k;
      assert r[i] == m[k];
    }
    forall i | 0 <= i < |r|
      ensures r[i] in m.Values
    {
      assert ks[i] in m;
    }
  }

  /** The elements of a non-empty sequence: its head and those of its tail. */
  lemma ElementsOfTail<T>(s: seq<T>)
    requires |s| > 0
    ensures (set x | x in s) == {s[0]} + set x | x in s[1..]
  {
    assert forall x :: x in s <==> x == s[0] || x in s[1..];
  }
}

=== FILE: registry.dfy ===
/** The joint-variable registry (`joint_map_`): each moveable joint name gets
    the input number equal to the registry's size when the name is first
    seen, and keeps it. */
module Registry {
  import Order

  /** Input numbers are exactly 0 .. |m|-1, each used by one joint. */
  ghost predicate Dense(m: map<string, nat>)
  {
    && (forall k :: k in m ==> m[k] < |m|)
    && (forall k, k' :: k in m && k' in m && k != k' ==> m[k] != m[k'])
  }

  /** Registers one joint name if it is new. */
  function RegisterJoint(m: map<string, nat>, name: string): (r: map<string, nat>)
    ensures name in m ==> r == m
    ensures name !in m ==> r == m[name := |m|]
  {
    if name in m then m else m[name := |m|]
  }

  /** Registers the moveable joints of one chain, in chain order. */
  function Register(m: map<string, nat>, names: seq<string>): (r: map<string, nat>)
    ensures r.Keys == m.Keys + set n | n in names
    ensures forall k :: k in m ==> r[k] == m[k]
    decreases |names|
  {
    if |names| == 0 then m
    else
      var r := Register(RegisterJoint(m, names[0]), names[1..]);
      Order.ElementsOfTail(names);
      r
  }

  lemma RegisterJointKeepsDense(m: map<string, nat>, name: string)
    requires Dense(m)
    ensures Dense(RegisterJoint(m, name))
  {
  }

  /** Registration keeps the input numbers dense and injective. */
  lemma {:induction false} RegisterKeepsDense(m: map<string, nat>, names: seq<string>)
    requires Dense(m)
    ensures Dense(Register(m, names))
    decreases |names|
  {
    if |names| > 0 {
      RegisterJointKeepsDense(m, names[0]);
      RegisterKeepsDense(RegisterJoint(m, names[0]), names[1..]);
    }
  }

  /** A joint's number is the count of distinct joints registered before it:
      the first new name of a chain gets |m|. */
  lemma FirstNewJointGetsSize(m: map<string, nat>, names: seq<string>)
    requires |names| > 0 && names[0] !in m
    ensures Register(m, names)[names[0]] == |m|
  {
  }

  /** Newly registered joints are numbered after every joint already known,
      so known numbers are never reused. */
  lemma {:induction false} NewJointsNumberedAfter(m: map<string, nat>, names: seq<string>)
    ensures forall k :: k in Register(m, names) && k !in m ==> Register(m, names)[k] >= |m|
    decreases |names|
  {
    if |names| > 0 {
      var m1 := RegisterJoint(m, names[0]);
      NewJointsNumberedAfter(m1, names[1..]);
      assert |m1| >= |m|;
    }
  }

  /** Registering names that are all known changes nothing. */
  lemma {:induction false} RegisterKnownIsIdentity(m: map<string, nat>, names: seq<string>)
    requires forall i :: 0 <= i < |names| ==> names[i] in m
    ensures Register(m, names) == m
    decreases |names|
  {
    if |names| > 0 {
      RegisterKnownIsIdentity(m, names[1..]);
    }
  }

  /** Registering the same chain twice is registering it once. */
  lemma RegisterTwice(m: map<string, nat>, names: seq<string>)
    ensures Register(Register(m, names), names) == Register(m, names)
  {
    forall i | 0 <= i < |names|
      ensures names[i] in Register(m, names)
    {
      assert names[i] in names;
    }
    RegisterKnownIsIdentity(Register(m, names), names);
  }

  /** The registry holds one entry per distinct name seen. */
  lemma RegisterCount(m: map<string, nat>, names: seq<string>)
    ensures |Register(m, names)| == |m.Keys + set n | n in names|
  {
    assert Register(m, names).Keys == m.Keys + set n | n in names;
  }
}

=== FILE: results.dfy ===
/** Failure-compatible wrappers used by every operation of the model: the
    source reports its errors with C++ exceptions, which become `Failure`. */
module Results {

  datatype Option<+T> = None | Some(value: T)

  datatype Result<+T, +E> = Success(value: T) | Failure(error: E) {

    predicate IsFailure() {
      Failure?
    }

    function PropagateFailure<U>(): Result<U, E>
      requires Failure?
    {
      Failure(error)
    }

    function Extract(): T
      requires Success?
    {
      value
    }
  }
}

=== FILE: robot.dfy ===
/** The robot: kinematic chains of a robot description turned into
    forward-kinematics specifications, one input variable per moveable
    joint, and the controllable and hard constraints of those joints. */
module Robots {
  import opened Results
  import opened Errors
  import opened Urdf
  import opened Specs
  import Order
  import Chains
  import Registry
  import Kinematics
  import opened Constraints

  /** The (root link, tip link) pair that names a kinematic chain. */
  datatype ChainKey = ChainKey(root: string, tip: string)

  /** The order of `std::pair<std::string, std::string>`: by root, then tip. */
  predicate ChainKeyLess(a: ChainKey, b: ChainKey)
  {
    Order.StrLess(a.root, b.root) || (a.root == b.root && Order.StrLess(a.tip, b.tip))
  }

  /** `ScopeEntry`: a named specification. */
  datatype ScopeEntry = ScopeEntry(name: string, spec: Spec)

  /** `e` is the scope entry of some chain of `fk`: its tip link and its
      forward kinematics. */
  predicate IsChainEntry(fk: map<ChainKey, Spec>, e: ScopeEntry)
  {
    exists k :: k in fk && e == ScopeEntry(k.tip, fk[k])
  }

  /** `Robot`: the robot description with its parent-link tree (the result
      of `initTree`, a parameter here), the configured weights and
      velocity thresholds, and the maps filled chain by chain. */
  datatype Robot = Robot(
    model: Model,
    parents: map<string, string>,
    weights: map<string, real>,
    thresholds: map<string, real>,
    rootLink: string,
    fk: map<ChainKey, Spec>,
    joints: map<string, nat>,
    controllables: map<string, ControllableConstraint>,
    hards: map<string, HardConstraint>)

  /** A robot before its first chain is initialised. */
  function Fresh(model: Model, parents: map<string, string>, rootLink: string,
                 weights: map<string, real>, thresholds: map<string, real>): Robot
  {
    Robot(model, parents, weights, thresholds, rootLink, map[], map[], map[], map[])
  }

  /** The joint `name` exists in the description and is not an empty pointer. */
  predicate Known(model: Model, name: string)
  {
    name in model.joints && model.joints[name].Some?
  }

  /** What every robot built here satisfies: joint variables are numbered
      densely; every registered joint is described, has a controllable
      constraint carrying its own name and input number, and has a hard
      constraint exactly when it is position-limited; forward kinematics
      refer only to registered variables. */
  ghost predicate Valid(robot: Robot)
  {
    && JointsValid(robot.model, robot.joints)
    && ControllablesValid(robot.model, robot.weights, robot.thresholds, robot.joints, robot.controllables)
    && HardsValid(robot.model, robot.joints, robot.hards)
    && FkValid(robot.fk, robot.joints)
  }

  ghost predicate JointsValid(model: Model, joints: map<string, nat>)
  {
    Registry.Dense(joints) && JointsKnown(model, joints)
  }

  /** Every registered joint is described in the model. */
  ghost predicate JointsKnown(model: Model, joints: map<string, nat>)
  {
    forall n :: n in joints ==> Known(model, n)
  }

  ghost predicate ControllablesValid(model: Model, weights: map<string, real>, thresholds: map<string, real>,
                                     joints: map<string, nat>, cs: map<string, ControllableConstraint>)
  {
    && cs.Keys == joints.Keys
    && forall n :: n in cs ==>
         && Known(model, n)
         && cs[n].name == n
         && cs[n].inputNumber == joints[n]
         && Controllable(n, model.joints[n].value.limits.velocity, joints[n], weights, thresholds) == Success(cs[n])
  }

  ghost predicate HardsValid(model: Model, joints: map<string, nat>, hs: map<string, HardConstraint>)
  {
    && hs.Keys <= joints.Keys
    && (forall n :: n in joints && Known(model, n) ==> (n in hs <==> PositionLimited(model.joints[n].value)))
    && (forall n :: n in hs ==> Known(model, n) && Hard(model.joints[n].value, joints[n]) == Some(hs[n]))
  }

  ghost predicate FkValid(fk: map<ChainKey, Spec>, joints: map<string, nat>)
  {
    forall k :: k in fk ==> Wellformed(fk[k]) && InputsBelow(fk[k], |joints|)
  }

  /** One step of the controllable-constraint loop: the joint's input
      number, then its weight, then its velocity limit. */
  function ControllableStep(model: Model, joints: map<string, nat>, weights: map<string, real>,
                            thresholds: map<string, real>, name: string)
    : (r: Result<ControllableConstraint, Error>)
    ensures r.Success? ==> Known(model, name) && name in joints
    ensures r.Success? ==>
      Controllable(name, model.joints[name].value.limits.velocity, joints[name], weights, thresholds) == r
  {
    var q :- Kinematics.JointInput(joints, name);
    if !Known(model, name) then Failure(UnknownJoint(name))
    else Controllable(name, model.joints[name].value.limits.velocity, q.inputNum, weights, thresholds)
  }

  /** The controllable-constraint loop of `init_kinematic_chain`: joints
      that already have a constraint are skipped. */
  function AddControllables(model: Model, joints: map<string, nat>, weights: map<string, real>,
                            thresholds: map<string, real>, cmap: map<string, ControllableConstraint>,
                            names: seq<string>)
    : (r: Result<map<string, ControllableConstraint>, Error>)
    ensures r.Success? ==> r.value.Keys == cmap.Keys + set n | n in names
    ensures r.Success? ==> forall n :: n in cmap ==> r.value[n] == cmap[n]
    ensures r.Success? ==> forall n :: n in r.value && n !in cmap ==>
      ControllableStep(model, joints, weights, thresholds, n) == Success(r.value[n])
    decreases |names|
  {
    if |names| == 0 then Success(cmap)
    else
      var next :- ControllableAdd(model, joints, weights, thresholds, cmap, names[0]);
      Order.ElementsOfTail(names);
      AddControllables(model, joints, weights, thresholds, next, names[1..])
  }

  /** One step of the controllable-constraint loop: a joint that already
      has a constraint is skipped. */
  function ControllableAdd(model: Model, joints: map<string, nat>, weights: map<string, real>,
                           thresholds: map<string, real>, cmap: map<string, ControllableConstraint>,
                           name: string)
    : (r: Result<map<string, ControllableConstraint>, Error>)
    ensures name in cmap ==> r == Success(cmap)
    ensures r.Success? ==> r.value.Keys == cmap.Keys + {name}
    ensures r.Success? ==> forall n :: n in cmap ==> r.value[n] == cmap[n]
    ensures r.Success? && name !in cmap ==>
      ControllableStep(model, joints, weights, thresholds, name) == Success(r.value[name])
  {
    if name in cmap then Success(cmap)
    else
      var c :- ControllableStep(model, joints, weights, thresholds, name);
      Success(cmap[name := c])
  }

  /** One step of the hard-constraint loop: a joint that already has a
      constraint is skipped; otherwise it must be described, and a
      position-limited one gets a constraint on its input variable. */
  function HardStep(model: Model, joints: map<string, nat>, hmap: map<string, HardConstraint>, name: string)
    : (r: Result<map<string, HardConstraint>, Error>)
    ensures name in hmap ==> r == Success(hmap)
    ensures r.Success? && name !in hmap ==>
      && Known(model, name)
      && (name in r.value <==> PositionLimited(model.joints[name].value))
      && (name in r.value ==> name in joints && Hard(model.joints[name].value, joints[name]) == Some(r.value[name]))
    ensures r.Success? ==> forall n :: n != name ==> (n in r.value <==> n in hmap)
    ensures r.Success? ==> forall n :: n in hmap ==> r.value[n] == hmap[n]
  {
    if name in hmap then Success(hmap)
    else if name !in model.joints then Failure(UnknownJoint(name))
    else if model.joints[name].None? then Failure(EmptyJoint(name))
    else
      var j := model.joints[name].value;
      if PositionLimited(j) then
        var q :- Kinematics.JointInput(joints, name);
        Success(hmap[name := Hard(j, q.inputNum).value])
      else Success(hmap)
  }

  /** The hard-constraint loop of `init_kinematic_chain`. */
  function AddHards(model: Model, joints: map<string, nat>, hmap: map<string, HardConstraint>, names: seq<string>)
    : (r: Result<map<string, HardConstraint>, Error>)
    ensures r.Success? ==> forall n :: n in hmap ==> n in r.value && r.value[n] == hmap[n]
    ensures r.Success? ==> forall n :: n in r.value ==> n in hmap || n in names
    ensures r.Success? ==> forall n :: n in names && n !in hmap ==>
      && Known(model, n)
      && (n in r.value <==> PositionLimited(model.joints[n].value))
      && (n in r.value ==> n in joints && Hard(model.joints[n].value, joints[n]) == Some(r.value[n]))
    decreases |names|
  {
    if |names| == 0 then Success(hmap)
    else
      var next :- HardStep(model, joints, hmap, names[0]);
      assert forall x :: x in names <==> x == names[0] || x in names[1..];
      AddHards(model, joints, next, names[1..])
  }

  /** `init_kinematic_chain`: the moveable and the complete joint list of
      the chain, then the chain's additions to the robot. */
  function InitChain(robot: Robot, root: string, tip: string): (r: Result<Robot, Error>)
    ensures r.Success? ==>
      && r.value.model == robot.model && r.value.parents == robot.parents
      && r.value.weights == robot.weights && r.value.thresholds == robot.thresholds
      && r.value.rootLink == robot.rootLink
  {
    var moveable :- Chains.ChainJointNames(robot.model, robot.parents, root, tip, false);
    var all :- Chains.ChainJointNames(robot.model, robot.parents, root, tip, true);
    Extend(robot, ChainKey(root, tip), moveable, all)
  }

  /** The rest of `init_kinematic_chain`, given the chain's moveable and
      complete joint lists: registration of new moveable joints, the chain's
      forward kinematics (kept if the chain was initialised before), then
      the controllable and the hard constraints of new joints. */
  function Extend(robot: Robot, key: ChainKey, moveable: seq<string>, all: seq<string>): (r: Result<Robot, Error>)
    ensures r.Success? ==>
      && r.value.model == robot.model && r.value.parents == robot.parents
      && r.value.weights == robot.weights && r.value.thresholds == robot.thresholds
      && r.value.rootLink == robot.rootLink
  {
    var joints := Registry.Register(robot.joints, moveable);
    var spec :- Kinematics.FkSpec(robot.model, joints, all);
    var fk := if key in robot.fk then robot.fk else robot.fk[key := spec];
    var controllables :- AddControllables(robot.model, joints, robot.weights, robot.thresholds,
                                          robot.controllables, moveable);
    var hards :- AddHards(robot.model, joints, robot.hards, moveable);
    Success(robot.(fk := fk, joints := joints, controllables := controllables, hards := hards))
  }

  /** The moveable joints of all the chains that can be walked. */
  function MoveableJointsOf(model: Model, parents: map<string, string>, chains: seq<ChainKey>): set<string>
    decreases |chains|
  {
    if |chains| == 0 then {}
    else
      var walk := Chains.ChainJointNames(model, parents, chains[0].root, chains[0].tip, false);
      (if walk.Success? then set n | n in walk.value else {}) + MoveableJointsOf(model, parents, chains[1..])
  }

  /** Initialises the chains one after the other; the first failure is the
      result. The joints registered afterwards are the old ones plus the
      moveable joints of every chain. */
  function InitChains(robot: Robot, chains: seq<ChainKey>): (r: Result<Robot, Error>)
    ensures r.Success? ==> r.value.model == robot.model && r.value.weights == robot.weights
    ensures r.Success? ==> r.value.parents == robot.parents
    ensures r.Success? ==> r.value.fk.Keys == robot.fk.Keys + set c | c in chains
    ensures r.Success? ==>
      r.value.joints.Keys == robot.joints.Keys + MoveableJointsOf(robot.model, robot.parents, chains)
    ensures r.Success? && Valid(robot) ==> Valid(r.value)
    decreases |chains|
  {
    if |chains| == 0 then Success(robot)
    else
      var next :- InitChain(robot, chains[0].root, chains[0].tip);
      InitChainKeepsValidIf(robot, chains[0].root, chains[0].tip);
      InitChainRecordsChain(robot, chains[0].root, chains[0].tip);
      assert forall c :: c in chains <==> c == chains[0] || c in chains[1..];
      InitChainAddsMoveable(robot, chains);
      InitChains(next, chains[1..])
  }

  /** Initialising the first chain registers its moveable joints, which are
      the first chain's share of `MoveableJointsOf`. */
  lemma InitChainAddsMoveable(robot: Robot, chains: seq<ChainKey>)
    requires |chains| > 0
    requires InitChain(robot, chains[0].root, chains[0].tip).Success?
    ensures var next := InitChain(robot, chains[0].root, chains[0].tip).value;
      robot.joints.Keys + MoveableJointsOf(robot.model, robot.parents, chains)
      == next.joints.Keys + MoveableJointsOf(next.model, next.parents, chains[1..])
  {
    InitChainCountsJoints(robot, chains[0].root, chains[0].tip);
  }

  /** The first constructor: one chain from the root link to each tip. */
  function Create(model: Model, parents: map<string, string>, rootLink: string, tips: seq<string>,
                  weights: map<string, real>, thresholds: map<string, real>): (r: Result<Robot, Error>)
    ensures r.Success? ==> Valid(r.value)
    ensures r.Success? ==> r.value.fk.Keys == set t | t in tips :: ChainKey(rootLink, t)
    ensures r.Success? ==> r.value.joints.Keys == MoveableJointsOf(model, parents, TipChains(rootLink, tips))
  {
    TipChainsCover(rootLink, tips);
    FreshIsValid(model, parents, rootLink, weights, thresholds);
    InitChains(Fresh(model, parents, rootLink, weights, thresholds), TipChains(rootLink, tips))
  }

  /** The chains from the root link to each tip. */
  function TipChains(rootLink: string, tips: seq<string>): (r: seq<ChainKey>)
    ensures |r| == |tips|
    ensures forall i :: 0 <= i < |tips| ==> r[i] == ChainKey(rootLink, tips[i])
  {
    seq(|tips|, i requires 0 <= i < |tips| => ChainKey(rootLink, tips[i]))
  }

  lemma TipChainsCover(rootLink: string, tips: seq<string>)
    ensures (set c | c in TipChains(rootLink, tips)) == set t | t in tips :: ChainKey(rootLink, t)
  {
    var chains := TipChains(rootLink, tips);
    forall c | c in chains ensures exists t :: t in tips && c == ChainKey(rootLink, t) {
      var i :| 0 <= i < |chains| && chains[i] == c;
      assert tips[i] in tips;
    }
    forall t | t in tips ensures ChainKey(rootLink, t) in chains {
      var i :| 0 <= i < |tips| && tips[i] == t;
      assert chains[i] == ChainKey(rootLink, t);
    }
  }

  /** The second constructor: explicitly given (root, tip) chains. */
  function CreateFromChains(model: Model, parents: map<string, string>, rootLink: string, chains: seq<ChainKey>,
                            weights: map<string, real>, thresholds: map<string, real>): (r: Result<Robot, Error>)
    ensures r.Success? ==> Valid(r.value)
    ensures r.Success? ==> r.value.fk.Keys == set c | c in chains
    ensures r.Success? ==> r.value.joints.Keys == MoveableJointsOf(model, parents, chains)
  {
    FreshIsValid(model, parents, rootLink, weights, thresholds);
    InitChains(Fresh(model, parents, rootLink, weights, thresholds), chains)
  }

  /** A robot built from chains has one joint variable per distinct
      moveable joint of all its chains. */
  lemma JointCountOfChains(model: Model, parents: map<string, string>, rootLink: string, chains: seq<ChainKey>,
                           weights: map<string, real>, thresholds: map<string, real>)
    requires CreateFromChains(model, parents, rootLink, chains, weights, thresholds).Success?
    ensures NumberOfJoints(CreateFromChains(model, parents, rootLink, chains, weights, thresholds).value)
      == |MoveableJointsOf(model, parents, chains)|
  {
    var robot := CreateFromChains(model, parents, rootLink, chains, weights, thresholds).value;
    assert |robot.controllables| == |robot.controllables.Keys| == |robot.joints.Keys|;
  }

  /** `get_fk_spec` */
  function GetFkSpec(robot: Robot, root: string, tip: string): (r: Result<Spec, Error>)
    ensures r.Success? <==> ChainKey(root, tip) in robot.fk
    ensures r.Success? ==> r.value == robot.fk[ChainKey(root, tip)]
    ensures r.Failure? ==> r.error == ChainNotFound(root, tip)
  {
    var key := ChainKey(root, tip);
    if key in robot.fk then Success(robot.fk[key]) else Failure(ChainNotFound(root, tip))
  }

  /** `get_number_of_joints`: one input variable per distinct moveable
      joint of the initialised chains. */
  function NumberOfJoints(robot: Robot): (r: nat)
    requires Valid(robot)
    ensures r == |robot.controllables|
    ensures forall n :: n in robot.joints ==> robot.joints[n] < r
  {
    assert robot.joints.Keys == robot.controllables.Keys;
    |robot.joints|
  }

  /** Orders joint names by the input numbers of their controllable
      constraints (0 for an unknown name). */
  function InputLess(cs: map<string, ControllableConstraint>): (string, string) -> bool
  {
    (a: string, b: string) =>
      (if a in cs then cs[a].inputNumber else 0) < (if b in cs then cs[b].inputNumber else 0)
  }

  /** The input numbers of the controllable constraints are exactly
      0 .. n-1 for n constraints. */
  ghost predicate Numbered(cs: map<string, ControllableConstraint>)
  {
    && (forall n :: n in cs ==> cs[n].inputNumber < |cs|)
    && (forall a, b :: a in cs && b in cs && a != b ==> cs[a].inputNumber != cs[b].inputNumber)
  }

  lemma ValidIsNumbered(robot: Robot)
    requires Valid(robot)
    ensures Numbered(robot.controllables)
  {
    assert |robot.joints| == |robot.controllables| by {
      assert robot.joints.Keys == robot.controllables.Keys;
      assert |robot.joints.Keys| == |robot.joints|;
      assert |robot.controllables.Keys| == |robot.controllables|;
    }
  }

  /** `get_controllable_constraints`: the constraints in the order of their
      input numbers, so that entry `i` constrains input variable `i`. */
  function GetControllableConstraints(robot: Robot): (r: seq<ControllableConstraint>)
    requires Valid(robot)
    ensures |r| == |robot.controllables|
    ensures forall n :: n in robot.controllables ==> robot.controllables[n] in r
    ensures forall i :: 0 <= i < |r| ==> exists n :: n in robot.controllables && r[i] == robot.controllables[n]
    ensures forall i :: 0 <= i < |r| ==> r[i].inputNumber == i
  {
    ValidIsNumbered(robot);
    SortByInput(robot.controllables)
  }

  function SortByInput(cs: map<string, ControllableConstraint>): (r: seq<ControllableConstraint>)
    requires Numbered(cs)
    ensures |r| == |cs|
    ensures forall n :: n in cs ==> cs[n] in r
    ensures forall i :: 0 <= i < |r| ==> exists n :: n in cs && r[i] == cs[n]
    ensures forall i :: 0 <= i < |r| ==> r[i].inputNumber == i
  {
    var ks := KeysByInput(cs);
    Order.ValuesAtCover(cs, ks);
    ValuesAtInputs(cs, ks);
    Order.ValuesAt(cs, ks)
  }

  lemma ValuesAtInputs(cs: map<string, ControllableConstraint>, ks: seq<string>)
    requires forall i :: 0 <= i < |ks| ==> ks[i] in cs
    requires forall i :: 0 <= i < |ks| ==> cs[ks[i]].inputNumber == i
    ensures forall i :: 0 <= i < |Order.ValuesAt(cs, ks)| ==> Order.ValuesAt(cs, ks)[i].inputNumber == i
  {
  }

  /** The joint names in the order of their input numbers: name `i` has
      input number `i`. */
  function KeysByInput(cs: map<string, ControllableConstraint>): (r: seq<string>)
    requires Numbered(cs)
    ensures |r| == |cs.Keys|
    ensures forall i :: 0 <= i < |r| ==> r[i] in cs
    ensures forall n :: n in cs ==> n in r
    ensures forall i :: 0 <= i < |r| ==> cs[r[i]].inputNumber == i
  {
    InputLessStrictTotal(cs);
    var ks := Order.SortedBy(cs.Keys, InputLess(cs));
    InputsAreIndices(cs, ks);
    ks
  }

  lemma InputsAreIndices(cs: map<string, ControllableConstraint>, ks: seq<string>)
    requires Numbered(cs)
    requires |ks| == |cs.Keys| && forall i :: 0 <= i < |ks| ==> ks[i] in cs
    requires forall i, j :: 0 <= i < j < |ks| ==> InputLess(cs)(ks[i], ks[j])
    ensures forall i :: 0 <= i < |ks| ==> cs[ks[i]].inputNumber == i
  {
    assert |cs.Keys| == |cs|;
    var inputs := seq(|ks|, i requires 0 <= i < |ks| => cs[ks[i]].inputNumber);
    forall i, j | 0 <= i < j < |inputs|
      ensures inputs[i] < inputs[j]
    {
      assert InputLess(cs)(ks[i], ks[j]);
    }
    forall i | 0 <= i < |inputs|
      ensures inputs[i] < |ks|
    {
      assert ks[i] in cs;
    }
    Order.AscendingBelowIsIdentity(inputs, |ks|);
    forall i | 0 <= i < |ks|
      ensures cs[ks[i]].inputNumber == i
    {
      assert inputs[i] == i;
    }
  }

  lemma InputLessStrictTotal(cs: map<string, ControllableConstraint>)
    requires Numbered(cs)
    ensures Order.StrictTotalOn(cs.Keys, InputLess(cs))
  {
    var less := InputLess(cs);
    forall a, b | a in cs.Keys && b in cs.Keys && a != b
      ensures less(a, b) || less(b, a)
    {
      assert cs[a].inputNumber != cs[b].inputNumber;
    }
  }

  /** `get_hard_constraints`: the constraints in the order of their joint
      names. */
  function GetHardConstraints(robot: Robot): (r: seq<HardConstraint>)
    ensures |r| == |robot.hards|
    ensures forall n :: n in robot.hards ==> robot.hards[n] in r
    ensures forall i :: 0 <= i < |r| ==> r[i] in robot.hards.Values
    ensures forall i :: 0 <= i < |r| ==> r[i] == robot.hards[Order.SortedStrings(robot.hards.Keys)[i]]
  {
    Order.ValuesInKeyOrder(robot.hards)
  }

  lemma ChainKeyLessStrictTotal(s: set<ChainKey>)
    ensures Order.StrictTotalOn(s, ChainKeyLess)
  {
    forall a | a in s
      ensures !ChainKeyLess(a, a)
    {
      Order.StrLessIrreflexive(a.root);
      Order.StrLessIrreflexive(a.tip);
    }
    forall a, b, c | a in s && b in s && c in s && ChainKeyLess(a, b) && ChainKeyLess(b, c)
      ensures ChainKeyLess(a, c)
    {
      if Order.StrLess(a.root, b.root) && Order.StrLess(b.root, c.root) {
        Order.StrLessTransitive(a.root, b.root, c.root);
      } else if a.root == b.root && b.root == c.root {
        Order.StrLessTransitive(a.tip, b.tip, c.tip);
      }
    }
    forall a, b | a in s && b in s && a != b
      ensures ChainKeyLess(a, b) || ChainKeyLess(b, a)
    {
      if a.root != b.root {
        Order.StrLessTotal(a.root, b.root);
      } else {
        Order.StrLessTotal(a.tip, b.tip);
      }
    }
  }

  /** `get_scope`: one entry per chain, named after the chain's tip link
      and holding its forward kinematics, in chain-key order: by root link,
      then by tip link. */
  function GetScope(robot: Robot): (r: seq<ScopeEntry>)
    ensures |r| == |robot.fk|
    ensures forall k :: k in robot.fk ==> ScopeEntry(k.tip, robot.fk[k]) in r
    ensures forall i :: 0 <= i < |r| ==> IsChainEntry(robot.fk, r[i])
    ensures forall i :: 0 <= i < |r| ==>
      var k := SortedChainKeys(robot.fk.Keys)[i]; r[i] == ScopeEntry(k.tip, robot.fk[k])
  {
    var ks := SortedChainKeys(robot.fk.Keys);
    assert |ks| == |robot.fk.Keys|;
    assert forall i :: 0 <= i < |ks| ==> ks[i] in robot.fk;
    assert forall k :: k in robot.fk ==> k in ks;
    ScopeOfCovers(robot.fk, ks);
    ScopeOf(robot.fk, ks)
  }

  /** The chains in the order of `std::map<ChainKey, ...>`: by root link,
      then by tip link. */
  function SortedChainKeys(s: set<ChainKey>): (r: seq<ChainKey>)
    ensures |r| == |s|
    ensures forall i :: 0 <= i < |r| ==> r[i] in s
    ensures forall k :: k in s ==> k in r
    ensures forall i, j :: 0 <= i < j < |r| ==> ChainKeyLess(r[i], r[j])
  {
    ChainKeyLessStrictTotal(s);
    Order.SortedBy(s, ChainKeyLess)
  }

  /** The scope entries of the chains `ks`, in that order. */
  function ScopeOf(fk: map<ChainKey, Spec>, ks: seq<ChainKey>): (r: seq<ScopeEntry>)
    requires forall i :: 0 <= i < |ks| ==> ks[i] in fk
    ensures |r| == |ks|
  {
    seq(|ks|, i requires 0 <= i < |ks| => ScopeEntry(ks[i].tip, fk[ks[i]]))
  }

  lemma ScopeOfCovers(fk: map<ChainKey, Spec>, ks: seq<ChainKey>)
    requires |ks| == |fk.Keys|
    requires forall i :: 0 <= i < |ks| ==> ks[i] in fk
    requires forall k :: k in fk ==> k in ks
    ensures |ScopeOf(fk, ks)| == |fk|
    ensures forall k :: k in fk ==> ScopeEntry(k.tip, fk[k]) in ScopeOf(fk, ks)
    ensures forall i :: 0 <= i < |ScopeOf(fk, ks)| ==> IsChainEntry(fk, ScopeOf(fk, ks)[i])
    ensures forall i :: 0 <= i < |ks| ==> ScopeOf(fk, ks)[i] == ScopeEntry(ks[i].tip, fk[ks[i]])
  {
    var r := ScopeOf(fk, ks);
    assert |fk.Keys| == |fk|;
    forall i | 0 <= i < |ks|
      ensures r[i] == ScopeEntry(ks[i].tip, fk[ks[i]])
    {
    }
    forall k | k in fk
      ensures ScopeEntry(k.tip, fk[k]) in r
    {
      var i :| 0 <= i < |ks| && ks[i] == k;
      assert r[i] == ScopeEntry(k.tip, fk[k]);
    }
    forall i | 0 <= i < |ks|
      ensures IsChainEntry(fk, r[i])
    {
      assert ks[i] in fk && r[i] == ScopeEntry(ks[i].tip, fk[ks[i]]);
    }
  }

  /** The parts of a successful `InitChain`, named. */
  lemma InitChainParts(robot: Robot, root: string, tip: string)
    returns (moveable: seq<string>, all: seq<string>, joints: map<string, nat>, spec: Spec)
    requires InitChain(robot, root, tip).Success?
    ensures Chains.ChainJointNames(robot.model, robot.parents, root, tip, false) == Success(moveable)
    ensures Chains.ChainJointNames(robot.model, robot.parents, root, tip, true) == Success(all)
    ensures joints == Registry.Register(robot.joints, moveable)
    ensures Kinematics.FkSpec(robot.model, joints, all) == Success(spec)
    ensures AddControllables(robot.model, joints, robot.weights, robot.thresholds, robot.controllables, moveable).Success?
    ensures AddHards(robot.model, joints, robot.hards, moveable).Success?
    ensures InitChain(robot, root, tip).value == robot.(
      fk := if ChainKey(root, tip) in robot.fk then robot.fk else robot.fk[ChainKey(root, tip) := spec],
      joints := joints,
      controllables := AddControllables(robot.model, joints, robot.weights, robot.thresholds,
                                        robot.controllables, moveable).value,
      hards := AddHards(robot.model, joints, robot.hards, moveable).value)
  {
    moveable := Chains.ChainJointNames(robot.model, robot.parents, root, tip, false).value;
    all := Chains.ChainJointNames(robot.model, robot.parents, root, tip, true).value;
    assert InitChain(robot, root, tip) == Extend(robot, ChainKey(root, tip), moveable, all);
    joints, spec := ExtendParts(robot, ChainKey(root, tip), moveable, all);
  }

  lemma ExtendParts(robot: Robot, key: ChainKey, moveable: seq<string>, all: seq<string>)
    returns (joints: map<string, nat>, spec: Spec)
    requires Extend(robot, key, moveable, all).Success?
    ensures joints == Registry.Register(robot.joints, moveable)
    ensures Kinematics.FkSpec(robot.model, joints, all) == Success(spec)
    ensures AddControllables(robot.model, joints, robot.weights, robot.thresholds, robot.controllables, moveable).Success?
    ensures AddHards(robot.model, joints, robot.hards, moveable).Success?
    ensures Extend(robot, key, moveable, all).value == robot.(
      fk := if key in robot.fk then robot.fk else robot.fk[key := spec],
      joints := joints,
      controllables := AddControllables(robot.model, joints, robot.weights, robot.thresholds,
                                        robot.controllables, moveable).value,
      hards := AddHards(robot.model, joints, robot.hards, moveable).value)
  {
    joints := Registry.Register(robot.joints, moveable);
    spec := ExtendSteps(robot, key, moveable, all);
    ExtendValue(robot, key, moveable, all, spec);
  }

  /** A successful `Extend` took every step successfully. */
  lemma ExtendSteps(robot: Robot, key: ChainKey, moveable: seq<string>, all: seq<string>) returns (spec: Spec)
    requires Extend(robot, key, moveable, all).Success?
    ensures Kinematics.FkSpec(robot.model, Registry.Register(robot.joints, moveable), all) == Success(spec)
    ensures AddControllables(robot.model, Registry.Register(robot.joints, moveable), robot.weights, robot.thresholds,
                             robot.controllables, moveable).Success?
    ensures AddHards(robot.model, Registry.Register(robot.joints, moveable), robot.hards, moveable).Success?
  {
    spec := Kinematics.FkSpec(robot.model, Registry.Register(robot.joints, moveable), all).value;
  }

  lemma ExtendValue(robot: Robot, key: ChainKey, moveable: seq<string>, all: seq<string>, spec: Spec)
    requires Kinematics.FkSpec(robot.model, Registry.Register(robot.joints, moveable), all) == Success(spec)
    requires AddControllables(robot.model, Registry.Register(robot.joints, moveable), robot.weights, robot.thresholds,
                              robot.controllables, moveable).Success?
    requires AddHards(robot.model, Registry.Register(robot.joints, moveable), robot.hards, moveable).Success?
    ensures Extend(robot, key, moveable, all) == Success(robot.(
      fk := if key in robot.fk then robot.fk else robot.fk[key := spec],
      joints := Registry.Register(robot.joints, moveable),
      controllables := AddControllables(robot.model, Registry.Register(robot.joints, moveable), robot.weights,
                                        robot.thresholds, robot.controllables, moveable).value,
      hards := AddHards(robot.model, Registry.Register(robot.joints, moveable), robot.hards, moveable).value))
  {
  }

  /** A successful initialisation records the chain's forward kinematics,
      keeps those recorded before, and keeps the numbers of registered
      joints. */
  lemma InitChainRecordsChain(robot: Robot, root: string, tip: string)
    ensures InitChain(robot, root, tip).Success? ==>
      var r := InitChain(robot, root, tip).value;
      && r.fk.Keys == robot.fk.Keys + {ChainKey(root, tip)}
      && (forall k :: k in robot.fk ==> r.fk[k] == robot.fk[k])
      && (forall n :: n in robot.joints ==> n in r.joints && r.joints[n] == robot.joints[n])
  {
    if InitChain(robot, root, tip).Success? {
      var moveable, all, joints, spec := InitChainParts(robot, root, tip);
    }
  }

  lemma FreshIsValid(model: Model, parents: map<string, string>, rootLink: string,
                     weights: map<string, real>, thresholds: map<string, real>)
    ensures Valid(Fresh(model, parents, rootLink, weights, thresholds))
  {
  }

  lemma InitChainKeepsValidIf(robot: Robot, root: string, tip: string)
    ensures Valid(robot) && InitChain(robot, root, tip).Success? ==> Valid(InitChain(robot, root, tip).value)
  {
    if Valid(robot) && InitChain(robot, root, tip).Success? {
      InitChainKeepsValid(robot, root, tip);
    }
  }

  /** Initialising a chain keeps every part of the robot invariant. */
  lemma InitChainKeepsValid(robot: Robot, root: string, tip: string)
    requires Valid(robot)
    requires InitChain(robot, root, tip).Success?
    ensures Valid(InitChain(robot, root, tip).value)
  {
    var r := InitChain(robot, root, tip).value;
    var moveable, all, joints, spec := InitChainParts(robot, root, tip);
    var hs := AddHards(robot.model, joints, robot.hards, moveable).value;
    var cs := AddControllables(robot.model, joints, robot.weights, robot.thresholds, robot.controllables, moveable).value;
    JointsStayValid(robot.model, robot.joints, robot.hards, moveable, hs);
    ControllablesStayValid(robot.model, robot.weights, robot.thresholds, robot.joints, robot.controllables, moveable, cs);
    HardsStayValid(robot.model, robot.joints, robot.hards, moveable, hs);
    FkStaysValid(robot.fk, robot.joints, joints, r.fk);
    forall k | k in r.fk && k !in robot.fk
      ensures Wellformed(r.fk[k]) && InputsBelow(r.fk[k], |joints|)
    {
      Kinematics.FkSpecWellformed(robot.model, joints, all);
    }
  }

  lemma JointsStayValid(model: Model, joints: map<string, nat>, hs: map<string, HardConstraint>,
                        moveable: seq<string>, hs': map<string, HardConstraint>)
    requires JointsValid(model, joints) && HardsValid(model, joints, hs)
    requires AddHards(model, Registry.Register(joints, moveable), hs, moveable) == Success(hs')
    ensures JointsValid(model, Registry.Register(joints, moveable))
  {
    Registry.RegisterKeepsDense(joints, moveable);
    forall n | n in Registry.Register(joints, moveable)
      ensures Known(model, n)
    {
      if n !in joints {
        assert n in moveable && n !in hs;
      }
    }
  }

  lemma ControllablesStayValid(model: Model, weights: map<string, real>, thresholds: map<string, real>,
                               joints: map<string, nat>, cs: map<string, ControllableConstraint>,
                               moveable: seq<string>, cs': map<string, ControllableConstraint>)
    requires ControllablesValid(model, weights, thresholds, joints, cs)
    requires AddControllables(model, Registry.Register(joints, moveable), weights, thresholds, cs, moveable) == Success(cs')
    ensures ControllablesValid(model, weights, thresholds, Registry.Register(joints, moveable), cs')
  {
    var joints' := Registry.Register(joints, moveable);
    assert cs'.Keys == joints'.Keys;
    forall n | n in cs'
      ensures Known(model, n) && cs'[n].name == n && cs'[n].inputNumber == joints'[n]
      ensures Controllable(n, model.joints[n].value.limits.velocity, joints'[n], weights, thresholds) == Success(cs'[n])
    {
      if n !in cs {
        assert ControllableStep(model, joints', weights, thresholds, n) == Success(cs'[n]);
      }
    }
  }

  lemma HardsStayValid(model: Model, joints: map<string, nat>, hs: map<string, HardConstraint>,
                       moveable: seq<string>, hs': map<string, HardConstraint>)
    requires HardsValid(model, joints, hs)
    requires AddHards(model, Registry.Register(joints, moveable), hs, moveable) == Success(hs')
    ensures HardsValid(model, Registry.Register(joints, moveable), hs')
  {
    var joints' := Registry.Register(joints, moveable);
    forall n | n in joints' && Known(model, n)
      ensures n in hs' <==> PositionLimited(model.joints[n].value)
    {
      if n !in joints {
        assert n in moveable && n !in hs;
      }
    }
  }

  /** Old chains stay within the (grown) registry; the new chain is checked
      by the caller. */
  lemma FkStaysValid(fk: map<ChainKey, Spec>, joints: map<string, nat>, joints': map<string, nat>,
                     fk': map<ChainKey, Spec>)
    requires FkValid(fk, joints)
    requires joints.Keys <= joints'.Keys
    requires forall k :: k in fk ==> k in fk' && fk'[k] == fk[k]
    ensures forall k :: k in fk ==> Wellformed(fk'[k]) && InputsBelow(fk'[k], |joints'|)
  {
    Cardinality(joints.Keys, joints'.Keys);
    forall k | k in fk
      ensures InputsBelow(fk'[k], |joints'|)
    {
      InputsBelowMono(fk[k], |joints|, |joints'|);
    }
  }

  lemma {:induction false} AddControllablesKnown(model: Model, joints: map<string, nat>, weights: map<string, real>,
                               thresholds: map<string, real>, cmap: map<string, ControllableConstraint>,
                               names: seq<string>)
    requires forall i :: 0 <= i < |names| ==> names[i] in cmap
    ensures AddControllables(model, joints, weights, thresholds, cmap, names) == Success(cmap)
    decreases |names|
  {
    if |names| > 0 {
      AddControllablesKnown(model, joints, weights, thresholds, cmap, names[1..]);
    }
  }

  lemma {:induction false} AddHardsStable(model: Model, joints: map<string, nat>, hmap: map<string, HardConstraint>,
                                          names: seq<string>)
    requires forall i :: 0 <= i < |names| ==>
      names[i] in hmap || (Known(model, names[i]) && !PositionLimited(model.joints[names[i]].value))
    ensures AddHards(model, joints, hmap, names) == Success(hmap)
    decreases |names|
  {
    if |names| > 0 {
      assert HardStep(model, joints, hmap, names[0]) == Success(hmap);
      AddHardsStable(model, joints, hmap, names[1..]);
    }
  }

  /** Initialising the same chain a second time changes nothing. */
  lemma InitChainIdempotent(robot: Robot, root: string, tip: string)
    requires InitChain(robot, root, tip).Success?
    ensures InitChain(InitChain(robot, root, tip).value, root, tip) == InitChain(robot, root, tip)
  {
    var r := InitChain(robot, root, tip).value;
    var moveable, all, joints, spec := InitChainParts(robot, root, tip);
    ExtendIdempotent(robot, ChainKey(root, tip), moveable, all);
    assert InitChain(r, root, tip) == Extend(r, ChainKey(root, tip), moveable, all);
  }

  lemma ExtendIdempotent(robot: Robot, key: ChainKey, moveable: seq<string>, all: seq<string>)
    requires Extend(robot, key, moveable, all).Success?
    ensures Extend(Extend(robot, key, moveable, all).value, key, moveable, all) == Extend(robot, key, moveable, all)
  {
    var r := Extend(robot, key, moveable, all).value;
    var joints, spec := ExtendParts(robot, key, moveable, all);
    Registry.RegisterTwice(robot.joints, moveable);
    AddControllablesTwice(robot.model, joints, robot.weights, robot.thresholds, robot.controllables, moveable, r.controllables);
    AddHardsTwice(robot.model, joints, robot.hards, moveable, r.hards);
    ExtendUnchanged(r, key, moveable, all);
  }

  /** Adding the controllable constraints of the same joints again changes
      nothing. */
  lemma AddControllablesTwice(model: Model, joints: map<string, nat>, weights: map<string, real>,
                              thresholds: map<string, real>, cmap: map<string, ControllableConstraint>,
                              names: seq<string>, cmap': map<string, ControllableConstraint>)
    requires AddControllables(model, joints, weights, thresholds, cmap, names) == Success(cmap')
    ensures AddControllables(model, joints, weights, thresholds, cmap', names) == Success(cmap')
  {
    forall i | 0 <= i < |names|
      ensures names[i] in cmap'
    {
      assert names[i] in names;
    }
    AddControllablesKnown(model, joints, weights, thresholds, cmap', names);
  }

  /** Adding the hard constraints of the same joints again changes
      nothing. */
  lemma AddHardsTwice(model: Model, joints: map<string, nat>, hmap: map<string, HardConstraint>,
                      names: seq<string>, hmap': map<string, HardConstraint>)
    requires AddHards(model, joints, hmap, names) == Success(hmap')
    ensures AddHards(model, joints, hmap', names) == Success(hmap')
  {
    forall i | 0 <= i < |names|
      ensures names[i] in hmap' || (Known(model, names[i]) && !PositionLimited(model.joints[names[i]].value))
    {
      assert names[i] in names;
    }
    AddHardsStable(model, joints, hmap', names);
  }

  /** A chain whose joints, forward kinematics and constraints are all
      present already leaves the robot as it is. */
  lemma ExtendUnchanged(r: Robot, key: ChainKey, moveable: seq<string>, all: seq<string>)
    requires key in r.fk
    requires Registry.Register(r.joints, moveable) == r.joints
    requires Kinematics.FkSpec(r.model, r.joints, all).Success?
    requires AddControllables(r.model, r.joints, r.weights, r.thresholds, r.controllables, moveable)
      == Success(r.controllables)
    requires AddHards(r.model, r.joints, r.hards, moveable) == Success(r.hards)
    ensures Extend(r, key, moveable, all) == Success(r)
  {
    assert r.(fk := r.fk, joints := r.joints, controllables := r.controllables, hards := r.hards) == r;
  }

  /** Without any configured weight (not even a default one) no joint can
      be registered: only chains without moveable joints can be added. */
  lemma NoWeightsNoJoints(robot: Robot, root: string, tip: string)
    requires Valid(robot)
    requires robot.weights == map[]
    requires InitChain(robot, root, tip).Success?
    ensures Chains.ChainJointNames(robot.model, robot.parents, root, tip, false) == Success([])
    ensures InitChain(robot, root, tip).value.joints == map[]
  {
    var moveable, all, joints, spec := InitChainParts(robot, root, tip);
  }

  lemma InitChainJoints(robot: Robot, root: string, tip: string) returns (moveable: seq<string>)
    requires InitChain(robot, root, tip).Success?
    ensures Chains.ChainJointNames(robot.model, robot.parents, root, tip, false) == Success(moveable)
    ensures InitChain(robot, root, tip).value.joints == Registry.Register(robot.joints, moveable)
  {
    var all, joints, spec;
    moveable, all, joints, spec := InitChainParts(robot, root, tip);
  }

  /** A successful initialisation registers exactly the moveable joints of
      the chain that were new, so the number of joints grows by their
      number. */
  lemma InitChainCountsJoints(robot: Robot, root: string, tip: string)
    requires InitChain(robot, root, tip).Success?
    ensures Chains.ChainJointNames(robot.model, robot.parents, root, tip, false).Success?
    ensures var moveable := Chains.ChainJointNames(robot.model, robot.parents, root, tip, false).value;
      && InitChain(robot, root, tip).value.joints.Keys == robot.joints.Keys + set n | n in moveable
      && |InitChain(robot, root, tip).value.joints| == |robot.joints.Keys + set n | n in moveable|
  {
    var moveable := InitChainJoints(robot, root, tip);
    Registry.RegisterCount(robot.joints, moveable);
  }

  /** Every hard constraint bounds the input variable of a registered,
      position-limited joint, and vice versa. */
  lemma HardConstraintsOfLimitedJoints(robot: Robot)
    requires Valid(robot)
    ensures forall h :: h in GetHardConstraints(robot) ==>
      exists n :: (n in robot.joints && PositionLimited(robot.model.joints[n].value)
        && h == Hard(robot.model.joints[n].value, robot.joints[n]).value)
    ensures forall n :: n in robot.joints && PositionLimited(robot.model.joints[n].value) ==>
      Hard(robot.model.joints[n].value, robot.joints[n]).value in GetHardConstraints(robot)
  {
    forall h | h in GetHardConstraints(robot)
      ensures exists n :: (n in robot.joints && PositionLimited(robot.model.joints[n].value)
        && h == Hard(robot.model.joints[n].value, robot.joints[n]).value)
    {
      HardOfLimitedJoint(robot, h);
    }
    forall n | n in robot.joints && PositionLimited(robot.model.joints[n].value)
      ensures Hard(robot.model.joints[n].value, robot.joints[n]).value in GetHardConstraints(robot)
    {
      LimitedJointHasHard(robot, n);
    }
  }

  lemma HardOfLimitedJoint(robot: Robot, h: HardConstraint)
    requires Valid(robot)
    requires h in GetHardConstraints(robot)
    ensures exists n :: (n in robot.joints && PositionLimited(robot.model.joints[n].value)
      && h == Hard(robot.model.joints[n].value, robot.joints[n]).value)
  {
    var hs := GetHardConstraints(robot);
    var i :| 0 <= i < |hs| && hs[i] == h;
    var n :| n in robot.hards && h == robot.hards[n];
    assert n in robot.joints;
  }

  lemma LimitedJointHasHard(robot: Robot, n: string)
    requires Valid(robot)
    requires n in robot.joints && PositionLimited(robot.model.joints[n].value)
    ensures Hard(robot.model.joints[n].value, robot.joints[n]).value in GetHardConstraints(robot)
  {
    assert n in robot.hards;
  }

  lemma Cardinality<T>(a: set<T>, b: set<T>)
    requires a <= b
    ensures |a| <= |b|
  {
    assert b == a + (b - a);
  }
}

=== FILE: scope.dfy ===
/** The scope: four independent name-to-expression tables, one per
    expression type, each written once per name and read by name. The
    expressions themselves are opaque (`E`). */
module Scopes {
  import opened Results
  import opened Order

  datatype ExprType = DoubleType | VectorType | RotationType | FrameType

  datatype ScopeError =
    | NameTaken(etype: ExprType, name: string)   // add_* on a name already present
    | NotFound(name: string)                     // find_* on a missing name

  datatype Scope<E> = Scope(
    doubles: map<string, E>,
    vectors: map<string, E>,
    rotations: map<string, E>,
    frames: map<string, E>)
  {
    /** The table of one expression type. */
    function Table(t: ExprType): map<string, E>
    {
      match t
      case DoubleType => doubles
      case VectorType => vectors
      case RotationType => rotations
      case FrameType => frames
    }

    /** `has_double_expression`, `has_vector_expression`, ... */
    predicate Has(t: ExprType, name: string)
    {
      name in Table(t)
    }

    /** `find_double_expression`, `find_vector_expression`, ... */
    function Find(t: ExprType, name: string): (r: Result<E, ScopeError>)
      ensures r.Failure? <==> !Has(t, name)
      ensures r.Failure? ==> r.error == NotFound(name)
      ensures r.Success? ==> r.value == Table(t)[name]
    {
      if !Has(t, name) then Failure(NotFound(name)) else Success(Table(t)[name])
    }

    /** `add_double_expression`, `add_vector_expression`, ... */
    function Add(t: ExprType, name: string, e: E): (r: Result<Scope<E>, ScopeError>)
      ensures r.Failure? <==> Has(t, name)
      ensures r.Failure? ==> r.error == NameTaken(t, name)
      ensures r.Success? ==> r.value.Has(t, name) && r.value.Find(t, name) == Success(e)
      ensures r.Success? ==> r.value.Table(t).Keys == Table(t).Keys + {name}
      ensures r.Success? ==> forall n :: n in Table(t) ==> r.value.Table(t)[n] == Table(t)[n]
      ensures r.Success? ==> forall u :: u != t ==> r.value.Table(u) == Table(u)
    {
      if Has(t, name) then Failure(NameTaken(t, name))
      else
        match t
        case DoubleType => Success(this.(doubles := doubles[name := e]))
        case VectorType => Success(this.(vectors := vectors[name := e]))
        case RotationType => Success(this.(rotations := rotations[name := e]))
        case FrameType => Success(this.(frames := frames[name := e]))
    }

    /** `has_expression`: the name is taken in at least one table. */
    predicate HasExpression(name: string)
      ensures HasExpression(name) <==> exists t :: Has(t, name)
    {
      Has(DoubleType, name) || Has(VectorType, name) || Has(RotationType, name) || Has(FrameType, name)
    }

    /** `find_expression`: the first table holding the name, in the order
        double, vector, rotation, frame. */
    function FindExpression(name: string): (r: Result<(ExprType, E), ScopeError>)
      ensures r.Failure? <==> !HasExpression(name)
      ensures r.Success? ==> Has(r.value.0, name) && r.value.1 == Table(r.value.0)[name]
      ensures r.Success? ==> forall u :: Precedes(u, r.value.0) ==> !Has(u, name)
    {
      if !HasExpression(name) then Failure(NotFound(name))
      else if Has(DoubleType, name) then Success((DoubleType, doubles[name]))
      else if Has(VectorType, name) then Success((VectorType, vectors[name]))
      else if Has(RotationType, name) then Success((RotationType, rotations[name]))
      else Success((FrameType, frames[name]))
    }

    /** `get_double_names`, `get_vector_names`, ...: the keys of one table in
        ascending order. */
    function Names(t: ExprType): (r: seq<string>)
      ensures |r| == |Table(t)|
      ensures forall n :: n in r <==> Has(t, n)
      ensures forall i, j :: 0 <= i < j < |r| ==> StrLess(r[i], r[j])
    {
      SortedStrings(Table(t).Keys)
    }
  }

  /** The lookup priority of `find_expression`. */
  function Rank(t: ExprType): nat
  {
    match t
    case DoubleType => 0
    case VectorType => 1
    case RotationType => 2
    case FrameType => 3
  }

  predicate Precedes(u: ExprType, t: ExprType)
  {
    Rank(u) < Rank(t)
  }

  function EmptyScope<E>(): (s: Scope<E>)
    ensures forall t, n :: !s.Has(t, n)
  {
    Scope(map[], map[], map[], map[])
  }

  /** A membership test answers yes exactly for the names added to its own
      table: adding `n` to table `u` changes no other answer. */
  lemma HasAfterAdd<E>(s: Scope<E>, u: ExprType, n: string, e: E, t: ExprType, name: string)
    requires s.Add(u, n, e).Success?
    ensures s.Add(u, n, e).value.Has(t, name) <==> s.Has(t, name) || (t == u && name == n)
  {
    if t != u {
      assert s.Add(u, n, e).value.Table(t) == s.Table(t);
    } else {
      assert s.Add(u, n, e).value.Table(t).Keys == s.Table(t).Keys + {n};
    }
  }

  /** Adding a name twice to one table fails the second time, leaving the
      first expression in place. */
  lemma AddTwiceFails<E>(s: Scope<E>, t: ExprType, name: string, e1: E, e2: E)
    requires s.Add(t, name, e1).Success?
    ensures s.Add(t, name, e1).value.Add(t, name, e2) == Failure(NameTaken(t, name))
    ensures s.Add(t, name, e1).value.Find(t, name) == Success(e1)
  {
  }

  /** A name taken in one table can still be added to another one. */
  lemma TablesAreIndependent<E>(s: Scope<E>, t: ExprType, u: ExprType, name: string, e1: E, e2: E)
    requires t != u
    requires s.Add(t, name, e1).Success?
    ensures s.Add(t, name, e1).value.Add(u, name, e2).Success? <==> s.Add(u, name, e2).Success?
    ensures s.Add(t, name, e1).value.Add(u, name, e2).Success? ==>
      s.Add(t, name, e1).value.Add(u, name, e2).value.Find(t, name) == Success(e1)
  {
  }

  /** Adds to two different tables commute. */
  lemma AddsCommute<E>(s: Scope<E>, t: ExprType, u: ExprType, m: string, n: string, e1: E, e2: E)
    requires t != u
    requires s.Add(t, m, e1).Success? && s.Add(u, n, e2).Success?
    ensures s.Add(t, m, e1).value.Add(u, n, e2).Success?
    ensures s.Add(u, n, e2).value.Add(t, m, e1).Success?
    ensures s.Add(t, m, e1).value.Add(u, n, e2).value == s.Add(u, n, e2).value.Add(t, m, e1).value
  {
    var a := s.Add(t, m, e1).value.Add(u, n, e2).value;
    var b := s.Add(u, n, e2).value.Add(t, m, e1).value;
    assert forall v :: a.Table(v) == b.Table(v);
  }
}

=== FILE: spec_eval.dfy ===
/** Numeric meaning of the arithmetic fragment of double specifications
    (constants, inputs, n-ary addition, subtraction, multiplication and
    division), over exact reals. Input `i` reads position `i` of the input
    vector `env`. */
module SpecEval {
  import opened Results
  import opened Specs

  datatype EvalError =
    | NullSpec                    // an empty pointer is dereferenced
    | NotArithmetic               // a kind outside the arithmetic fragment
    | InputOutOfRange(inputNum: nat)
    | ZeroInputs                  // the source's std::length_error
    | DivisionByZero

  /** Specifications built only from arithmetic double kinds. */
  predicate Arithmetic(s: Spec)
  {
    match s
    case DoubleConst(_) => true
    case DoubleInput(_) => true
    case DoubleAdd(xs) => forall i :: 0 <= i < |xs| ==> Arithmetic(xs[i])
    case DoubleSub(xs) => forall i :: 0 <= i < |xs| ==> Arithmetic(xs[i])
    case DoubleMul(xs) => forall i :: 0 <= i < |xs| ==> Arithmetic(xs[i])
    case DoubleDiv(xs) => forall i :: 0 <= i < |xs| ==> Arithmetic(xs[i])
    case _ => false
  }

  /** Reference definitions of a finite sum and product. */
  function Sum(vs: seq<real>): real
  {
    if |vs| == 0 then 0.0 else vs[0] + Sum(vs[1..])
  }

  function Product(vs: seq<real>): real
  {
    if |vs| == 0 then 1.0 else vs[0] * Product(vs[1..])
  }

  /** The accumulating loops of the source: `result = result + input[i]`
      and `result = result * input[i]`, from left to right. */
  function AddFrom(acc: real, vs: seq<real>): real
    decreases |vs|
  {
    if |vs| == 0 then acc else AddFrom(acc + vs[0], vs[1..])
  }

  function MulFrom(acc: real, vs: seq<real>): real
    decreases |vs|
  {
    if |vs| == 0 then acc else MulFrom(acc * vs[0], vs[1..])
  }

  /** The subtraction of the source: a single input is negated, otherwise
      the remaining inputs are added up and subtracted from the first. */
  function Difference(vs: seq<real>): real
    requires |vs| >= 1
  {
    if |vs| == 1 then -vs[0] else vs[0] - AddFrom(vs[1], vs[2..])
  }

  /** The division of the source: a single input is inverted, otherwise the
      first is divided by the product of the remaining ones. */
  function Quotient(vs: seq<real>): Result<real, EvalError>
    requires |vs| >= 1
  {
    if |vs| == 1 then
      if vs[0] == 0.0 then Failure(DivisionByZero) else Success(1.0 / vs[0])
    else
      var divisor := MulFrom(vs[1], vs[2..]);
      if divisor == 0.0 then Failure(DivisionByZero) else Success(vs[0] / divisor)
  }

  function Eval(s: Spec, env: seq<real>): (r: Result<real, EvalError>)
    ensures r.Success? ==> Arithmetic(s) && InputsBelow(s, |env|)
    decreases s
  {
    match s
    case DoubleConst(v) => Success(v)
    case DoubleInput(n) =>
      if n < |env| then Success(env[n]) else Failure(InputOutOfRange(n))
    case DoubleAdd(xs) =>
      var vs :- EvalAll(xs, env);
      Success(AddFrom(0.0, vs))
    case DoubleSub(xs) =>
      if |xs| == 0 then Failure(ZeroInputs)
      else
        var vs :- EvalAll(xs, env);
        Success(Difference(vs))
    case DoubleMul(xs) =>
      var vs :- EvalAll(xs, env);
      Success(MulFrom(1.0, vs))
    case DoubleDiv(xs) =>
      if |xs| == 0 then Failure(ZeroInputs)
      else
        var vs :- EvalAll(xs, env);
        Quotient(vs)
    case Empty => Failure(NullSpec)
    case _ => Failure(NotArithmetic)
  }

  /** Evaluates the inputs of an n-ary specification from first to last; the
      first failure is the result. */
  function EvalAll(xs: seq<Spec>, env: seq<real>): (r: Result<seq<real>, EvalError>)
    ensures r.Success? ==> |r.value| == |xs|
    ensures r.Success? ==> forall i :: 0 <= i < |xs| ==>
      Eval(xs[i], env) == Success(r.value[i]) && Arithmetic(xs[i]) && InputsBelow(xs[i], |env|)
    decreases xs
  {
    if |xs| == 0 then Success([])
    else
      var v :- Eval(xs[0], env);
      var vs :- EvalAll(xs[1..], env);
      Success([v] + vs)
  }

  lemma {:induction false} AddFromIsSum(acc: real, vs: seq<real>)
    ensures AddFrom(acc, vs) == acc + Sum(vs)
    decreases |vs|
  {
    if |vs| > 0 {
      AddFromIsSum(acc + vs[0], vs[1..]);
    }
  }

  lemma {:induction false} MulFromIsProduct(acc: real, vs: seq<real>)
    ensures MulFrom(acc, vs) == acc * Product(vs)
    decreases |vs|
  {
    if |vs| > 0 {
      MulFromIsProduct(acc * vs[0], vs[1..]);
    }
  }

  /** Addition is 0 plus the sum of its inputs; no inputs give 0. */
  lemma EvalAddition(xs: seq<Spec>, env: seq<real>, vs: seq<real>)
    requires EvalAll(xs, env) == Success(vs)
    ensures Eval(DoubleAdd(xs), env) == Success(Sum(vs))
    ensures |xs| == 0 ==> Eval(DoubleAdd(xs), env) == Success(0.0)
  {
    AddFromIsSum(0.0, vs);
  }

  /** Multiplication is 1 times the product of its inputs; no inputs give 1. */
  lemma EvalMultiplication(xs: seq<Spec>, env: seq<real>, vs: seq<real>)
    requires EvalAll(xs, env) == Success(vs)
    ensures Eval(DoubleMul(xs), env) == Success(Product(vs))
    ensures |xs| == 0 ==> Eval(DoubleMul(xs), env) == Success(1.0)
  {
    MulFromIsProduct(1.0, vs);
  }

  /** Subtraction fails without inputs, negates a single input, and
      otherwise subtracts the sum of the remaining inputs from the first. */
  lemma EvalSubtraction(xs: seq<Spec>, env: seq<real>, vs: seq<real>)
    requires EvalAll(xs, env) == Success(vs)
    ensures |xs| == 0 ==> Eval(DoubleSub(xs), env) == Failure(ZeroInputs)
    ensures |xs| == 1 ==> Eval(DoubleSub(xs), env) == Success(-vs[0])
    ensures |xs| >= 2 ==> Eval(DoubleSub(xs), env) == Success(vs[0] - Sum(vs[1..]))
  {
    if |xs| >= 2 {
      AddFromIsSum(vs[1], vs[2..]);
      assert vs[1..] == [vs[1]] + vs[2..];
      assert vs[1..][1..] == vs[2..];
    }
  }

  /** Division fails without inputs, inverts a single input, and otherwise
      divides the first input by the product of the others. */
  lemma EvalDivision(xs: seq<Spec>, env: seq<real>, vs: seq<real>)
    requires EvalAll(xs, env) == Success(vs)
    ensures |xs| == 0 ==> Eval(DoubleDiv(xs), env) == Failure(ZeroInputs)
    ensures |xs| == 1 && vs[0] != 0.0 ==> Eval(DoubleDiv(xs), env) == Success(1.0 / vs[0])
    ensures |xs| >= 2 && Product(vs[1..]) != 0.0 ==>
      Eval(DoubleDiv(xs), env) == Success(vs[0] / Product(vs[1..]))
    ensures |xs| >= 2 && Product(vs[1..]) == 0.0 ==>
      Eval(DoubleDiv(xs), env) == Failure(DivisionByZero)
  {
    if |xs| >= 1 {
      assert Eval(DoubleDiv(xs), env) == Quotient(vs);
    }
    if |xs| >= 2 {
      assert MulFrom(vs[1], vs[2..]) == Product(vs[1..]) by {
        MulFromIsProduct(vs[1], vs[2..]);
        assert vs[1..][1..] == vs[2..];
      }
    }
  }

  /** A failing input makes every n-ary arithmetic specification fail. */
  lemma EvalFailurePropagates(xs: seq<Spec>, env: seq<real>)
    requires EvalAll(xs, env).Failure?
    ensures Eval(DoubleAdd(xs), env).Failure?
    ensures Eval(DoubleSub(xs), env).Failure?
    ensures Eval(DoubleMul(xs), env).Failure?
    ensures Eval(DoubleDiv(xs), env).Failure?
  {
  }
}

=== FILE: specs.dfy ===
/** The symbolic expression specifications the robot compiler and the
    controller generator build, restricted to the kinds they use, with the
    structural `equals` relation of each kind. A `Spec` stands for a
    (possibly empty) shared pointer to a specification object. */
module Specs {

  /** `KDL::epsilon`, the tolerance of constant comparisons (KDL's default). */
  const Epsilon: real := 0.000001

  datatype Spec =
    | Empty                                        // an empty shared pointer
    | DoubleConst(value: real)
    | DoubleInput(inputNum: nat)
    | DoubleReference(name: string)
    | DoubleAdd(inputs: seq<Spec>)
    | DoubleSub(inputs: seq<Spec>)
    | DoubleMul(inputs: seq<Spec>)
    | DoubleDiv(inputs: seq<Spec>)
    | VectorConstructor(x: Spec, y: Spec, z: Spec)
    | VectorReference(name: string)
    | VectorDoubleMul(vector: Spec, scalar: Spec)
    | Quaternion(qx: real, qy: real, qz: real, qw: real)
    | AxisAngle(axis: Spec, angle: Spec)
    | RotationReference(name: string)
    | RotationMul(inputs: seq<Spec>)
    | FrameConstructor(translation: Spec, rotation: Spec)
    | FrameMul(inputs: seq<Spec>)
    | FrameCached(frame: Spec)
    | FrameReference(name: string)

  /** The concrete class of a specification object, which is what the
      `dynamic_cast` at the start of every `equals` tests. */
  datatype SpecKind =
    | NullKind | DoubleConstKind | DoubleInputKind | DoubleReferenceKind
    | DoubleAddKind | DoubleSubKind | DoubleMulKind | DoubleDivKind
    | VectorConstructorKind | VectorReferenceKind | VectorDoubleMulKind
    | QuaternionKind | AxisAngleKind | RotationReferenceKind | RotationMulKind
    | FrameConstructorKind | FrameMulKind | FrameCachedKind | FrameReferenceKind

  function KindOf(s: Spec): SpecKind
  {
    match s
    case Empty => NullKind
    case DoubleConst(_) => DoubleConstKind
    case DoubleInput(_) => DoubleInputKind
    case DoubleReference(_) => DoubleReferenceKind
    case DoubleAdd(_) => DoubleAddKind
    case DoubleSub(_) => DoubleSubKind
    case DoubleMul(_) => DoubleMulKind
    case DoubleDiv(_) => DoubleDivKind
    case VectorConstructor(_, _, _) => VectorConstructorKind
    case VectorReference(_) => VectorReferenceKind
    case VectorDoubleMul(_, _) => VectorDoubleMulKind
    case Quaternion(_, _, _, _) => QuaternionKind
    case AxisAngle(_, _) => AxisAngleKind
    case RotationReference(_) => RotationReferenceKind
    case RotationMul(_) => RotationMulKind
    case FrameConstructor(_, _) => FrameConstructorKind
    case FrameMul(_) => FrameMulKind
    case FrameCached(_) => FrameCachedKind
    case FrameReference(_) => FrameReferenceKind
  }

  predicate IsNary(s: Spec)
  {
    s.DoubleAdd? || s.DoubleSub? || s.DoubleMul? || s.DoubleDiv? || s.RotationMul? || s.FrameMul?
  }

  /** The sub-specifications of `s`, in order. */
  function Children(s: Spec): (r: seq<Spec>)
    ensures forall i :: 0 <= i < |r| ==> r[i] < s
  {
    match s
    case DoubleAdd(xs) => xs
    case DoubleSub(xs) => xs
    case DoubleMul(xs) => xs
    case DoubleDiv(xs) => xs
    case RotationMul(xs) => xs
    case FrameMul(xs) => xs
    case VectorConstructor(x, y, z) => [x, y, z]
    case VectorDoubleMul(v, d) => [v, d]
    case AxisAngle(axis, angle) => [axis, angle]
    case FrameConstructor(t, r) => [t, r]
    case FrameCached(f) => [f]
    case _ => []
  }

  /** No empty pointer anywhere in the tree. */
  predicate Wellformed(s: Spec)
    decreases s
  {
    && !s.Empty?
    && forall i :: 0 <= i < |Children(s)| ==> Wellformed(Children(s)[i])
  }

  /** Every input number anywhere in `s` is below `n`. */
  predicate InputsBelow(s: Spec, n: nat)
    decreases s
  {
    && (s.DoubleInput? ==> s.inputNum < n)
    && forall i :: 0 <= i < |Children(s)| ==> InputsBelow(Children(s)[i], n)
  }

  /** A bound on input numbers stays a bound when it grows. */
  lemma {:induction false} InputsBelowMono(s: Spec, n: nat, m: nat)
    requires InputsBelow(s, n) && n <= m
    ensures InputsBelow(s, m)
    decreases s
  {
    forall i | 0 <= i < |Children(s)|
      ensures InputsBelow(Children(s)[i], m)
    {
      InputsBelowMono(Children(s)[i], n, m);
    }
  }

  function Abs(x: real): real
  {
    if x < 0.0 then -x else x
  }

  predicate NonEmpty(xs: seq<Spec>)
  {
    forall i :: 0 <= i < |xs| ==> !xs[i].Empty?
  }

  /** `a.equals(b)`: `a` plays `this` and `b` plays `other`. An empty `a`
      cannot happen behind a reference; it is `false`. An empty `b` fails
      the class test, so it compares unequal to everything. */
  function Equals(a: Spec, b: Spec): (r: bool)
    ensures r ==> KindOf(a) == KindOf(b)
    ensures r ==> Wellformed(a) && Wellformed(b)
    decreases a
  {
    match a
    case Empty => false
    case DoubleConst(v) => b.DoubleConst? && Epsilon > Abs(b.value - v)
    case DoubleInput(n) => b.DoubleInput? && b.inputNum == n
    case DoubleReference(n) => b.DoubleReference? && b.name == n
    case VectorReference(n) => b.VectorReference? && b.name == n
    case RotationReference(n) => b.RotationReference? && b.name == n
    case FrameReference(n) => b.FrameReference? && b.name == n
    case DoubleAdd(xs) => b.DoubleAdd? && PointwiseEquals(xs, b.inputs)
    case DoubleSub(xs) => b.DoubleSub? && PointwiseEquals(xs, b.inputs)
    case DoubleMul(xs) => b.DoubleMul? && PointwiseEquals(xs, b.inputs)
    case DoubleDiv(xs) => b.DoubleDiv? && PointwiseEquals(xs, b.inputs)
    case RotationMul(xs) => b.RotationMul? && PointwiseEquals(xs, b.inputs)
    case FrameMul(xs) => b.FrameMul? && PointwiseEquals(xs, b.inputs)
    case VectorConstructor(x, y, z) =>
      && b.VectorConstructor?
      && !x.Empty? && !y.Empty? && !z.Empty?
      && !b.x.Empty? && !b.y.Empty? && !b.z.Empty?
      && Equals(x, b.x) && Equals(y, b.y) && Equals(z, b.z)
    case VectorDoubleMul(v, d) =>
      // the source only tests its own members for emptiness
      && b.VectorDoubleMul?
      && !d.Empty? && !v.Empty?
      && Equals(d, b.scalar) && Equals(v, b.vector)
    case Quaternion(x, y, z, w) =>
      && b.Quaternion?
      && Epsilon > Abs(b.qx - x) && Epsilon > Abs(b.qy - y)
      && Epsilon > Abs(b.qz - z) && Epsilon > Abs(b.qw - w)
    case AxisAngle(axis, angle) =>
      && b.AxisAngle?
      && !axis.Empty? && !angle.Empty? && !b.axis.Empty? && !b.angle.Empty?
      && Equals(angle, b.angle) && Equals(axis, b.axis)
    case FrameConstructor(t, r) =>
      && b.FrameConstructor?
      && !t.Empty? && !r.Empty? && !b.translation.Empty? && !b.rotation.Empty?
      && Equals(t, b.translation) && Equals(r, b.rotation)
    case FrameCached(f) =>
      && b.FrameCached?
      && !f.Empty? && !b.frame.Empty?
      && Equals(f, b.frame)
  }

  /** The loop shared by all n-ary kinds: same length, no empty input on
      either side, inputs equal position by position. */
  function PointwiseEquals(xs: seq<Spec>, ys: seq<Spec>): (r: bool)
    ensures r ==> |xs| == |ys|
    ensures r ==> forall i :: 0 <= i < |xs| ==> Wellformed(xs[i]) && Wellformed(ys[i])
    decreases xs
  {
    && |xs| == |ys|
    && NonEmpty(xs) && NonEmpty(ys)
    && forall i :: 0 <= i < |xs| ==> Equals(xs[i], ys[i])
  }

  /** `operator==` on two specifications. */
  function EqualOp(lhs: Spec, rhs: Spec): (r: bool)
    ensures r ==> KindOf(lhs) == KindOf(rhs) && Wellformed(lhs) && Wellformed(rhs)
  {
    Equals(lhs, rhs)
  }

  /** `operator!=` on two specifications. */
  function NotEqualOp(lhs: Spec, rhs: Spec): (r: bool)
    ensures KindOf(lhs) != KindOf(rhs) ==> r
    ensures lhs.Empty? || rhs.Empty? ==> r
  {
    !EqualOp(lhs, rhs)
  }

  /** Specifications of different concrete kinds never compare equal. */
  lemma DifferentKindsUnequal(a: Spec, b: Spec)
    requires KindOf(a) != KindOf(b)
    ensures NotEqualOp(a, b) && NotEqualOp(b, a)
  {
  }

  /** Equality of constants is closeness within `Epsilon`. */
  lemma ConstEquality(a: real, b: real)
    ensures EqualOp(DoubleConst(a), DoubleConst(b)) <==> Abs(a - b) < Epsilon
    ensures EqualOp(DoubleConst(a), DoubleConst(b)) == EqualOp(DoubleConst(b), DoubleConst(a))
    ensures EqualOp(DoubleConst(a), DoubleConst(a))
  {
  }

  /** Closeness is not transitive, so neither is `equals`. */
  lemma ConstEqualityNotTransitive()
    ensures EqualOp(DoubleConst(0.0), DoubleConst(0.0000006))
    ensures EqualOp(DoubleConst(0.0000006), DoubleConst(0.0000012))
    ensures !EqualOp(DoubleConst(0.0), DoubleConst(0.0000012))
  {
  }

  /** Inputs compare by input number, references by name. */
  lemma LeafEquality(m: nat, n: nat, a: string, b: string)
    ensures EqualOp(DoubleInput(m), DoubleInput(n)) <==> m == n
    ensures EqualOp(DoubleReference(a), DoubleReference(b)) <==> a == b
    ensures EqualOp(VectorReference(a), VectorReference(b)) <==> a == b
    ensures EqualOp(RotationReference(a), RotationReference(b)) <==> a == b
    ensures EqualOp(FrameReference(a), FrameReference(b)) <==> a == b
  {
  }

  /** A specification equals itself exactly when it holds no empty pointer. */
  lemma {:induction false} EqualsReflexive(s: Spec)
    ensures EqualOp(s, s) <==> Wellformed(s)
    decreases s
  {
    match s
    case DoubleAdd(xs) => assert Children(s) == xs; PointwiseReflexive(xs);
    case DoubleSub(xs) => assert Children(s) == xs; PointwiseReflexive(xs);
    case DoubleMul(xs) => assert Children(s) == xs; PointwiseReflexive(xs);
    case DoubleDiv(xs) => assert Children(s) == xs; PointwiseReflexive(xs);
    case RotationMul(xs) => assert Children(s) == xs; PointwiseReflexive(xs);
    case FrameMul(xs) => assert Children(s) == xs; PointwiseReflexive(xs);
    case VectorConstructor(x, y, z) =>
      EqualsReflexive(x); EqualsReflexive(y); EqualsReflexive(z);
      WellformedOfChildren(s, [x, y, z]); AllWellformedThree(x, y, z);
    case VectorDoubleMul(v, d) =>
      EqualsReflexive(v); EqualsReflexive(d);
      WellformedOfChildren(s, [v, d]); AllWellformedTwo(v, d);
    case AxisAngle(axis, angle) =>
      EqualsReflexive(axis); EqualsReflexive(angle);
      WellformedOfChildren(s, [axis, angle]); AllWellformedTwo(axis, angle);
    case FrameConstructor(t, r) =>
      EqualsReflexive(t); EqualsReflexive(r);
      WellformedOfChildren(s, [t, r]); AllWellformedTwo(t, r);
    case FrameCached(f) =>
      EqualsReflexive(f);
      WellformedOfChildren(s, [f]); AllWellformedOne(f);
    case _ =>
  }

  /** Well-formedness of a node whose children are `cs`. */
  lemma WellformedOfChildren(s: Spec, cs: seq<Spec>)
    requires Children(s) == cs
    ensures Wellformed(s) <==> !s.Empty? && forall i :: 0 <= i < |cs| ==> Wellformed(cs[i])
  {
  }

  /** The input bound of a node whose children are `cs`. */
  lemma InputsBelowOfChildren(s: Spec, cs: seq<Spec>, n: nat)
    requires Children(s) == cs
    ensures InputsBelow(s, n) <==>
      (s.DoubleInput? ==> s.inputNum < n) && forall i :: 0 <= i < |cs| ==> InputsBelow(cs[i], n)
  {
  }

  /** Three specifications are well formed exactly when each is. */
  lemma AllWellformedThree(x: Spec, y: Spec, z: Spec)
    ensures (forall i :: 0 <= i < 3 ==> Wellformed([x, y, z][i]))
      <==> Wellformed(x) && Wellformed(y) && Wellformed(z)
  {
    var cs := [x, y, z];
    assert cs[0] == x && cs[1] == y && cs[2] == z;
  }

  lemma AllWellformedTwo(x: Spec, y: Spec)
    ensures (forall i :: 0 <= i < 2 ==> Wellformed([x, y][i])) <==> Wellformed(x) && Wellformed(y)
  {
    var cs := [x, y];
    assert cs[0] == x && cs[1] == y;
  }

  lemma AllWellformedOne(x: Spec)
    ensures (forall i :: 0 <= i < 1 ==> Wellformed([x][i])) <==> Wellformed(x)
  {
    var cs := [x];
    assert cs[0] == x;
  }

  lemma {:induction false} PointwiseReflexive(xs: seq<Spec>)
    ensures PointwiseEquals(xs, xs) <==> forall i :: 0 <= i < |xs| ==> Wellformed(xs[i])
    decreases xs
  {
    forall i | 0 <= i < |xs|
      ensures Equals(xs[i], xs[i]) <==> Wellformed(xs[i])
    {
      EqualsReflexive(xs[i]);
    }
  }

  /** `equals` is symmetric, so `a == b` and `b == a` always agree. */
  lemma {:induction false} EqualsSymmetric(a: Spec, b: Spec)
    ensures EqualOp(a, b) == EqualOp(b, a)
    decreases a
  {
    if KindOf(a) == KindOf(b) {
      SameKindSymmetric(a, b);
    }
  }

  lemma {:induction false} SameKindSymmetric(a: Spec, b: Spec)
    requires KindOf(a) == KindOf(b)
    ensures Equals(a, b) == Equals(b, a)
    decreases a, 0
  {
    if IsNary(a) {
      assert IsNary(b);
      PointwiseSymmetric(a.inputs, b.inputs);
    } else {
      match a
      case VectorConstructor(x, y, z) =>
        EqualsSymmetric(x, b.x); EqualsSymmetric(y, b.y); EqualsSymmetric(z, b.z);
      case VectorDoubleMul(v, d) =>
        EqualsSymmetric(v, b.vector); EqualsSymmetric(d, b.scalar);
      case AxisAngle(axis, angle) =>
        EqualsSymmetric(axis, b.axis); EqualsSymmetric(angle, b.angle);
      case FrameConstructor(t, r) =>
        EqualsSymmetric(t, b.translation); EqualsSymmetric(r, b.rotation);
      case FrameCached(f) =>
        EqualsSymmetric(f, b.frame);
      case _ => LeafSymmetric(a, b);
    }
  }

  /** Kinds without sub-specifications. */
  predicate IsLeaf(s: Spec)
  {
    !IsNary(s) && !s.VectorConstructor? && !s.VectorDoubleMul? && !s.AxisAngle?
    && !s.FrameConstructor? && !s.FrameCached?
  }

  lemma LeafSymmetric(a: Spec, b: Spec)
    requires KindOf(a) == KindOf(b) && IsLeaf(a)
    ensures Equals(a, b) == Equals(b, a)
  {
    match a
    case DoubleConst(v) => AbsSymmetric(v, b.value);
    case Quaternion(x, y, z, w) =>
      AbsSymmetric(x, b.qx); AbsSymmetric(y, b.qy); AbsSymmetric(z, b.qz); AbsSymmetric(w, b.qw);
    case _ =>
  }

  lemma AbsSymmetric(x: real, y: real)
    ensures Abs(x - y) == Abs(y - x)
  {
  }

  lemma {:induction false} PointwiseSymmetric(xs: seq<Spec>, ys: seq<Spec>)
    ensures PointwiseEquals(xs, ys) == PointwiseEquals(ys, xs)
    decreases xs, 1
  {
    if |xs| == |ys| {
      forall i | 0 <= i < |xs|
        ensures Equals(xs[i], ys[i]) == Equals(ys[i], xs[i])
      {
        EqualsSymmetric(xs[i], ys[i]);
      }
    }
  }

  /** `!=` is the complement of `==` read in either direction. */
  lemma NotEqualIsComplement(a: Spec, b: Spec)
    ensures NotEqualOp(a, b) <==> !EqualOp(b, a)
  {
    EqualsSymmetric(a, b);
  }

  /** Two n-ary specifications of one kind are equal iff they have the same
      length, no empty input on either side, and pointwise equal inputs. */
  lemma NaryEquality(a: Spec, b: Spec)
    requires IsNary(a) && KindOf(a) == KindOf(b)
    ensures EqualOp(a, b) <==>
      && |a.inputs| == |b.inputs|
      && (forall i :: 0 <= i < |a.inputs| ==> !a.inputs[i].Empty?)
      && (forall i :: 0 <= i < |b.inputs| ==> !b.inputs[i].Empty?)
      && (forall i :: 0 <= i < |a.inputs| ==> EqualOp(a.inputs[i], b.inputs[i]))
  {
    match a
    case DoubleAdd(xs) => assert b.DoubleAdd? && Equals(a, b) == PointwiseEquals(xs, b.inputs);
    case DoubleSub(xs) => assert b.DoubleSub? && Equals(a, b) == PointwiseEquals(xs, b.inputs);
    case DoubleMul(xs) => assert b.DoubleMul? && Equals(a, b) == PointwiseEquals(xs, b.inputs);
    case DoubleDiv(xs) => assert b.DoubleDiv? && Equals(a, b) == PointwiseEquals(xs, b.inputs);
    case RotationMul(xs) => assert b.RotationMul? && Equals(a, b) == PointwiseEquals(xs, b.inputs);
    case FrameMul(xs) => assert b.FrameMul? && Equals(a, b) == PointwiseEquals(xs, b.inputs);
  }

  /** The copy constructor of a vector constructor as written: it copies the
      x component into all three components. */
  function CopyVectorAsWritten(s: Spec): (r: Spec)
    requires s.VectorConstructor?
    ensures r.VectorConstructor?
    ensures r == s <==> s.y == s.x && s.z == s.x
  {
    VectorConstructor(s.x, s.x, s.x)
  }

  /** The copy made as written differs from the original whenever the
      components differ: (1, 2, 3) is copied to (1, 1, 1). */
  lemma CopyVectorAsWrittenDiffers()
    ensures var v := VectorConstructor(DoubleConst(1.0), DoubleConst(2.0), DoubleConst(3.0));
      && Wellformed(v)
      && CopyVectorAsWritten(v) == VectorConstructor(DoubleConst(1.0), DoubleConst(1.0), DoubleConst(1.0))
      && NotEqualOp(CopyVectorAsWritten(v), v)
  {
    var v := VectorConstructor(DoubleConst(1.0), DoubleConst(2.0), DoubleConst(3.0));
    EqualsReflexive(v);
    assert !Equals(DoubleConst(1.0), DoubleConst(2.0));
  }

  /** The copy a copy constructor is meant to make: each component from the
      same component of the original. */
  function CopyVector(s: Spec): (r: Spec)
    requires s.VectorConstructor?
    ensures r == s
  {
    VectorConstructor(s.x, s.y, s.z)
  }

  /** The intended copy compares equal to its original exactly when the
      original holds no empty pointer, and never differs from it. */
  lemma CopyVectorIsFaithful(s: Spec)
    requires s.VectorConstructor?
    ensures EqualOp(CopyVector(s), s) <==> Wellformed(s)
    ensures forall t :: EqualOp(CopyVector(s), t) == EqualOp(s, t)
  {
    EqualsReflexive(s);
  }
}

=== FILE: urdf.dfy ===
/** The read-only robot description the compiler consumes: a URDF model as
    loaded by the external parser, plus the parent-link index that the
    parser's `initTree` derives from it. */
module Urdf {
  import opened Results

  datatype JointType = UnknownType | Revolute | Continuous | Prismatic | Floating | Planar | Fixed

  datatype Vector3 = Vector3(x: real, y: real, z: real)

  datatype Rotation = Rotation(x: real, y: real, z: real, w: real)

  datatype Pose = Pose(position: Vector3, rotation: Rotation)

  datatype Limits = Limits(lower: real, upper: real, velocity: real)

  datatype Joint = Joint(
    name: string,
    jtype: JointType,
    axis: Vector3,
    origin: Pose,              // parent_to_joint_origin_transform
    limits: Limits,
    parentLink: string,
    childLink: string)

  /** A link, of which the compiler only reads the (possibly empty) pointer
      to the joint connecting it to its parent. */
  datatype Link = Link(parentJoint: Option<Joint>)

  /** `links_` and `joints_`: names to possibly empty shared pointers. */
  datatype Model = Model(links: map<string, Option<Link>>, joints: map<string, Option<Joint>>)

  predicate Moveable(j: Joint)
  {
    j.jtype != Fixed
  }

  /** What the parser establishes between links, joints and the parent-link
      index: a link's parent joint is stored under its own name, has that
      link as its child, and the parent-link index agrees with it. */
  ghost predicate Consistent(model: Model, parents: map<string, string>)
  {
    forall l :: l in model.links && model.links[l].Some? && model.links[l].value.parentJoint.Some? ==>
      var j := model.links[l].value.parentJoint.value;
      && j.childLink == l
      && j.name in model.joints && model.joints[j.name] == Some(j)
      && (l in parents ==> parents[l] == j.parentLink)
  }
}
